=== FILE: README.md ===
# invoice-extractor, modelled in Dafny

This project models the decision logic of a serverless invoice extractor.

An S3 upload notification reaches a Lambda handler. The handler:

1. decodes the object key;
2. downloads the PDF;
3. builds a French extraction prompt from the PDF text;
4. asks a Bedrock foundation model for a JSON answer;
5. recovers and canonicalises the invoice fields from that answer, or falls back to label-based extraction;
6. corrects a supplier the model confused with the known client;
7. stamps metadata;
8. stores the record in DynamoDB;
9. answers with a 200 or 500 envelope.

Two configuration pieces sit beside the pipeline:

- the `Config` class, with region precedence, the model table, `set_model`, `validate` and the secret masking of `print_config`;
- the `configure_model.py` helper, which rewrites the `BEDROCK_MODEL_ID=` line of a `.env` file and builds a per-family probe request.

## How the system is represented

- **Values.** Python values are a JSON-like tree (`Json.Value`).
- **Dicts.** A dict is an ordered association list (`Json.Fields`). `Json.Put` behaves as `d[k] = v`: it updates the entry in place when the key exists and appends one otherwise.
- **Exceptions.** Python exceptions form a datatype. Every operation that can raise returns a `Result`.
- **Outside routines and the environment are passed in as parameters.** These are:
  - `json.loads`, `json.dumps` and `str()` of a value, grouped as a `Codec`;
  - the Bedrock invocation;
  - the S3 download and the PDF reader;
  - the clock and the fresh id;
  - the environment and session region.
- **The DynamoDB table** is an in-memory list of attribute maps. It can carry a fault: an exception every call raises.

Modules follow the source files:

| module | models |
|---|---|
| `ModelAdapter`, `Recovery`, `Normalizer`, `ManualExtraction`, `Extraction` | `bedrock_client.py` |
| `DynamoCodec`, `InvoiceStore` | `dynamodb_client.py` |
| `InvoiceExtractor`, `ObjectKey`, `S3Event` | `main.py` |
| `Configuration` | `config.py` |
| `ModelSetup` | `configure_model.py` |
| `Text`, `Numerals`, `Json`, `Wrappers` | shared helpers |

### Behaviour kept as written

In each of these the code does something other than its intent suggests, and the model follows the code:

- **An empty recovered object takes the manual path.** `if extracted_data:` tests truthiness, so an answer that parses to `{}` goes to the label-based fallback instead of normalisation (src_propre/bedrock_client.py:310).
- **A manual label takes the rest of its line.** The supplier pattern captures `[^\n]+`, so `Fournisseur: ACME, Montant: 10` yields `ACME, Montant: 10`, not `ACME`.
- **A labelled amount stays a string.** Only the `€` backstop produces a number.
- **The attribute converter turns a list of booleans into a number set.** This is a fact about `_convert_to_dynamo_format` called on its own, as the repository's local test script does. Python's `bool` is a subclass of `int`, so such a list converts to `NS ["True"]`, and converting that back raises `ValueError` (`DynamoCodec.BoolListUnreadable`). `save_invoice_data` never sends one: it writes every non-scalar field as its `str()`.
- **A whole amount sent as a float reads back as an int.** The table keeps a number in its own normal form, so `1250.0` comes back as the text `1250`, which has no dot and is converted with `int()` (`InvoiceStore.WholeAmountReadAsInt`).
- **An empty AI21 list raises.** An AI21 response whose `completions` list is present but empty fails with an index error instead of giving `""` (src_propre/bedrock_client.py:165).
- **A number-typed index attribute is rejected.** The table declares its three secondary-index attributes as strings. A record whose `numero_facture` is a number therefore makes `put_item` fail with a validation error (`InvoiceStore.NumericInvoiceNumberRejected`).

## Model

| member | source | states |
|---|---|---|
| ModelAdapter.Classify | src_propre/bedrock_client.py:47-60 | the family is the first of anthropic, meta, amazon, ai21, cohere whose token occurs in the lower-cased id; unknown exactly when none occurs |
| ModelAdapter.CreateRequestBody | src_propre/bedrock_client.py:72-140 | every family's body carries the (Anthropic-wrapped or verbatim) prompt and the token limit at that family's own path, with distinct keys; a "\n\nHuman:" stop sequence exactly for Anthropic |
| ModelAdapter.AnthropicBody | src_propre/bedrock_client.py:72-79 | Human/Assistant wrapping, max_tokens_to_sample and the "\n\nHuman:" stop sequence |
| ModelAdapter.MetaBody | src_propre/bedrock_client.py:81-88 | verbatim prompt under max_gen_len, no stop sequences |
| ModelAdapter.AmazonBody | src_propre/bedrock_client.py:90-100 | prompt as inputText, token limit nested at textGenerationConfig.maxTokenCount |
| ModelAdapter.Ai21Body | src_propre/bedrock_client.py:102-119 | verbatim prompt, token limit as maxTokens, no stop sequences |
| ModelAdapter.CohereBody | src_propre/bedrock_client.py:121-131 | verbatim prompt, max_tokens and an empty stop-sequence list |
| ModelAdapter.DefaultBody | src_propre/bedrock_client.py:133-140 | the unknown family uses the Anthropic wrapping and max_tokens_to_sample |
| ModelAdapter.UnknownIsAnthropicWithoutStop | src_propre/bedrock_client.py:72-140 | the unknown body is exactly the Anthropic body without its stop_sequences entry |
| ModelAdapter.StripValue | src_propre/bedrock_client.py:153-156 | `.strip()` succeeds exactly on strings and returns a stripped text |
| ModelAdapter.First | src_propre/bedrock_client.py:161 | indexing a list at 0 gives its head, and an empty list raises IndexError |
| ModelAdapter.GetFrom | src_propre/bedrock_client.py:165 | `.get` with a default works exactly on objects |
| ModelAdapter.ParseResponse | src_propre/bedrock_client.py:152-183 | whatever other keys the answer holds, the text at the family's own path is read back stripped; an unknown family reads completion, then generation, then outputText, the first present, and a non-string there raises AttributeError; missing or empty results/generations give ""; AI21 without completions gives "" and with an empty list raises IndexError; an unknown body with none of the three keys gives its str() |
| ModelAdapter.ParseProviderResponse | src_propre/bedrock_client.py:152-183 | each family's minimal response shape carries the generated text at that family's path, and reads back to it stripped (partner of the request builders) |
| Recovery.GroupStart | src_propre/bedrock_client.py:198 | the fenced group starts past the fence, the optional `json` tag and whitespace |
| Recovery.FirstClose | src_propre/bedrock_client.py:198 | the lazy `.*?` stops at the first `}` followed by whitespace and a closing fence |
| Recovery.BlockAt | src_propre/bedrock_client.py:198-200 | a fenced match at a position starts with `{` and ends at the first possible `}` that closes it |
| Recovery.FencedBlocks | src_propre/bedrock_client.py:198-200 | every fenced candidate is a `{...}` substring of the cleaned text |
| Recovery.GreedySpan | src_propre/bedrock_client.py:222 | a span exists iff some `{` precedes some `}`; it runs from the first `{` to the last `}` |
| Recovery.FirstObject | src_propre/bedrock_client.py:202-210 | the result is the first candidate that parses to an object, and there is one iff some candidate does |
| Recovery.ExtractJson | src_propre/bedrock_client.py:198-233 | first fenced block parsing to an object, else the whole stripped text, else the greedy span, else None; non-objects never returned |
| Recovery.ExtractJsonIsFirstCandidate | src_propre/bedrock_client.py:198-233 | the three stages equal "first object among fenced blocks, whole text, greedy span" |
| Normalizer.TableFacts | src_propre/bedrock_client.py:246-254 | each canonical key is the first, lower-case alias of its own field only, and the seven keys are distinct |
| Normalizer.LowerGet | src_propre/bedrock_client.py:262-265 | the case-insensitive lookup finds the last input key whose lower case is the name (later keys overwrite), None iff there is none |
| Normalizer.AliasValue | src_propre/bedrock_client.py:263-268 | a field takes the value of the first alias in table order that is present, even a null one, and null when none is |
| Normalizer.Normalize | src_propre/bedrock_client.py:246-277 | the output begins with all seven canonical keys holding their alias values, then copies exactly the input keys that are no alias; keys stay distinct |
| Normalizer.NormalizeCanonical | src_propre/bedrock_client.py:263-269 | looking up a canonical key in the output gives its alias value |
| Normalizer.NormalizeKeepsUnknown | src_propre/bedrock_client.py:271-277 | a key matching no alias keeps its value under its original name |
| Normalizer.NormalizeIdempotent | src_propre/bedrock_client.py:246-277 | normalising a normalised record returns it unchanged |
| Normalizer.Validate | src_propre/bedrock_client.py:354-361 | validation keeps every entry and its order, and adds each missing optional field as null, nothing else |
| Normalizer.AddMissing | src_propre/bedrock_client.py:358-361 | appending missing fields keeps the prefix and gives null exactly to the absent listed fields |
| Normalizer.ValidateNormalized | src_propre/bedrock_client.py:308-318 | a normalised record already has every optional field, so validation leaves it unchanged |
| ManualExtraction.RunEnd | src_propre/bedrock_client.py:388-391 | a greedy character-class run ends at the first character outside the class |
| ManualExtraction.Backtrack | src_propre/bedrock_client.py:395 | the separator run gives back characters from its end, one at a time, until the group can start |
| ManualExtraction.TryAlternatives | src_propre/bedrock_client.py:388-395 | the alternatives are tried in order; the hit is the first one that matches, with the longest separator run |
| ManualExtraction.Search | src_propre/bedrock_client.py:395 | `re.search` reports the first match (leftmost start, first alternative, longest separator run) with the group's end, and none exactly when the pattern matches nowhere |
| ManualExtraction.FirstMatchUnique | src_propre/bedrock_client.py:395 | there is at most one first match, so the reported one is determined by the text |
| ManualExtraction.EuroFrom | src_propre/bedrock_client.py:400 | the leftmost `digits[.,]dd spaces €` occurrence from a position, none before it |
| Text.Replace | src_propre/bedrock_client.py:403 | every comma becomes a dot (and, in `unquote_plus`, every `+` a space), every other character is kept, and none of the replaced character is left |
| ManualExtraction.EuroAmount | src_propre/bedrock_client.py:400-403 | the amount is the group of the leftmost `€` occurrence with its comma made a dot, always a float, and there is none iff no occurrence exists |
| ManualExtraction.Captured | src_propre/bedrock_client.py:394-397 | a field is null iff its pattern matches nowhere, otherwise the stripped group of the first match |
| ManualExtraction.SupplierLineCaptured | src_propre/bedrock_client.py:388-397 | a text opening with `Fournisseur: <value>` and a newline yields the stripped value as supplier |
| ManualExtraction.Record | src_propre/bedrock_client.py:376-384 | the fallback record has exactly the seven canonical keys; chrono, couverture and nom_fichier are null |
| ManualExtraction.ManualExtract | src_propre/bedrock_client.py:376-405 | supplier, number and date are their captures; the amount is its capture when truthy, otherwise the `€` backstop or the empty capture |
| Extraction.InterpretResponse | src_propre/bedrock_client.py:305-321 | a non-empty recovered object is normalised; a missing or empty one sends the raw text to the manual fallback; either way the record starts with the seven canonical keys |
| Extraction.ManualRecord | src_propre/bedrock_client.py:320-321 | the fallback record is canonical too |
| Extraction.ExtractInvoiceData | src_propre/bedrock_client.py:279-330 | the request is built for the classified family; an invocation or parse failure is re-raised; otherwise the answer is interpreted, and every success is canonical |
| Extraction.ExtractFromProviderAnswer | src_propre/bedrock_client.py:279-321 | whatever the family, and whatever other keys the answer holds, an answer carrying text t at the family's path is interpreted from strip(t) |
| DynamoCodec.PutAttr | src_propre/dynamodb_client.py:225-248 | storing under a fresh key appends the attribute |
| DynamoCodec.DecodeStrings | src_propre/dynamodb_client.py:308-309 | a string set read back gives the list of the strings it was written from |
| DynamoCodec.ParseNumber | src_propre/dynamodb_client.py:296-303 | a text with a dot converts iff it is a float literal, and then to that float; a text without one converts iff it is an int literal, and then to its value |
| DynamoCodec.DecodeNumber | src_propre/dynamodb_client.py:294-303 | N reads as its parsed number, and as the raw string when conversion fails |
| DynamoCodec.DecodeNumberSet | src_propre/dynamodb_client.py:310-311 | NS decodes element-wise, and fails iff some element does not convert |
| DynamoCodec.WithParsedData | src_propre/dynamodb_client.py:315-320 | a map with string raw_data gains parsed_data, its JSON parse or {} on failure, and nothing else changes; no raw_data, no change |
| DynamoCodec.DecodeEncode | src_propre/dynamodb_client.py:213-313 | a storable value (strings, ints, bools, maps, string lists, int lists, no None, no raw_data) reads back as itself |
| DynamoCodec.DecodeEncodeInt | src_propre/dynamodb_client.py:233-234 | an int survives the N round trip through its decimal text |
| DynamoCodec.DecodeEncodeList | src_propre/dynamodb_client.py:237-242 | a storable list reads back as itself through SS or NS |
| DynamoCodec.DecodeIntTexts | src_propre/dynamodb_client.py:241-242 | the decimal texts of ints decode back to the ints |
| DynamoCodec.DecodeEncodeFields | src_propre/dynamodb_client.py:213-322 | a storable map reads back as itself |
| DynamoCodec.DecodeEncodeFloat | src_propre/dynamodb_client.py:233-234 | a float reads back as whatever its printed form converts to |
| DynamoCodec.DecodeEncodeItem | src_propre/dynamodb_client.py:213-322 | a flat item reads back as its reread entries plus the parsed_data rule |
| DynamoCodec.NullEntryDropped | src_propre/dynamodb_client.py:226-227 | a None-valued key is lost |
| DynamoCodec.MixedListBecomesText | src_propre/dynamodb_client.py:243-245 | a heterogeneous list reads back as its JSON text, not a list |
| DynamoCodec.BoolListUnreadable | src_propre/dynamodb_client.py:241-242 | a list of booleans is written as NS ["True"], which cannot be read back |
| DynamoCodec.ExponentFormReadAsText | src_propre/dynamodb_client.py:298-303 | a number text in exponent form without a dot reads back as a string |
| InvoiceStore.Flattened | src_propre/dynamodb_client.py:186-192 | a field's stored value is always a scalar, and a scalar is kept as it is |
| InvoiceStore.ExtractedShape | src_propre/dynamodb_client.py:171-192 | the whitelist loop yields exactly the listed fields the record holds non-None, flattened, with distinct keys |
| InvoiceStore.ItemWith | src_propre/dynamodb_client.py:161-192 | the item starts with invoice_id, created_at and raw_data (JSON of the whole record), then only whitelisted non-None fields; all scalar; keys distinct |
| InvoiceStore.Attribute | src_propre/dynamodb_client.py:265 | the attribute lookup finds an entry with that name, or none exists |
| InvoiceStore.FindItem | src_propre/dynamodb_client.py:262-270 | the item found has the key, and none is found iff no item has it |
| InvoiceStore.Without | src_propre/dynamodb_client.py:419-422 | removal keeps exactly the items with another key |
| InvoiceStore.Select | src_propre/dynamodb_client.py:392-399 | the scan keeps exactly the items the filter accepts |
| InvoiceStore.StoredItem | src_propre/dynamodb_client.py:198-201 | the table keeps every attribute, in order, with each number replaced by its normal form; an item with a number it cannot hold is refused |
| InvoiceStore.StoredAttribute | src_propre/dynamodb_client.py:198-201 | looking an attribute up in the kept item gives the kept form of the attribute sent |
| InvoiceStore.StoredKey | src_propre/dynamodb_client.py:198-201 | keeping an item changes neither its key nor whether the schema accepts it |
| InvoiceStore.DecodeAll | src_propre/dynamodb_client.py:344-345 | decoding a page succeeds iff every item decodes, in order, and fails with the first item's error |
| InvoiceStore.SaveInvoiceData | src_propre/dynamodb_client.py:149-211 | a fault is re-raised; otherwise the save succeeds iff the table accepts the written item (key and index types, storable numbers, size limit), failing with ValidationException; the returned id is the stored invoice_id and the item, numbers in the table's form, replaces any with that key |
| InvoiceStore.UpsertStores | src_propre/dynamodb_client.py:198-201 | after put_item the key finds the new item, and every other item is kept |
| InvoiceStore.GetInvoice | src_propre/dynamodb_client.py:252-277 | a ClientError or a missing key gives None; another fault is raised; when an item has the key, its decoding is returned, or its decoding error raised |
| InvoiceStore.Matching | src_propre/dynamodb_client.py:335-341 | an index query keeps exactly the items whose attribute is that string |
| InvoiceStore.QueryIndex | src_propre/dynamodb_client.py:324-376 | a ClientError gives [], another fault is raised, otherwise the decoded matches |
| InvoiceStore.QueryByDateRange | src_propre/dynamodb_client.py:378-406 | a ClientError gives []; otherwise the decoded items whose date_facture string lies between the bounds |
| InvoiceStore.InvertedRangeEmpty | src_propre/dynamodb_client.py:392-399 | a start after the end matches nothing |
| InvoiceStore.DeleteInvoice | src_propre/dynamodb_client.py:408-429 | a ClientError, including the validation error for an empty key, gives False and no change; otherwise True, and exactly the items with that key are gone |
| InvoiceStore.SaveKeepsWellFormed | src_propre/dynamodb_client.py:59-134 | saving keeps one item per invoice_id |
| InvoiceStore.DeleteKeepsWellFormed | src_propre/dynamodb_client.py:408-429 | deleting keeps one item per invoice_id |
| InvoiceStore.GetAfterDelete | src_propre/dynamodb_client.py:252-277 | a deleted invoice is no longer found |
| InvoiceStore.WrittenKey | src_propre/dynamodb_client.py:161-168 | the written item's key is the id |
| InvoiceStore.ReadBack | src_propre/dynamodb_client.py:186-192 | strings and booleans read back as themselves, other non-scalars as their str(); a float reads back as the conversion of its normal form, and not at all when the table cannot hold it |
| InvoiceStore.ReadBackInt | src_propre/dynamodb_client.py:296-303 | an int whose text is already in normal form reads back as itself |
| InvoiceStore.WholeAmountReadAsInt | src_propre/dynamodb_client.py:296-303 | a float 1250.00 printed as 1250.0 and kept as 1250 reads back as the int 1250 |
| InvoiceStore.StoredScalar | src_propre/dynamodb_client.py:225-248 | a scalar's attribute is kept iff its read-back exists, and the kept attribute decodes to that read-back |
| InvoiceStore.DecodeStoredItem | src_propre/dynamodb_client.py:198-322 | decoding a kept item gives each entry's read-back plus the parsed_data rule |
| InvoiceStore.DecodeWritten | src_propre/dynamodb_client.py:161-322 | reading a kept written item gives the id, timestamp, raw_data, its parse as parsed_data, and each held whitelisted field read back |
| InvoiceStore.SavedFound | src_propre/dynamodb_client.py:149-270 | after a save the kept item has the returned id as key, is in the table, and get_item finds it |
| InvoiceStore.SaveThenGet | src_propre/dynamodb_client.py:149-322 | after a save, get_invoice of the returned id gives the saved record, each field as the table reads it back |
| InvoiceStore.SaveKeepsReadable | src_propre/dynamodb_client.py:195-201 | saving keeps every stored item decodable |
| InvoiceStore.WrittenAttribute | src_propre/dynamodb_client.py:184-195 | a held whitelisted field is written as the encoding of its flattened value |
| InvoiceStore.WrittenAttributeAbsent | src_propre/dynamodb_client.py:184-192 | a None or missing whitelisted field is not written |
| InvoiceStore.IndexAttribute | src_propre/dynamodb_client.py:85-130 | an index attribute is acceptable iff the record gives that field nothing or a non-empty string |
| InvoiceStore.StoredWrittenIff | src_propre/dynamodb_client.py:184-201 | the written item can be kept iff every number among the held whitelisted fields has a normal form |
| InvoiceStore.SaveAcceptedIff | src_propre/dynamodb_client.py:59-211 | without a fault, save succeeds iff the id is not empty, each of the three indexed fields is absent or a non-empty string, every number can be held, and the kept item is within the size limit; else ValidationException |
| InvoiceStore.NumericInvoiceNumberRejected | src_propre/dynamodb_client.py:85-101 | a number-typed numero_facture makes the save fail |
| InvoiceStore.SavedUnderIndex | src_propre/dynamodb_client.py:324-376 | a saved item whose indexed field is a string is among that index's matches for the string |
| InvoiceStore.QueryFindsSaved | src_propre/dynamodb_client.py:344-345 | a readable page holding the written item decodes to a list containing the saved record |
| InvoiceStore.SaveThenQueryBySupplier | src_propre/dynamodb_client.py:351-376 | after a save, querying the record's supplier finds the saved record |
| InvoiceStore.SaveThenQueryByInvoiceNumber | src_propre/dynamodb_client.py:324-349 | after a save, querying the record's invoice number finds the saved record |
| InvoiceExtractor.FirstContained | src_propre/main.py:136-141 | the first name in list order that occurs in the text; none iff no name occurs |
| InvoiceExtractor.FixSupplierWith | src_propre/main.py:87-146 | a falsy supplier is left alone; a non-string truthy one raises AttributeError; without a known client the record is unchanged; with one, only fournisseur changes, to the first known supplier in the upper-cased filename or null |
| InvoiceExtractor.FixSupplierIdempotentWith | src_propre/main.py:123-146 | correcting a corrected record changes nothing when no supplier name mentions a client |
| InvoiceExtractor.KnownListsApart | src_propre/main.py:99-121 | no known supplier name contains a known client name, and each is upper case |
| InvoiceExtractor.FixSupplierIdempotent | src_propre/main.py:87-146 | the corrector with the real lists is idempotent |
| InvoiceExtractor.ClientNamed | src_propre/main.py:127-130 | example: "BOARDRIDERS TRADING ESPAÑA" is recognised as the client |
| InvoiceExtractor.TelefonicaInFilename | src_propre/main.py:136-141 | example: the sample invoice's file name yields TELEFONICA |
| InvoiceExtractor.SupplierTakenFromFilename | src_propre/main.py:87-146 | a record naming the client as supplier gets TELEFONICA from that file name |
| InvoiceExtractor.Excerpt | src_propre/main.py:160-163 | texts of at most 10000 characters are kept; longer ones become their first 10000 plus the truncation marker |
| InvoiceExtractor.ExcerptBounds | src_propre/main.py:160-163 | the excerpt is bounded and starts with the kept prefix of the text |
| InvoiceExtractor.FillRoundTrip | src_propre/main.py:166-213 | the text can be cut back out of a filled template, and the file name follows it |
| InvoiceExtractor.CreatePromptContents | src_propre/main.py:148-215 | the prompt starts with the fixed intro, embeds exactly the excerpt, and contains the file name |
| Json.FloatTruthiness | src_propre/main.py:76-77 | example of Python truthiness as `if not` tests it: a NaN or infinite float is truthy and a decimal zero is falsy |
| InvoiceExtractor.NameDefaulted | src_propre/main.py:76-77 | nom_fichier becomes the file name only when falsy; nothing else changes |
| InvoiceExtractor.WithMetadata | src_propre/main.py:76-79 | extraction_date and pdf_path are always set, nom_fichier defaulted, every other key unchanged |
| InvoiceExtractor.WithMetadataKeys | src_propre/main.py:76-79 | the record's keys stay in place and only the three metadata keys may be added |
| InvoiceExtractor.ExtractFromPdf | src_propre/main.py:46-85 | empty text raises ValueError; extraction and correction errors propagate; correction runs before the metadata is added |
| InvoiceExtractor.FixSupplierKeepsKeys | src_propre/main.py:123-146 | the corrector never removes a key |
| InvoiceExtractor.ExtractFromPdfKeys | src_propre/main.py:62-79 | every key of the model's answer survives, and extraction_date, pdf_path and nom_fichier are present |
| ObjectKey.UnquotePlain | src_propre/main.py:231 | a key without `%` or `+` decodes to itself |
| ObjectKey.UnquotePlusRoundTrip | src_propre/main.py:231 | percent-decoding (section 2.1 of RFC 3986, `+` as space) inverts the form-urlencoding of an ASCII key |
| ObjectKey.HighEscapes | src_propre/main.py:231 | a run of non-ASCII `%XX` escapes is collected as bytes for the UTF-8 decoder |
| ObjectKey.FileName | src_propre/main.py:232 | the name has no slash, is not ".", and occurs in the key |
| ObjectKey.FileNameOfPath | src_propre/main.py:232 | the name of `dir/name` is `name` |
| ObjectKey.FileNameOfName | src_propre/main.py:232 | a plain name is its own name |
| ObjectKey.LocalPath | src_propre/main.py:238 | the local copy lives under /tmp/ |
| ObjectKey.LocalPathName | src_propre/main.py:232-238 | the local path's file name is the key's file name |
| S3Event.Index | src_propre/main.py:229-231 | subscripting an object gives the value or KeyError naming the key; a non-object raises TypeError |
| S3Event.First | src_propre/main.py:229 | `[0]` gives a list's head or IndexError |
| S3Event.ReadNotification | src_propre/main.py:229-231 | a notification for an ASCII key, form-urlencoded, reads back as its bucket and key |
| S3Event.NoRecords | src_propre/main.py:229 | an event without Records fails with KeyError('Records') |
| S3Event.Process | src_propre/main.py:227-247 | a success read the event, downloaded to /tmp/<name>, extracted that file and saved the record; read, download, extraction and save errors are raised as they are; when every step succeeds the result is the fresh id, the record and the table after the save |
| S3Event.ProcessS3Event | src_propre/main.py:217-270 | the status is 200 or 500, 200 iff the steps succeed, with the id and data in the body; 500 carries the error text and leaves the table unchanged |
| S3Event.SuccessBodyFields | src_propre/main.py:255-259 | the success body names the id and the data |
| S3Event.FailureBodyFields | src_propre/main.py:266-269 | the failure body names the error and the fixed message |
| S3Event.ProcessSaves | src_propre/main.py:247 | the announced id is the fresh id the save stored |
| S3Event.AnnouncedIdFindsInvoice | src_propre/main.py:247-260 | the id in a 200 body finds the saved record in the table |
| S3Event.FailureNamesError | src_propre/main.py:262-270 | a 500 body reads back with the error's message |
| S3Event.DownloadTarget | src_propre/main.py:231-244 | a key `dir/name` is downloaded to /tmp/name and extracted with file name `name` |
| S3Event.EmptyEventFails | src_propre/main.py:227-270 | an empty event gives a 500 naming KeyError('Records') without touching the table |
| S3Event.StoredRecordComplete | src_propre/main.py:244-247 | the stored record holds the seven canonical keys, extraction_date and pdf_path |
| Configuration.FirstSet | lambda_package/config.py:22-35 | the first set (non-empty) candidate, none iff none is set |
| Configuration.Region | lambda_package/config.py:14-35 | a set environment region wins, else a set session region, else us-west-2; never empty |
| Configuration.RegionPrecedence | lambda_package/config.py:14-35 | the region is the first set of environment, session and default |
| Configuration.FindModelIn | lambda_package/config.py:140-141 | the id found belongs to an entry with that key; none iff no entry has it |
| Configuration.FindModel | lambda_package/config.py:82-108 | the table lookup finds the id of the key, none iff the key is absent |
| Configuration.DefaultModelKnown | lambda_package/config.py:77-84 | the default model id is the claude-3-sonnet entry of the table |
| Configuration.TableModelsClassified | lambda_package/config.py:82-108 | every id in the model table classifies to a known family |
| Configuration.SetModel | lambda_package/config.py:130-147 | returns true iff the key is in the table; on success the model id is the table value, on failure the configuration is unchanged |
| Configuration.SetModelIdempotent | lambda_package/config.py:130-147 | setting the same key twice equals setting it once |
| Configuration.Errors | lambda_package/config.py:178-196 | each error message is listed iff its condition holds |
| Configuration.Validate | lambda_package/config.py:171-204 | valid iff both credentials are set and size and timeout are positive; an unknown model id only warns |
| Configuration.ValidateIgnoresModel | lambda_package/config.py:186-189 | the model id never changes the verdict |
| Configuration.SetModelThenValidate | lambda_package/config.py:140-189 | after a successful set_model there is no warning and the verdict is unchanged |
| Configuration.ShownWithoutSecretLetters | lambda_package/config.py:234-238 | a name holding none of the letters k, s, t, p (lower-cased) contains none of the secret words, so its value is shown |
| Configuration.ListSettingsReveals | lambda_package/config.py:234-238 | without hiding the list is the settings themselves; with hiding, every entry whose name is no secret name is listed unchanged |
| Configuration.MaxTokensMasked | lambda_package/config.py:234-238 | example: BEDROCK_MAX_TOKENS is masked too, because the rule is a substring test |
| Configuration.LogLevelShown | lambda_package/config.py:234-238 | example: LOG_LEVEL is shown |
| ModelSetup.FirstLine | configure_model.py:149 | a line ends at its first newline, or at the end of the text |
| ModelSetup.Rewrite | configure_model.py:152-163 | every line whose stripped form starts with the prefix is replaced, others kept in order; without one, a comment-plus-assignment element is appended |
| ModelSetup.RewriteFixed | configure_model.py:152-163 | rewriting lines that already hold the assignment is a no-op |
| ModelSetup.RewriteTwice | configure_model.py:152-163 | rewriting twice equals rewriting once |
| ModelSetup.RewriteSplits | configure_model.py:149-167 | the rewritten element list, written out and read back, gives lines |
| ModelSetup.RewriteFileIdempotent | configure_model.py:148-167 | rewriting a written file a second time leaves it unchanged |
| ModelSetup.UpdateFileIdempotent | configure_model.py:148-167 | updating the .env file twice with the same id equals updating it once |
| ModelSetup.TestRequestBody | configure_model.py:226-257 | the probe shape is chosen by anthropic.claude, meta.llama, amazon.titan, in that order, else the generic inputs shape |
| ModelSetup.ClaudeProbeAgrees | configure_model.py:226-232 | a Claude probe id is Anthropic, and the probe puts prompt and limit where the adapter does |
| ModelSetup.LlamaProbeAgrees | configure_model.py:233-239 | a Llama probe id is Meta (or Anthropic), and for Meta agrees with the adapter |
| ModelSetup.TitanProbeAgrees | configure_model.py:240-248 | a Titan probe id has a known family, and for Amazon agrees with the adapter |
| ModelSetup.GenericProbeDiffers | configure_model.py:249-257 | the generic probe has no prompt entry, while the adapter's body for that id has one |

## Left out

- I/O is out of the model. This covers:
  - the S3 download and `os.remove`;
  - `invoke_model`;
  - `put_item`, `get_item`, `query`, `scan` and `delete_item`;
  - the file reads and writes of `update_env_file`;
  - logging and `print`;
  - PDF text extraction.

  Results come in as parameters, or the table is an in-memory list.
- `create_table` and its waiter are left out. The declared schema enters only as the acceptance rule for the key and the three index attributes.
- InvoiceStore.QueryIndex: the model returns every matching item, as if one response page held them all. The code reads only the first response, which stops at 1 MB, so `SaveThenQueryBySupplier` and `SaveThenQueryByInvoiceNumber` assume the matches fit in one page.
- InvoiceStore.QueryByDateRange: the model returns every item in the range. The code's scan applies its filter only to the first 1 MB of items scanned, so it can return some of the matches, or none, while others exist.
- InvoiceStore.DeleteInvoice: an empty id is refused as the table refuses an empty key. Other invalid keys, such as one over the table's key size limit, are not modelled.
- InvoiceStore.GetInvoice: reads and index queries see the table's latest state, as if strongly consistent. The code's `get_item` does not ask for a consistent read, and index queries are always eventually consistent, so right after a save the service may still answer `None` or `[]`. `SaveThenGet`, `QueryFindsSaved`, `SaveThenQueryBySupplier`, `SaveThenQueryByInvoiceNumber` and `S3Event.AnnouncedIdFindsInvoice` hold only under that assumption.
- Floats are opaque decimal literals. Their `str()` and `float()` are abstract, so `DynamoCodec.DecodeEncodeFloat` states only what the printed form converts to.
- Json.Truthy: a float literal is falsy exactly when it is a decimal literal with no non-zero digit, and NaN and the infinities are truthy. A literal so small that Python rounds it to 0.0 (such as `1e-400`) is taken as truthy, because rounding is not modelled.
- DynamoCodec.ParseNumber: `int()` and `float()` are modelled without Python's surrounding whitespace, digit underscores and non-ASCII digits. The table's normal form of a number never contains them.
- The UTF-8 decoding of non-ASCII `%XX` escapes in `unquote_plus` is a parameter. `ObjectKey.UnquotePlusRoundTrip` covers ASCII keys only.
- `json.loads`, `json.dumps` and `repr` are uninterpreted functions. `json.dumps` never fails in the model.
- The uuid and `datetime.now` values are parameters.
- `S3Event.ProcessS3Event` takes the prompt template as a parameter. `InvoiceExtractor.CreatePrompt` uses the real template.
- `InvoiceExtractor.ExtractFromPdf` takes the extractor as a function.
- The ValidationException message text is illustrative. Only its error code is stated.
- InvoiceStore.SaveInvoiceData: the table's number normal form and its 400 KB item size measure are parameters of the service (`numbers`, `withinLimit`), not computed. The NaN, infinity and 38-digit limits enter only through `numbers` answering None.
- InvoiceStore.SaveInvoiceData: when several rules fail, which ValidationException message the table gives is not modelled; the rules are checked in a fixed order.
- InvoiceStore.StoredItem: string sets, number sets and maps are kept as sent. `save_invoice_data` never writes them, so the table's rules for them (no empty set, no duplicates, numbers inside sets) are not modelled.
- InvoiceExtractor.FixSupplierWith: upper-casing covers ASCII and Latin-1 letters only. Python's `str.upper()` is full Unicode (`ß` becomes `SS`, `ı` becomes `I`).
- ModelAdapter.Classify: lower-casing covers ASCII and Latin-1 letters only, where Python's `str.lower()` is full Unicode.
- Normalizer.LowerGet: the same Latin-1 limit applies to the case-insensitive key lookup.
- ManualExtraction.Search: `\d` matches ASCII digits only, and case-insensitive matching folds ASCII and Latin-1 only. Python's `re` with `str` patterns also takes other Unicode digits (such as `٣`) and folds all of Unicode.
- `lambda_handler` only reads `AWS_REGION` and calls `process_s3_event`. It is modelled by `S3Event.ProcessS3Event`.
- `lambda_package/main.py` is an older copy of the orchestrator and is not part of this model.
- Some `Config` behaviour is not modelled:
  - `get_aws_credentials`;
  - the `int()`/`float()` parsing of environment values at import;
  - the attribute enumeration of `to_dict`.

  `Configuration.ListSettings` takes the name/value list directly. Its masking rule is stated in its own contract; `Configuration.ListSettingsReveals` and `Configuration.ShownWithoutSecretLetters` relate it to the unmasked list.
- `Configuration.FindModel` assumes the table's keys are distinct, which the table's literal keys are.
- The model does not cover `test_model_access`'s invocation and response printing, nor `test_connection`.
- `ModelSetup.UpdateFileIdempotent` assumes text-mode reading leaves newlines as `\n` and that the model id contains no newline.
- `ModelSetup.LlamaProbeAgrees` does not claim agreement for an id containing both "meta.llama" and "anthropic", because the adapter classifies that as Anthropic.

=== FILE: config.dfy ===
/** The configuration rules of `lambda_package/config.py`: where the region
    comes from, the table of known Bedrock models, switching the model by its
    short name, validating the settings and hiding secrets when the settings
    are listed. The environment, the AWS session and the console are outside
    the model: what they yield is passed in, and what would be printed is
    returned. */
module Configuration {
  import opened Wrappers
  import opened Json
  import Text
  import ModelAdapter

  // ---------------------------------------------------------------------------
  // Region

  /** A setting the source tests with `if value:` — present and not empty. */
  predicate IsSet(o: Option<string>) {
    o.Some? && o.value != []
  }

  const DefaultRegion := "us-west-2"

  /** The first candidate that is set; `None` when there is none. */
  function FirstSet(candidates: seq<Option<string>>): (r: Option<string>)
    ensures r.Some? <==> exists i | 0 <= i < |candidates| :: IsSet(candidates[i])
    ensures r.Some? ==> exists i | 0 <= i < |candidates| ::
      && candidates[i] == r
      && IsSet(candidates[i])
      && forall j | 0 <= j < i :: !IsSet(candidates[j])
  {
    if candidates == [] then None
    else if IsSet(candidates[0]) then candidates[0]
    else
      var r := FirstSet(candidates[1..]);
      assert forall i | 1 <= i < |candidates| :: candidates[i] == candidates[1..][i - 1];
      r
  }

  /** `get_aws_region`. `session` is the region of a default boto3 session:
      `None` both when it has none and when creating the session raised. */
  function Region(env: Option<string>, session: Option<string>): (r: string)
    ensures r != []
    ensures IsSet(env) ==> r == env.value
    ensures !IsSet(env) && IsSet(session) ==> r == session.value
    ensures !IsSet(env) && !IsSet(session) ==> r == DefaultRegion
  {
    if IsSet(env) then env.value
    else if IsSet(session) then session.value
    else DefaultRegion
  }

  /** The region is the first set one of the variable, the session and the
      default, in that order. */
  lemma RegionPrecedence(env: Option<string>, session: Option<string>)
    ensures FirstSet([env, session, Some(DefaultRegion)]) == Some(Region(env, session))
  {
    var c := [env, session, Some(DefaultRegion)];
    assert c[1..] == [session, Some(DefaultRegion)];
    assert c[1..][1..] == [Some(DefaultRegion)];
    assert FirstSet(c[1..][1..]) == Some(DefaultRegion);
    if !IsSet(env) {
      assert FirstSet(c) == FirstSet(c[1..]);
      if !IsSet(session) {
        assert FirstSet(c[1..]) == FirstSet(c[1..][1..]);
      }
    }
  }

  // ---------------------------------------------------------------------------
  // The model table

  /** `BEDROCK_AVAILABLE_MODELS`: short name and model id, in source order. */
  const AvailableModels: seq<(string, string)> := [
    ("claude-3-sonnet", "anthropic.claude-3-sonnet-20240229-v1:0"),
    ("claude-3-haiku", "anthropic.claude-3-haiku-20240307-v1:0"),
    ("claude-3-opus", "anthropic.claude-3-opus-20240229-v1:0"),
    ("claude-2.1", "anthropic.claude-v2:1"),
    ("claude-instant", "anthropic.claude-instant-v1"),
    ("titan-text-express", "amazon.titan-text-express-v1"),
    ("titan-text-lite", "amazon.titan-text-lite-v1"),
    ("titan-embed", "amazon.titan-embed-text-v1"),
    ("jurassic-2-ultra", "ai21.j2-ultra-v1"),
    ("jurassic-2-mid", "ai21.j2-mid-v1"),
    ("cohere-command", "cohere.command-text-v14"),
    ("cohere-embed", "cohere.embed-english-v3"),
    ("llama-3-70b", "meta.llama3-70b-instruct-v1:0"),
    ("llama-3-8b", "meta.llama3-8b-instruct-v1:0"),
    ("llama-2-70b", "meta.llama2-70b-chat-v1"),
    ("llama-2-13b", "meta.llama2-13b-chat-v1")
  ]

  /** `BEDROCK_MODEL_ID` when the environment does not set it. */
  const DefaultModelId := "anthropic.claude-3-sonnet-20240229-v1:0"

  predicate IsModelKey(key: string) {
    exists i | 0 <= i < |AvailableModels| :: AvailableModels[i].0 == key
  }

  predicate IsKnownModelId(id: string) {
    exists i | 0 <= i < |AvailableModels| :: AvailableModels[i].1 == id
  }

  /** The model id a short name stands for, found from the front of `table`. */
  function FindModelIn(table: seq<(string, string)>, key: string): (r: Option<string>)
    ensures r.None? <==> forall i | 0 <= i < |table| :: table[i].0 != key
    ensures r.Some? ==> exists i | 0 <= i < |table| :: table[i] == (key, r.value)
  {
    if table == [] then None
    else if table[0].0 == key then Some(table[0].1)
    else
      var r := FindModelIn(table[1..], key);
      assert forall i | 1 <= i < |table| :: table[i] == table[1..][i - 1];
      r
  }

  function FindModel(key: string): (r: Option<string>)
    ensures r.Some? <==> IsModelKey(key)
    ensures r.Some? ==> IsKnownModelId(r.value)
  {
    FindModelIn(AvailableModels, key)
  }

  /** The default model id is the one of `claude-3-sonnet`, so a configuration
      left at its default names a known model. */
  lemma DefaultModelKnown()
    ensures FindModel("claude-3-sonnet") == Some(DefaultModelId)
    ensures IsKnownModelId(DefaultModelId)
  {
    assert AvailableModels[0] == ("claude-3-sonnet", DefaultModelId);
  }

  /** An id that starts with a family's token is not of the unknown family. */
  lemma PrefixClassified(id: string, k: nat)
    requires k < |ModelAdapter.FamilyTokens|
    requires Text.StartsWith(id, ModelAdapter.FamilyTokens[k].0)
    ensures ModelAdapter.Classify(id) != ModelAdapter.Unknown
  {
    var token := ModelAdapter.FamilyTokens[k].0;
    Text.StartsWithContains(id, token);
    Text.LowerIdentity(token);
    Text.LowerKeepsOccurrence(id, token);
  }

  /** One case of `TableModelsClassified`, a check over the fixed table: the
      Anthropic Claude entries start with `anthropic`. */
  lemma AnthropicEntriesClassified(i: nat)
    requires 0 <= i < 5
    ensures ModelAdapter.Classify(AvailableModels[i].1) != ModelAdapter.Unknown
  {
    if i == 0 {
      PrefixClassified(AvailableModels[0].1, 0);
    } else if i == 1 {
      PrefixClassified(AvailableModels[1].1, 0);
    } else if i == 2 {
      PrefixClassified(AvailableModels[2].1, 0);
    } else if i == 3 {
      PrefixClassified(AvailableModels[3].1, 0);
    } else {
      PrefixClassified(AvailableModels[4].1, 0);
    }
  }

  /** One case of `TableModelsClassified`, a check over the fixed table: the
      Amazon Titan entries start with `amazon`. */
  lemma AmazonEntriesClassified(i: nat)
    requires 5 <= i < 8
    ensures ModelAdapter.Classify(AvailableModels[i].1) != ModelAdapter.Unknown
  {
    if i == 5 {
      PrefixClassified(AvailableModels[5].1, 2);
    } else if i == 6 {
      PrefixClassified(AvailableModels[6].1, 2);
    } else {
      PrefixClassified(AvailableModels[7].1, 2);
    }
  }

  /** One case of `TableModelsClassified`, a check over the fixed table: the
      AI21 Jurassic entries start with `ai21`. */
  lemma Ai21EntriesClassified(i: nat)
    requires 8 <= i < 10
    ensures ModelAdapter.Classify(AvailableModels[i].1) != ModelAdapter.Unknown
  {
    if i == 8 {
      PrefixClassified(AvailableModels[8].1, 3);
    } else {
      PrefixClassified(AvailableModels[9].1, 3);
    }
  }

  /** One case of `TableModelsClassified`, a check over the fixed table: the
      Cohere entries start with `cohere`. */
  lemma CohereEntriesClassified(i: nat)
    requires 10 <= i < 12
    ensures ModelAdapter.Classify(AvailableModels[i].1) != ModelAdapter.Unknown
  {
    if i == 10 {
      PrefixClassified(AvailableModels[10].1, 4);
    } else {
      PrefixClassified(AvailableModels[11].1, 4);
    }
  }

  /** One case of `TableModelsClassified`, a check over the fixed table: the
      Meta Llama entries start with `meta`. */
  lemma MetaEntriesClassified(i: nat)
    requires 12 <= i < 16
    ensures ModelAdapter.Classify(AvailableModels[i].1) != ModelAdapter.Unknown
  {
    if i == 12 {
      PrefixClassified(AvailableModels[12].1, 1);
    } else if i == 13 {
      PrefixClassified(AvailableModels[13].1, 1);
    } else if i == 14 {
      PrefixClassified(AvailableModels[14].1, 1);
    } else {
      PrefixClassified(AvailableModels[15].1, 1);
    }
  }

  /** Every id of the table belongs to a family the adapter knows: each one
      starts with its provider's name. */
  lemma TableModelsClassified()
    ensures forall i | 0 <= i < |AvailableModels| ::
      ModelAdapter.Classify(AvailableModels[i].1) != ModelAdapter.Unknown
  {
    forall i | 0 <= i < |AvailableModels|
      ensures ModelAdapter.Classify(AvailableModels[i].1) != ModelAdapter.Unknown
    {
      if i < 5 {
        AnthropicEntriesClassified(i);
      } else if i < 8 {
        AmazonEntriesClassified(i);
      } else if i < 10 {
        Ai21EntriesClassified(i);
      } else if i < 12 {
        CohereEntriesClassified(i);
      } else {
        MetaEntriesClassified(i);
      }
    }
  }

  // ---------------------------------------------------------------------------
  // Settings

  /** The class attributes the rules below read. The numbers are already
      parsed; the credentials are what `get_aws_credentials` found. */
  datatype Config = Config(
    accessKeyId: Option<string>,
    secretAccessKey: Option<string>,
    modelId: string,
    maxPdfSizeMb: int,
    extractionTimeout: int)

  /** `Config.set_model`: a known short name switches the model and answers
      true; anything else answers false and changes nothing. */
  function SetModel(c: Config, key: string): (r: (bool, Config))
    ensures r.0 <==> IsModelKey(key)
    ensures r.0 ==> r.1 == c.(modelId := FindModel(key).value) && IsKnownModelId(r.1.modelId)
    ensures !r.0 ==> r.1 == c
  {
    match FindModel(key)
    case Some(id) => (true, c.(modelId := id))
    case None => (false, c)
  }

  /** Switching to the same model twice is switching once. */
  lemma SetModelIdempotent(c: Config, key: string)
    ensures SetModel(SetModel(c, key).1, key) == SetModel(c, key)
  {
  }

  const AccessKeyMissing := "AWS_ACCESS_KEY_ID non défini"
  const SecretMissing := "AWS_SECRET_ACCESS_KEY non défini"
  const PdfSizeNotPositive := "MAX_PDF_SIZE_MB doit être positif"
  const TimeoutNotPositive := "EXTRACTION_TIMEOUT doit être positif"

  /** The `errors` list `validate` collects, in the order it checks. */
  function Errors(c: Config): (errors: seq<string>)
    ensures AccessKeyMissing in errors <==> !IsSet(c.accessKeyId)
    ensures SecretMissing in errors <==> !IsSet(c.secretAccessKey)
    ensures PdfSizeNotPositive in errors <==> c.maxPdfSizeMb <= 0
    ensures TimeoutNotPositive in errors <==> c.extractionTimeout <= 0
    ensures forall i | 0 <= i < |errors| ::
      errors[i] in [AccessKeyMissing, SecretMissing, PdfSizeNotPositive, TimeoutNotPositive]
  {
    (if IsSet(c.accessKeyId) then [] else [AccessKeyMissing])
    + (if IsSet(c.secretAccessKey) then [] else [SecretMissing])
    + (if c.maxPdfSizeMb <= 0 then [PdfSizeNotPositive] else [])
    + (if c.extractionTimeout <= 0 then [TimeoutNotPositive] else [])
  }

  /** `validate` warns, without failing, about a model id the table lacks. */
  predicate WarnsUnknownModel(c: Config) {
    !IsKnownModelId(c.modelId)
  }

  /** `Config.validate`: false exactly when one of the four checks fails. */
  function Validate(c: Config): (ok: bool)
    ensures ok <==> IsSet(c.accessKeyId) && IsSet(c.secretAccessKey) && c.maxPdfSizeMb > 0 && c.extractionTimeout > 0
  {
    Errors(c) == []
  }

  /** The model id never decides validity: an unknown one only warns. */
  lemma ValidateIgnoresModel(c: Config, id: string)
    ensures Validate(c.(modelId := id)) == Validate(c)
  {
  }

  /** After a successful switch there is nothing to warn about, and the
      validity is what it was. */
  lemma SetModelThenValidate(c: Config, key: string)
    requires SetModel(c, key).0
    ensures !WarnsUnknownModel(SetModel(c, key).1)
    ensures Validate(SetModel(c, key).1) == Validate(c)
  {
    ValidateIgnoresModel(c, FindModel(key).value);
  }

  // ---------------------------------------------------------------------------
  // Listing with secrets hidden

  const SecretWords: seq<string> := ["key", "secret", "token", "password"]

  const Masked := "***MASQUÉ***"

  /** A setting whose lower-cased name contains one of the secret words. */
  predicate IsSecretName(name: string) {
    exists j | 0 <= j < |SecretWords| :: Text.Contains(Text.Lower(name), SecretWords[j])
  }

  /** The settings `print_config` lists, name and shown value, in the order of
      `to_dict`. */
  function ListSettings(settings: Fields, hideSecrets: bool): (shown: Fields)
    ensures |shown| == |settings|
    ensures forall i | 0 <= i < |settings| :: shown[i].0 == settings[i].0
    ensures forall i | 0 <= i < |settings| ::
      shown[i].1 == (if hideSecrets && IsSecretName(settings[i].0) then Str(Masked) else settings[i].1)
  {
    seq(|settings|, i requires 0 <= i < |settings| =>
      (settings[i].0, if hideSecrets && IsSecretName(settings[i].0) then Str(Masked) else settings[i].1))
  }

  /** Without hiding, the list is the settings themselves; with it, only the
      values of secret names differ. */
  lemma ListSettingsReveals(settings: Fields)
    ensures ListSettings(settings, false) == settings
    ensures forall i | 0 <= i < |settings| && !IsSecretName(settings[i].0) ::
      ListSettings(settings, true)[i] == settings[i]
  {
  }

  /** An example of the masking rule: it is a substring test, so the token
      limit is hidden as if it were a credential. */
  lemma MaxTokensMasked(value: Value)
    ensures IsSecretName("BEDROCK_MAX_TOKENS")
    ensures ListSettings([("BEDROCK_MAX_TOKENS", value)], true) == [("BEDROCK_MAX_TOKENS", Str(Masked))]
  {
    var lower := Text.Lower("BEDROCK_MAX_TOKENS");
    assert lower[12..17] == "token";
    assert Text.OccursAt(lower, SecretWords[2], 12);
  }

  /** A name holding none of the first letters of the secret words is shown. */
  lemma ShownWithoutSecretLetters(name: string)
    requires forall i | 0 <= i < |name| :: Text.LowerChar(name[i]) !in "kstp"
    ensures !IsSecretName(name)
  {
    var lower := Text.Lower(name);
    forall j | 0 <= j < |SecretWords| ensures !Text.Contains(lower, SecretWords[j]) {
      var w := SecretWords[j];
      if Text.Contains(lower, w) {
        var p :| 0 <= p <= |lower| - |w| && Text.OccursAt(lower, w, p);
        Text.OccursAtChar(lower, w, p, 0);
        assert false;
      }
    }
  }

  /** An example of the masking rule: `LOG_LEVEL` is listed as it is. */
  lemma LogLevelShown(value: Value)
    ensures ListSettings([("LOG_LEVEL", value)], true) == [("LOG_LEVEL", value)]
  {
    ShownWithoutSecretLetters("LOG_LEVEL");
  }
}

=== FILE: dynamo_codec.dfy ===
/** Conversion between Python values and the tagged attribute values of the
    DynamoDB wire format (`_convert_to_dynamo_format` and
    `_convert_from_dynamo_format`). */
module DynamoCodec {
  import opened Wrappers
  import opened Exceptions
  import opened Json
  import Numerals

  /** One attribute value. `Unread` stands for the tags the decoder has no
      branch for (`L`, `B`, `BS`), whose keys it skips. */
  datatype Attr =
    | S(s: string)
    | N(n: string)
    | BOOL(b: bool)
    | M(m: AttrMap)
    | SS(ss: seq<string>)
    | NS(ns: seq<string>)
    | NULL
    | Unread

  type AttrMap = seq<(string, Attr)>

  // ---------------------------------------------------------------------------
  // Encoding

  /** `isinstance(v, (int, float))`: a bool is an int in Python. */
  predicate IsNumber(v: Value) {
    v.Int? || v.Float? || v.Bool?
  }

  /** `str(v)` of a number. */
  function NumberText(v: Value, repr: Value -> string): string
    requires IsNumber(v)
  {
    match v
    case Int(n) => Numerals.IntToString(n)
    case Bool(b) => if b then "True" else "False"
    case Float(_) => repr(v)
  }

  function StringsOf(items: seq<Value>): (r: seq<string>)
    requires forall i | 0 <= i < |items| :: items[i].Str?
    ensures |r| == |items| && forall i | 0 <= i < |items| :: r[i] == items[i].s
  {
    seq(|items|, i requires 0 <= i < |items| => items[i].s)
  }

  function NumberTexts(items: seq<Value>, repr: Value -> string): (r: seq<string>)
    requires forall i | 0 <= i < |items| :: IsNumber(items[i])
    ensures |r| == |items| && forall i | 0 <= i < |items| :: r[i] == NumberText(items[i], repr)
  {
    seq(|items|, i requires 0 <= i < |items| => NumberText(items[i], repr))
  }

  /** The attribute for one non-null value. The string test comes first and the
      bool test before the number test; a list of strings (the empty list
      included) is a string set, a list of numbers a number set, and any other
      list is stored as its JSON text. */
  function Encode(v: Value, codec: Codec): (a: Attr)
    requires !v.Null?
    decreases v, 1
  {
    match v
    case Str(s) => S(s)
    case Bool(b) => BOOL(b)
    case Int(_) => N(NumberText(v, codec.repr))
    case Float(_) => N(NumberText(v, codec.repr))
    case Obj(fields) => M(EncodeFields(fields, codec))
    case Arr(items) =>
      if forall i | 0 <= i < |items| :: items[i].Str? then SS(StringsOf(items))
      else if forall i | 0 <= i < |items| :: IsNumber(items[i]) then NS(NumberTexts(items, codec.repr))
      else S(codec.dumps(v))
  }

  /** `_convert_to_dynamo_format`: each entry's attribute in turn, entries
      whose value is None skipped. */
  function EncodeFields(d: Fields, codec: Codec): (r: AttrMap)
    decreases Obj(d), 0
  {
    PutAll([], seq(|d|, i requires 0 <= i < |d| =>
      (d[i].0, if d[i].1.Null? then None else assert d[i] in d; Some(Encode(d[i].1, codec)))))
  }

  /** `dynamo_item[key] = attr` for each present attribute, left to right. */
  function PutAll(acc: AttrMap, entries: seq<(string, Option<Attr>)>): AttrMap
    decreases |entries|
  {
    if entries == [] then acc
    else PutAll(if entries[0].1.Some? then PutAttr(acc, entries[0].0, entries[0].1.value) else acc, entries[1..])
  }

  function PutAttr(m: AttrMap, k: string, a: Attr): (r: AttrMap)
    ensures (forall i | 0 <= i < |m| :: m[i].0 != k) ==> r == m + [(k, a)]
  {
    if m == [] then [(k, a)]
    else if m[0].0 == k then [(k, a)] + m[1..]
    else [m[0]] + PutAttr(m[1..], k, a)
  }

  // ---------------------------------------------------------------------------
  // Decoding

  /** `int(s)` or `float(s)` as chosen by a `.` in the text; `None` where the
      conversion raises ValueError. */
  function ParseNumber(s: string): (r: Option<Value>)
    ensures '.' in s ==> (r.Some? <==> Numerals.IsFloatLiteral(s))
    ensures '.' in s && r.Some? ==> r.value == Float(s)
    ensures '.' !in s ==> (r.Some? <==> Numerals.ParseInt(s).Some?)
    ensures '.' !in s && r.Some? ==> r.value == Int(Numerals.ParseInt(s).value)
  {
    if '.' in s then (if Numerals.IsFloatLiteral(s) then Some(Float(s)) else None)
    else match Numerals.ParseInt(s)
      case Some(n) => Some(Int(n))
      case None => None
  }

  /** `N`: the number, or the raw text when the conversion fails. */
  function DecodeNumber(s: string): (v: Value)
    ensures ParseNumber(s).Some? ==> v == ParseNumber(s).value
    ensures ParseNumber(s).None? ==> v == Str(s)
  {
    match ParseNumber(s)
    case Some(v) => v
    case None => Str(s)
  }

  /** `NS`: each element converted, with no guard, so one bad element raises. */
  function DecodeNumberSet(ns: seq<string>): (r: Result<seq<Value>, Exception>)
    ensures r.Success? <==> forall i | 0 <= i < |ns| :: ParseNumber(ns[i]).Some?
    ensures r.Success? ==> |r.value| == |ns| && forall i | 0 <= i < |ns| :: r.value[i] == ParseNumber(ns[i]).value
  {
    if ns == [] then Success([])
    else match ParseNumber(ns[0])
      case None => Failure(ValueError("could not convert string to number: '" + ns[0] + "'"))
      case Some(v) =>
        match DecodeNumberSet(ns[1..])
        case Failure(e) =>
          assert exists i | 0 <= i < |ns| :: ParseNumber(ns[i]).None? by {
            var j :| 0 <= j < |ns[1..]| && ParseNumber(ns[1..][j]).None?;
            assert ns[1..][j] == ns[j + 1];
          }
          Failure(e)
        case Success(vs) =>
          assert forall i | 1 <= i < |ns| :: ns[i] == ns[1..][i - 1];
          Success([v] + vs)
  }

  /** The value read back from one attribute; `None` for a skipped tag. */
  function Decode(a: Attr, loads: string -> Option<Value>): (r: Result<Option<Value>, Exception>)
    decreases a, 1
  {
    match a
    case S(s) => Success(Some(Str(s)))
    case N(n) => Success(Some(DecodeNumber(n)))
    case BOOL(b) => Success(Some(Bool(b)))
    case M(m) =>
      var fields :- DecodeMap(m, loads);
      Success(Some(Obj(fields)))
    case SS(ss) => Success(Some(Arr(seq(|ss|, i requires 0 <= i < |ss| => Str(ss[i])))))
    case NS(ns) =>
      var items :- DecodeNumberSet(ns);
      Success(Some(Arr(items)))
    case NULL => Success(Some(Null))
    case Unread => Success(None)
  }

  /** `_convert_from_dynamo_format`: each attribute read in turn, the first
      error raised ending the conversion, then the `raw_data` rule. */
  function DecodeMap(m: AttrMap, loads: string -> Option<Value>): (r: Result<Fields, Exception>)
    decreases M(m), 0
  {
    var item :- Gather([], seq(|m|, i requires 0 <= i < |m| => (m[i].0, assert m[i] in m; Decode(m[i].1, loads))));
    WithParsedData(item, loads)
  }

  /** `item[key] = value` for each value read, left to right; the first
      failure is raised. */
  function Gather(acc: Fields, results: seq<(string, Result<Option<Value>, Exception>)>): (r: Result<Fields, Exception>)
    decreases |results|
  {
    if results == [] then Success(acc)
    else match results[0].1
      case Failure(e) => Failure(e)
      case Success(v) => Gather(if v.Some? then Put(acc, results[0].0, v.value) else acc, results[1..])
  }

  /** A decoded map holding `raw_data` gains `parsed_data`: the JSON parse of
      it, or `{}` when it is not valid JSON. A `raw_data` that is not a string
      makes `json.loads` raise TypeError, which is not caught. */
  function WithParsedData(item: Fields, loads: string -> Option<Value>): (r: Result<Fields, Exception>)
    ensures !HasKey(item, "raw_data") ==> r == Success(item)
    ensures Get(item, "raw_data").Some? && Get(item, "raw_data").value.Str? ==>
      var parsed := loads(Get(item, "raw_data").value.s);
      && r.Success?
      && Get(r.value, "parsed_data") == Some(if parsed.Some? then parsed.value else Obj([]))
      && forall k | k != "parsed_data" :: Get(r.value, k) == Get(item, k)
    ensures Get(item, "raw_data").Some? && !Get(item, "raw_data").value.Str? ==> r.Failure? && r.error.TypeError?
  {
    match Get(item, "raw_data")
    case None => Success(item)
    case Some(Str(raw)) =>
      var parsed := loads(raw);
      Success(Put(item, "parsed_data", if parsed.Some? then parsed.value else Obj([])))
    case Some(_) => Failure(TypeError("the JSON object must be str, bytes or bytearray"))
  }

  // ---------------------------------------------------------------------------
  // What survives a round trip

  /** The values the encoder and decoder agree on: strings, ints, bools, lists
      that hold only strings or only ints, and maps of such values without
      None entries, repeated keys or a `raw_data` key. */
  predicate Storable(v: Value)
    decreases v, 1
  {
    match v
    case Str(_) => true
    case Int(_) => true
    case Bool(_) => true
    case Obj(fields) => StorableFields(fields)
    case Arr(items) =>
      (forall i | 0 <= i < |items| :: items[i].Str?) || (forall i | 0 <= i < |items| :: items[i].Int?)
    case _ => false
  }

  predicate StorableFields(d: Fields)
    decreases Obj(d), 0
  {
    && DistinctKeys(d)
    && !HasKey(d, "raw_data")
    && forall i | 0 <= i < |d| :: (assert d[i] in d; Storable(d[i].1))
  }

  /** Reading back what was written gives the value it was written from. */
  lemma {:induction false} DecodeEncode(v: Value, codec: Codec)
    requires Storable(v)
    ensures Decode(Encode(v, codec), codec.loads) == Success(Some(v))
    decreases v, 3
  {
    match v
    case Int(n) => DecodeEncodeInt(n, codec);
    case Obj(fields) => DecodeEncodeFields(fields, codec);
    case Arr(items) => DecodeEncodeList(items, codec);
    case _ =>
  }

  lemma DecodeEncodeInt(n: int, codec: Codec)
    ensures Decode(Encode(Int(n), codec), codec.loads) == Success(Some(Int(n)))
  {
    Numerals.IntToStringRoundTrip(n);
  }

  lemma DecodeEncodeList(items: seq<Value>, codec: Codec)
    requires Storable(Arr(items))
    ensures Decode(Encode(Arr(items), codec), codec.loads) == Success(Some(Arr(items)))
  {
    if forall i | 0 <= i < |items| :: items[i].Str? {
      assert Encode(Arr(items), codec) == SS(StringsOf(items));
      DecodeStrings(items, codec.loads);
    } else {
      assert forall i | 0 <= i < |items| :: items[i].Int?;
      assert forall i | 0 <= i < |items| :: IsNumber(items[i]);
      assert Encode(Arr(items), codec) == NS(NumberTexts(items, codec.repr));
      DecodeInts(items, codec);
    }
  }

  /** An int list, stored as a number set, reads back as itself. */
  lemma DecodeInts(items: seq<Value>, codec: Codec)
    requires forall i | 0 <= i < |items| :: items[i].Int?
    ensures Decode(NS(NumberTexts(items, codec.repr)), codec.loads) == Success(Some(Arr(items)))
  {
    DecodeIntTexts(items, codec);
  }

  /** A string set reads back as the list of its strings. */
  lemma DecodeStrings(items: seq<Value>, loads: string -> Option<Value>)
    requires forall i | 0 <= i < |items| :: items[i].Str?
    ensures Decode(SS(StringsOf(items)), loads) == Success(Some(Arr(items)))
  {
    var ss := StringsOf(items);
    assert seq(|ss|, i requires 0 <= i < |ss| => Str(ss[i])) == items;
  }

  lemma DecodeIntTexts(items: seq<Value>, codec: Codec)
    requires forall i | 0 <= i < |items| :: items[i].Int?
    ensures DecodeNumberSet(NumberTexts(items, codec.repr)) == Success(items)
  {
    var ns := NumberTexts(items, codec.repr);
    forall i | 0 <= i < |items| ensures ParseNumber(ns[i]) == Some(items[i]) {
      Numerals.IntToStringRoundTrip(items[i].n);
    }
    var r := DecodeNumberSet(ns);
    assert r.Success?;
    assert r.value == items;
  }

  /** The attributes of a map with no None entry, one per entry. */
  function Encoded(d: Fields, codec: Codec): (m: AttrMap)
    requires forall i | 0 <= i < |d| :: !d[i].1.Null?
    ensures |m| == |d|
    ensures forall i | 0 <= i < |d| :: m[i] == (d[i].0, Encode(d[i].1, codec))
  {
    seq(|d|, i requires 0 <= i < |d| => (d[i].0, Encode(d[i].1, codec)))
  }

  /** The map form of the round trip. */
  lemma {:induction false} DecodeEncodeFields(d: Fields, codec: Codec)
    requires StorableFields(d)
    ensures DecodeMap(EncodeFields(d, codec), codec.loads) == Success(d)
    decreases Obj(d), 2
  {
    assert FlatEntries(d);
    DecodeEncodeItem(d, codec);
    assert RereadAll(d, codec) == d;
  }

  /** A top-level value that reads back predictably: a storable value, or a
      float, which is written as its printed form. */
  predicate Flat(v: Value) {
    Storable(v) || v.Float?
  }

  predicate FlatEntries(d: Fields) {
    DistinctKeys(d) && forall i | 0 <= i < |d| :: Flat(d[i].1)
  }

  /** What a flat value reads back as: itself, except that a float reads back
      as whatever its printed form `str(v)` converts to. */
  function Reread(v: Value, codec: Codec): Value
    requires Flat(v)
  {
    if v.Float? then DecodeNumber(codec.repr(v)) else v
  }

  function RereadAll(d: Fields, codec: Codec): (r: Fields)
    requires forall i | 0 <= i < |d| :: Flat(d[i].1)
    ensures |r| == |d|
    ensures forall i | 0 <= i < |d| :: r[i] == (d[i].0, Reread(d[i].1, codec))
  {
    seq(|d|, i requires 0 <= i < |d| => (d[i].0, Reread(d[i].1, codec)))
  }

  lemma DecodeEncodeFloat(v: Value, codec: Codec)
    requires v.Float?
    ensures Decode(Encode(v, codec), codec.loads) == Success(Some(DecodeNumber(codec.repr(v))))
  {
  }

  /** Reading back a written item, `raw_data` rule included: every entry
      reads back as itself, floats as their printed form. */
  lemma {:induction false} DecodeEncodeItem(d: Fields, codec: Codec)
    requires FlatEntries(d)
    ensures DecodeMap(EncodeFields(d, codec), codec.loads) == WithParsedData(RereadAll(d, codec), codec.loads)
    decreases Obj(d), 1
  {
    assert forall i | 0 <= i < |d| :: !d[i].1.Null?;
    var m := Encoded(d, codec);
    var e := RereadAll(d, codec);
    EncodeFieldsPresent(d, codec);
    PutAllAppends([], m);
    assert [] + m == m;
    EntriesReadBack(d, codec);
    DecodeMapRead(m, e, codec.loads);
    GatherAppends([], e);
  }

  lemma {:induction false} EntriesReadBack(d: Fields, codec: Codec)
    requires FlatEntries(d)
    ensures forall i | 0 <= i < |d| ::
      Decode(Encoded(d, codec)[i].1, codec.loads) == Success(Some(RereadAll(d, codec)[i].1))
    ensures KeysDistinct(RereadAll(d, codec))
    decreases Obj(d), 0
  {
    assert forall i | 0 <= i < |d| :: !d[i].1.Null?;
    var m := Encoded(d, codec);
    var e := RereadAll(d, codec);
    forall i | 0 <= i < |d| ensures Decode(m[i].1, codec.loads) == Success(Some(e[i].1)) {
      if d[i].1.Float? {
        DecodeEncodeFloat(d[i].1, codec);
      } else {
        assert d[i] in d;
        DecodeEncode(d[i].1, codec);
      }
    }
    forall i, j | 0 <= i < j < |e| ensures e[i].0 != e[j].0 {
      assert e[i].0 == d[i].0 && e[j].0 == d[j].0;
    }
  }

  lemma EncodeFieldsPresent(d: Fields, codec: Codec)
    requires forall i | 0 <= i < |d| :: !d[i].1.Null?
    requires DistinctKeys(d)
    ensures EncodeFields(d, codec) == PutAll([], Present(Encoded(d, codec)))
    ensures KeysDistinct(Encoded(d, codec))
  {
    var m := Encoded(d, codec);
    assert seq(|d|, i requires 0 <= i < |d| =>
      (d[i].0, if d[i].1.Null? then None else Some(Encode(d[i].1, codec)))) == Present(m);
  }

  lemma DecodeMapRead(m: AttrMap, d: Fields, loads: string -> Option<Value>)
    requires |m| == |d|
    requires forall i | 0 <= i < |d| :: m[i].0 == d[i].0 && Decode(m[i].1, loads) == Success(Some(d[i].1))
    ensures Gather([], Read(d)) == Success([] + d) ==> DecodeMap(m, loads) == WithParsedData(d, loads)
  {
    assert seq(|m|, i requires 0 <= i < |m| => (m[i].0, Decode(m[i].1, loads))) == Read(d);
    assert [] + d == d;
  }

  predicate KeysApart<A, B>(a: seq<(string, A)>, b: seq<(string, B)>) {
    forall i, j | 0 <= i < |a| && 0 <= j < |b| :: a[i].0 != b[j].0
  }

  predicate KeysDistinct<A>(a: seq<(string, A)>) {
    forall i, j | 0 <= i < j < |a| :: a[i].0 != a[j].0
  }

  /** Moving the first entry of `m` to the end of `acc` keeps the keys apart. */
  lemma ShiftApart<A>(acc: seq<(string, A)>, m: seq<(string, A)>)
    requires |m| > 0 && KeysDistinct(m) && KeysApart(acc, m)
    ensures KeysDistinct(m[1..]) && KeysApart(acc + [m[0]], m[1..])
  {
    var acc' := acc + [m[0]];
    var rest := m[1..];
    forall i, j | 0 <= i < |acc'| && 0 <= j < |rest| ensures acc'[i].0 != rest[j].0 {
      assert rest[j] == m[j + 1];
      if i == |acc| {
        assert acc'[i] == m[0];
      } else {
        assert acc'[i] == acc[i];
      }
    }
    forall i, j | 0 <= i < j < |rest| ensures rest[i].0 != rest[j].0 {
      assert rest[i] == m[i + 1] && rest[j] == m[j + 1];
    }
  }

  /** The fold's input when every entry of `m` is present. */
  function Present(m: AttrMap): (r: seq<(string, Option<Attr>)>)
    ensures |r| == |m|
  {
    seq(|m|, i requires 0 <= i < |m| => (m[i].0, Some(m[i].1)))
  }

  /** Every read of `d` succeeding with a value. */
  function Read(d: Fields): (r: seq<(string, Result<Option<Value>, Exception>)>)
    ensures |r| == |d|
  {
    seq(|d|, i requires 0 <= i < |d| => (d[i].0, Success(Some(d[i].1))))
  }

  /** With distinct keys and nothing skipped, the fold appends one attribute
      per entry, in order. */
  lemma {:induction false} PutAllAppends(acc: AttrMap, m: AttrMap)
    requires KeysDistinct(m) && KeysApart(acc, m)
    ensures PutAll(acc, Present(m)) == acc + m
    decreases |m|
  {
    if m == [] {
      assert acc + m == acc;
    } else {
      PutAllStep(acc, m);
      PutAttrFresh(acc, m);
      ShiftApart(acc, m);
      PutAllAppends(acc + [m[0]], m[1..]);
      ConsShift(acc, m);
    }
  }

  lemma PutAllStep(acc: AttrMap, m: AttrMap)
    requires |m| > 0
    ensures PutAll(acc, Present(m)) == PutAll(PutAttr(acc, m[0].0, m[0].1), Present(m[1..]))
  {
    assert Present(m)[1..] == Present(m[1..]);
  }

  lemma PutAttrFresh(acc: AttrMap, m: AttrMap)
    requires |m| > 0 && KeysApart(acc, m)
    ensures PutAttr(acc, m[0].0, m[0].1) == acc + [m[0]]
  {
    assert forall i | 0 <= i < |acc| :: acc[i].0 != m[0].0;
  }

  /** With distinct keys and every read a present value, the fold appends one
      entry per read, in order. */
  lemma {:induction false} GatherAppends(acc: Fields, d: Fields)
    requires KeysDistinct(d) && KeysApart(acc, d)
    ensures Gather(acc, Read(d)) == Success(acc + d)
    decreases |d|
  {
    if d == [] {
      assert acc + d == acc;
    } else {
      GatherStep(acc, d);
      PutFresh(acc, d);
      ShiftApart(acc, d);
      GatherAppends(acc + [d[0]], d[1..]);
      ConsShift(acc, d);
    }
  }

  lemma GatherStep(acc: Fields, d: Fields)
    requires |d| > 0
    ensures Gather(acc, Read(d)) == Gather(Put(acc, d[0].0, d[0].1), Read(d[1..]))
  {
    assert Read(d)[1..] == Read(d[1..]);
  }

  lemma PutFresh(acc: Fields, d: Fields)
    requires |d| > 0 && KeysApart(acc, d)
    ensures Put(acc, d[0].0, d[0].1) == acc + [d[0]]
  {
    assert forall i | 0 <= i < |acc| :: acc[i].0 != d[0].0;
  }

  // ---------------------------------------------------------------------------
  // What does not survive

  /** An entry whose value is None is not written at all. */
  lemma NullEntryDropped(k: string, codec: Codec)
    ensures EncodeFields([(k, Null)], codec) == []
  {
    var d := [(k, Null)];
    var entries := seq(|d|, i requires 0 <= i < |d| =>
      (d[i].0, if d[i].1.Null? then None else Some(Encode(d[i].1, codec))));
    assert entries == [(k, None)];
    assert entries[1..] == [];
    assert PutAll([], entries) == PutAll([], []);
  }

  /** A list mixing kinds is written as its JSON text and read back as that
      string, not as a list. */
  lemma MixedListBecomesText(items: seq<Value>, codec: Codec)
    requires exists i | 0 <= i < |items| :: !items[i].Str?
    requires exists i | 0 <= i < |items| :: !IsNumber(items[i])
    ensures Decode(Encode(Arr(items), codec), codec.loads) == Success(Some(Str(codec.dumps(Arr(items)))))
  {
  }

  /** A list of bools passes the number test, is written as the number texts
      "True"/"False", and reading it back raises ValueError. */
  lemma BoolListUnreadable(codec: Codec)
    ensures Encode(Arr([Bool(true)]), codec) == NS(["True"])
    ensures Decode(NS(["True"]), codec.loads).Failure?
    ensures Decode(NS(["True"]), codec.loads).error.ValueError?
  {
    var items := [Bool(true)];
    assert !items[0].Str? && IsNumber(items[0]);
    assert NumberTexts(items, codec.repr) == ["True"];
    assert "True"[0] == 'T';
    assert Numerals.ParseInt("True") == None;
    assert ParseNumber("True") == None;
  }

  /** A number text in exponent form without a `.`, as `str` prints floats
      from 1e16 on, fails the int conversion and reads back as text. */
  lemma ExponentFormReadAsText()
    ensures DecodeNumber("1e+16") == Str("1e+16")
  {
    assert "1e+16"[1] == 'e';
    assert Numerals.ParseInt("1e+16") == None;
  }
}

=== FILE: extraction.dfy ===
/** The decision flow of `BedrockClient.extract_invoice_data`: build the
    family's request, call the model, read its text back, and turn the text
    into an invoice record — through recovery, normalisation and validation
    when a non-empty object is found, through the manual fallback otherwise. */
module Extraction {
  import opened Wrappers
  import opened Exceptions
  import opened Json
  import Text
  import ModelAdapter
  import Recovery
  import Normalizer
  import ManualExtraction

  /** Every record the flow returns starts with the seven canonical keys, in
      table order, and has no repeated key. */
  predicate CanonicalRecord(r: Fields) {
    && |r| >= 7
    && (forall i | 0 <= i < 7 :: r[i].0 == Normalizer.CanonicalKeys[i])
    && DistinctKeys(r)
  }

  /** The record made from the model's answer. `if extracted_data:` tests
      truthiness, so an empty recovered object also takes the manual path. */
  function InterpretResponse(text: string, loads: string -> Option<Value>): (r: Fields)
    ensures CanonicalRecord(r)
    ensures match Recovery.ExtractJson(text, loads)
      case Some(o) => o != [] ==> r == Normalizer.Normalize(o)
      case None => true
    ensures (Recovery.ExtractJson(text, loads).None? || Recovery.ExtractJson(text, loads) == Some([])) ==>
      r == ManualExtraction.ManualExtract(text)
  {
    match Recovery.ExtractJson(text, loads)
    case Some(o) =>
      if o != [] then
        Normalizer.ValidateNormalized(o);
        Normalizer.Validate(Normalizer.Normalize(o))
      else
        ManualRecord(text)
    case None => ManualRecord(text)
  }

  function ManualRecord(text: string): (r: Fields)
    ensures r == ManualExtraction.ManualExtract(text)
    ensures CanonicalRecord(r)
  {
    Normalizer.TableFacts();
    ManualExtraction.ManualExtract(text)
  }

  /** `extract_invoice_data`. `invoke` stands for `invoke_model` followed by
      `json.loads` of the response body: it receives the model id and the
      request object and yields the response object or the error raised. */
  function ExtractInvoiceData(
    modelId: string, settings: ModelAdapter.Settings, prompt: string,
    invoke: (string, Fields) -> Result<Fields, Exception>, codec: Codec): (r: Result<Fields, Exception>)
    ensures var f := ModelAdapter.Classify(modelId);
      var sent := invoke(modelId, ModelAdapter.CreateRequestBody(f, prompt, settings));
      && (sent.Failure? ==> r == Failure(sent.error))
      && (sent.Success? ==>
            var text := ModelAdapter.ParseResponse(f, sent.value, codec.repr);
            && (text.Failure? ==> r == Failure(text.error))
            && (text.Success? ==> r == Success(InterpretResponse(text.value, codec.loads))))
    ensures r.Success? ==> CanonicalRecord(r.value)
  {
    var family := ModelAdapter.Classify(modelId);
    var body := ModelAdapter.CreateRequestBody(family, prompt, settings);
    var response :- invoke(modelId, body);
    var text :- ModelAdapter.ParseResponse(family, response, codec.repr);
    Success(InterpretResponse(text, codec.loads))
  }

  /** End to end: when the provider's answer carries text `t` at its family's
      path, whatever else it holds, the record is made from `t` stripped of
      surrounding space. */
  lemma ExtractFromProviderAnswer(
    modelId: string, settings: ModelAdapter.Settings, prompt: string,
    invoke: (string, Fields) -> Result<Fields, Exception>, codec: Codec, answer: Fields, t: string)
    requires var f := ModelAdapter.Classify(modelId);
      && invoke(modelId, ModelAdapter.CreateRequestBody(f, prompt, settings)) == Success(answer)
      && ModelAdapter.CarriedText(f, answer) == Some(t)
    ensures ExtractInvoiceData(modelId, settings, prompt, invoke, codec) == Success(InterpretResponse(Text.Strip(t), codec.loads))
  {
  }
}

=== FILE: invoice_extractor.dfy ===
/** The orchestration of `InvoiceExtractorSimple` before storage: the
    supplier/client corrector, the prompt builder and the metadata that
    `extract_from_pdf` adds to the extracted record. */
module InvoiceExtractor {
  import opened Wrappers
  import opened Exceptions
  import opened Json
  import Text

  // ---------------------------------------------------------------------------
  // The supplier/client corrector

  /** Companies that only ever receive invoices. */
  const KnownClients: seq<string> := [
    "BOARDRIDERS", "NA PALI", "QUIKSILVER", "KAUAI", "VANUATU",
    "EMERALD COAST", "PUKALANI", "HANALEI", "TARAWA", "SUNSHINE DIFFUSION"
  ]

  /** Companies that issue invoices, in the order the file name is searched. */
  const KnownSuppliers: seq<string> := ["TELEFONICA", "CEGEDIM", "BOUYGUES", "ORANGE", "SFR", "FREE", "OVH"]

  /** Some name of `names` occurs in `s` (`any(n in s for n in names)`). */
  predicate AnyContained(s: string, names: seq<string>) {
    exists i | 0 <= i < |names| :: Text.Contains(s, names[i])
  }

  /** The first name of `names`, in order, that occurs in `s`. */
  function FirstContained(s: string, names: seq<string>): (r: Option<string>)
    ensures r.None? <==> !AnyContained(s, names)
    ensures r.Some? ==> exists i | 0 <= i < |names| ::
      && names[i] == r.value
      && Text.Contains(s, names[i])
      && forall j | 0 <= j < i :: !Text.Contains(s, names[j])
  {
    if names == [] then None
    else if Text.Contains(s, names[0]) then Some(names[0])
    else
      var r := FirstContained(s, names[1..]);
      assert forall i | 1 <= i < |names| :: names[i] == names[1..][i - 1];
      assert AnyContained(s, names) ==> AnyContained(s, names[1..]) by {
        if AnyContained(s, names) {
          var i :| 0 <= i < |names| && Text.Contains(s, names[i]);
          assert names[i] == names[1..][i - 1];
        }
      }
      r
  }

  /** The supplier the record names, read as `data.get("fournisseur", "")`. */
  function Supplier(data: Fields): Value {
    GetOr(data, "fournisseur", Str(""))
  }

  /** The record names its supplier by a non-empty string. */
  predicate Named(data: Fields) {
    Supplier(data).Str? && Supplier(data).s != ""
  }

  /** `_fix_supplier_if_needed` over the two name lists. A supplier that is
      truthy but not a string has no `upper()`. */
  function FixSupplierWith(data: Fields, filename: string, clients: seq<string>, suppliers: seq<string>): (r: Result<Fields, Exception>)
    ensures !Truthy(Supplier(data)) ==> r == Success(data)
    ensures Truthy(Supplier(data)) && !Supplier(data).Str? ==>
      r == Failure(AttributeError("'" + TypeName(Supplier(data)) + "' object has no attribute 'upper'"))
    ensures Named(data) && !AnyContained(Text.Upper(Supplier(data).s), clients) ==> r == Success(data)
    ensures Named(data) && AnyContained(Text.Upper(Supplier(data).s), clients) ==>
      && r.Success?
      && Keys(r.value) == Keys(data)
      && Get(r.value, "fournisseur") == Some(
           match FirstContained(Text.Upper(filename), suppliers)
           case Some(name) => Str(name)
           case None => Null)
      && forall k | k != "fournisseur" :: Get(r.value, k) == Get(data, k)
  {
    var supplier := Supplier(data);
    if !Truthy(supplier) then Success(data)
    else if !supplier.Str? then Failure(AttributeError("'" + TypeName(supplier) + "' object has no attribute 'upper'"))
    else if !AnyContained(Text.Upper(supplier.s), clients) then Success(data)
    else
      match FirstContained(Text.Upper(filename), suppliers)
      case Some(name) => Success(Put(data, "fournisseur", Str(name)))
      case None => Success(Put(data, "fournisseur", Null))
  }

  function FixSupplier(data: Fields, filename: string): Result<Fields, Exception> {
    FixSupplierWith(data, filename, KnownClients, KnownSuppliers)
  }

  /** No supplier name mentions a client, and each is its own upper case. */
  predicate ListsApart(clients: seq<string>, suppliers: seq<string>) {
    forall i | 0 <= i < |suppliers| ::
      Text.Upper(suppliers[i]) == suppliers[i] && !AnyContained(suppliers[i], clients)
  }

  /** Correcting a corrected record changes nothing: the supplier is then a
      known supplier, which names no client, or null. */
  lemma FixSupplierIdempotentWith(data: Fields, filename: string, clients: seq<string>, suppliers: seq<string>)
    requires ListsApart(clients, suppliers)
    requires FixSupplierWith(data, filename, clients, suppliers).Success?
    ensures var once := FixSupplierWith(data, filename, clients, suppliers).value;
      FixSupplierWith(once, filename, clients, suppliers) == Success(once)
  {
    var once := FixSupplierWith(data, filename, clients, suppliers).value;
    var s := Supplier(data);
    if Named(data) && AnyContained(Text.Upper(s.s), clients) {
      match FirstContained(Text.Upper(filename), suppliers)
      case Some(name) =>
        var i :| 0 <= i < |suppliers| && suppliers[i] == name;
        assert Supplier(once) == Str(name);
      case None =>
        assert Supplier(once) == Null;
    }
  }

  /** The name lists of the corrector are apart. */
  lemma KnownListsApart()
    ensures ListsApart(KnownClients, KnownSuppliers)
  {
    forall i | 0 <= i < |KnownSuppliers|
      ensures Text.Upper(KnownSuppliers[i]) == KnownSuppliers[i]
      ensures !AnyContained(KnownSuppliers[i], KnownClients)
    {
      UpperOfCapitals(KnownSuppliers[i]);
      NoClientIn(KnownSuppliers[i]);
    }
  }

  lemma UpperOfCapitals(s: string)
    requires forall i | 0 <= i < |s| :: 'A' <= s[i] <= 'Z'
    ensures Text.Upper(s) == s
  {
  }

  /** A string of at most ten characters contains no client name when it is
      shorter than the shortest one or holds none of the characters
      `QKVPHW` and space: every name of up to ten characters has one. */
  lemma NoClientIn(s: string)
    requires |s| <= 10
    requires |s| < 5 || forall i | 0 <= i < |s| :: s[i] !in "QKVPHW "
    ensures !AnyContained(s, KnownClients)
  {
    forall i | 0 <= i < |KnownClients| ensures !Text.Contains(s, KnownClients[i]) {
      var c := KnownClients[i];
      var m: nat := if c == "NA PALI" then 2 else if c == "TARAWA" then 4 else 0;
      if Text.Contains(s, c) {
        var p :| 0 <= p <= |s| - |c| && Text.OccursAt(s, c, p);
        Text.OccursAtChar(s, c, p, m);
        assert false;
      }
    }
  }

  /** The corrector on its own lists changes nothing the second time. */
  lemma FixSupplierIdempotent(data: Fields, filename: string)
    requires FixSupplier(data, filename).Success?
    ensures FixSupplier(FixSupplier(data, filename).value, filename) == FixSupplier(data, filename)
  {
    KnownListsApart();
    FixSupplierIdempotentWith(data, filename, KnownClients, KnownSuppliers);
  }

  lemma UpperFixed(s: string)
    requires forall i | 0 <= i < |s| :: Text.UpperChar(s[i]) == s[i]
    ensures Text.Upper(s) == s
  {
  }

  lemma UpperAppend(a: string, b: string)
    ensures Text.Upper(a + b) == Text.Upper(a) + Text.Upper(b)
  {
  }

  /** An example, the client variant the extraction prompt names: it is
      recognised as one of the known clients. */
  lemma ClientNamed()
    ensures AnyContained(Text.Upper("BOARDRIDERS TRADING ESPAÑA"), KnownClients)
  {
    var named := "BOARDRIDERS TRADING ESPAÑA";
    UpperFixed(named);
    assert Text.OccursAt(Text.Upper(named), KnownClients[0], 0);
  }

  /** An example, the file name of the repository's sample invoice used by
      its scripts: the supplier it names is TELEFONICA. */
  lemma TelefonicaInFilename()
    ensures FirstContained(Text.Upper("2140 1902095741 210515 TELEFONICA MG PLVT.pdf"), KnownSuppliers) == Some("TELEFONICA")
  {
    var before, after := "2140 1902095741 210515 ", " MG PLVT.pdf";
    assert "2140 1902095741 210515 TELEFONICA MG PLVT.pdf" == before + "TELEFONICA" + after;
    UpperAppend(before, "TELEFONICA");
    UpperAppend(before + "TELEFONICA", after);
    UpperFixed("TELEFONICA");
    var u := Text.Upper(before) + "TELEFONICA" + Text.Upper(after);
    assert u[|before|..|before| + 10] == "TELEFONICA";
    assert Text.OccursAt(u, KnownSuppliers[0], |before|);
  }

  /** A client named as supplier is replaced by the supplier the file name
      mentions. */
  lemma SupplierTakenFromFilename()
    ensures FixSupplier([("fournisseur", Str("BOARDRIDERS TRADING ESPAÑA"))], "2140 1902095741 210515 TELEFONICA MG PLVT.pdf")
      == Success([("fournisseur", Str("TELEFONICA"))])
  {
    var data := [("fournisseur", Str("BOARDRIDERS TRADING ESPAÑA"))];
    ClientNamed();
    TelefonicaInFilename();
    assert Put(data, "fournisseur", Str("TELEFONICA")) == [("fournisseur", Str("TELEFONICA"))];
  }

  // ---------------------------------------------------------------------------
  // The prompt

  /** The longest text excerpt that goes into a prompt. */
  const MaxTextLength: nat := 10000

  const TruncationMarker: string := "... [texte tronqué]"

  /** The text as it goes into the prompt: cut to its first 10000 characters,
      with the marker appended, when it is longer. */
  function Excerpt(text: string): (r: string)
    ensures |text| <= MaxTextLength ==> r == text
    ensures |text| > MaxTextLength ==> r == text[..MaxTextLength] + TruncationMarker
  {
    if |text| > MaxTextLength then text[..MaxTextLength] + TruncationMarker else text
  }

  /** The excerpt starts with as much of the text as fits, and is never longer
      than the limit plus the marker. */
  lemma ExcerptBounds(text: string)
    ensures var n := if |text| <= MaxTextLength then |text| else MaxTextLength;
      && |Excerpt(text)| <= MaxTextLength + |TruncationMarker|
      && Text.StartsWith(Excerpt(text), text[..n])
  {
  }

  /** A prompt with two holes for the text and one filled twice with the
      file name. */
  datatype Template = Template(intro: string, afterText: string, afterName: string, closing: string)

  function Fill(t: Template, text: string, filename: string): string {
    t.intro + text + t.afterText + filename + t.afterName + filename + t.closing
  }

  /** The prompt of `_create_prompt`. */
  const PromptTemplate: Template := Template(
    "Tu es un expert comptable. En te basant sur ces données : ",
    "\n"
      + "\n"
      + "Nom du fichier (peut contenir un indice sur le fournisseur) : ",
    "\n"
      + "\n"
      + "Extrais les informations suivantes et formate-les en JSON strict (sans markdown, juste le code brut).\n"
      + "\n"
      + "IMPORTANT - Distinction fournisseur/client :\n"
      + "- Le FOURNISSEUR est la société qui a ÉMIS/ENVOYÉ la facture (l'émetteur, le vendeur, celui qui facture)\n"
      + "- Le CLIENT est la société qui REÇOIT la facture (le destinataire, l'acheteur, celui qui paie)\n"
      + "- Ne confonds JAMAIS le client avec le fournisseur\n"
      + "\n"
      + "RÈGLE CRITIQUE :\n"
      + "- BOARDRIDERS (toutes variantes: BOARDRIDERS TRADING ESPAÑA, BOARDRIDERS TRADING, etc.) est TOUJOURS le CLIENT, JAMAIS le fournisseur\n"
      + "- Si tu vois BOARDRIDERS, c'est le destinataire de la facture, pas l'émetteur\n"
      + "\n"
      + "Le fournisseur est souvent identifié :\n"
      + "  * Dans l'en-tête ou le logo de la facture (en haut)\n"
      + "  * Dans les coordonnées bancaires (RIB, IBAN)\n"
      + "  * Dans le nom du fichier PDF\n"
      + "  * Comme \"émetteur\" ou \"vendeur\"\n"
      + "  \n"
      + "Le client est souvent identifié :\n"
      + "  * Dans \"Adresse de facturation\" ou \"Adresse d'envoi\"\n"
      + "  * Comme \"destinataire\" ou \"acheteur\"\n"
      + "  \n"
      + "ASTUCE: Le nom du fichier contient souvent le nom du FOURNISSEUR\n"
      + "\n"
      + "Champs à extraire :\n"
      + "- fournisseur (Nom de la société ÉMETTRICE de la facture, PAS le client/destinataire. Utilise le nom du fichier comme indice si nécessaire)\n"
      + "- montant_ht (Montant hors taxes, nombre uniquement)\n"
      + "- numero_facture (Numéro de la facture)\n"
      + "- date_facture (Date de la facture au format YYYY-MM-DD)\n"
      + "- chrono (Le numéro Chrono du document si présent)\n"
      + "- couverture (La période de couverture/facturation si présente)\n"
      + "- nom_fichier (nom du fichier : ",
    ")\n"
      + "\n"
      + "Champs requis :\n"
      + "- fournisseur (String) - ATTENTION: société ÉMETTRICE, pas le client. Vérifie le nom du fichier ! Si tu vois BOARDRIDERS, ce n'est PAS le fournisseur !\n"
      + "- montant_ht (Number)\n"
      + "- numero_facture (String)\n"
      + "- date_facture (YYYY-MM-DD)\n"
      + "- chrono (Number/String)\n"
      + "- couverture (String - période)\n"
      + "- nom_fichier (String)\n"
      + "\n"
      + "Si une info est manquante, mets null.\n"
      + "\n"
      + "Réponds UNIQUEMENT avec le JSON, sans texte avant ou après.")

  /** The prompt for a text and a file name, on the template `t`. */
  function PromptFrom(t: Template, text: string, filename: string): string {
    Fill(t, Excerpt(text), filename)
  }

  /** `_create_prompt`. */
  function CreatePrompt(text: string, filename: string): string {
    PromptFrom(PromptTemplate, text, filename)
  }

  /** The text cut back out of a filled template, given the file name. */
  function TextOf(t: Template, prompt: string, filename: string): string {
    var tail := |t.afterText| + |filename| + |t.afterName| + |filename| + |t.closing|;
    if |t.intro| + tail <= |prompt| then prompt[|t.intro|..|prompt| - tail] else []
  }

  /** Filling a template and cutting the text back out gives the text, and
      the file name sits right after the first fixed piece that follows it. */
  lemma FillRoundTrip(t: Template, text: string, filename: string)
    ensures var p := Fill(t, text, filename);
      && Text.StartsWith(p, t.intro)
      && TextOf(t, p, filename) == text
      && Text.OccursAt(p, filename, |t.intro| + |text| + |t.afterText|)
  {
    var p := Fill(t, text, filename);
    var a := |t.intro| + |text| + |t.afterText|;
    assert p[..|t.intro|] == t.intro;
    assert p[|t.intro|..|t.intro| + |text|] == text;
    assert p[a..a + |filename|] == filename;
  }

  /** The prompt opens with the fixed introduction, embeds the excerpt so that
      it can be cut back out, and contains the file name. */
  lemma CreatePromptContents(text: string, filename: string)
    ensures Text.StartsWith(CreatePrompt(text, filename), PromptTemplate.intro)
    ensures TextOf(PromptTemplate, CreatePrompt(text, filename), filename) == Excerpt(text)
    ensures Text.Contains(CreatePrompt(text, filename), filename)
  {
    FillRoundTrip(PromptTemplate, Excerpt(text), filename);
  }

  // ---------------------------------------------------------------------------
  // extract_from_pdf

  /** `nom_fichier` defaulted to the file name when it is falsy. */
  function NameDefaulted(data: Fields, filename: string): (r: Fields)
    ensures Get(r, "nom_fichier") ==
      if Truthy(GetOr(data, "nom_fichier", Null)) then Get(data, "nom_fichier") else Some(Str(filename))
    ensures forall k | k != "nom_fichier" :: Get(r, k) == Get(data, k)
  {
    if Truthy(GetOr(data, "nom_fichier", Null)) then data else Put(data, "nom_fichier", Str(filename))
  }

  /** The record after its metadata is added: `nom_fichier` defaults to the
      file name when falsy, and the extraction time and the PDF path are
      always set. */
  function WithMetadata(data: Fields, pdfPath: string, filename: string, now: string): (r: Fields)
    ensures Get(r, "pdf_path") == Some(Str(pdfPath))
    ensures Get(r, "extraction_date") == Some(Str(now))
    ensures Get(r, "nom_fichier") ==
      if Truthy(GetOr(data, "nom_fichier", Null)) then Get(data, "nom_fichier") else Some(Str(filename))
    ensures forall k | k != "pdf_path" && k != "extraction_date" && k != "nom_fichier" :: Get(r, k) == Get(data, k)
  {
    Put(Put(NameDefaulted(data, filename), "extraction_date", Str(now)), "pdf_path", Str(pdfPath))
  }

  /** `r` starts with the keys of `d`, in order. */
  predicate KeysExtend(r: Fields, d: Fields) {
    |d| <= |r| && forall i | 0 <= i < |d| :: r[i].0 == d[i].0
  }

  /** Adding the metadata keeps every key of the record in place and adds
      only the three metadata keys. */
  lemma WithMetadataKeys(data: Fields, pdfPath: string, filename: string, now: string)
    ensures var r := WithMetadata(data, pdfPath, filename, now);
      && KeysExtend(r, data)
      && forall k :: HasKey(r, k) <==> HasKey(data, k) || k == "nom_fichier" || k == "extraction_date" || k == "pdf_path"
  {
    var named := NameDefaulted(data, filename);
    var dated := Put(named, "extraction_date", Str(now));
    var r := Put(dated, "pdf_path", Str(pdfPath));
    assert r == WithMetadata(data, pdfPath, filename, now);
    NameDefaultedKeys(data, filename);
    PutKeysExtend(named, "extraction_date", Str(now));
    PutKeysExtend(dated, "pdf_path", Str(pdfPath));
    KeysExtendTransitive(r, dated, named);
    KeysExtendTransitive(r, named, data);
  }

  lemma NameDefaultedKeys(data: Fields, filename: string)
    ensures KeysExtend(NameDefaulted(data, filename), data)
    ensures forall k :: HasKey(NameDefaulted(data, filename), k) ==> HasKey(data, k) || k == "nom_fichier"
    ensures forall k :: HasKey(data, k) ==> HasKey(NameDefaulted(data, filename), k)
    ensures HasKey(NameDefaulted(data, filename), "nom_fichier")
  {
    if !Truthy(GetOr(data, "nom_fichier", Null)) {
      PutKeysExtend(data, "nom_fichier", Str(filename));
    }
  }

  lemma KeysExtendTransitive(a: Fields, b: Fields, c: Fields)
    requires KeysExtend(a, b) && KeysExtend(b, c)
    ensures KeysExtend(a, c)
  {
  }

  /** Assigning a key keeps the existing keys in place. */
  lemma PutKeysExtend(d: Fields, k: string, v: Value)
    ensures KeysExtend(Put(d, k, v), d)
    ensures forall k' :: HasKey(Put(d, k, v), k') <==> HasKey(d, k') || k' == k
  {
    var r := Put(d, k, v);
    if HasKey(d, k) {
      assert forall i | 0 <= i < |d| :: Keys(r)[i] == Keys(d)[i];
    } else {
      assert forall i | 0 <= i < |d| :: r[i] == d[i];
    }
  }

  /** `extract_from_pdf`. The text the PDF extractor returns (or the error it
      raises), the model call on a prompt and the current time are
      parameters; `t` is the prompt template, `PromptTemplate` in the
      handler. */
  function ExtractFromPdf(
    t: Template, pdfPath: string, filename: string, pdfText: Result<string, Exception>,
    extract: string -> Result<Fields, Exception>, now: string): (r: Result<Fields, Exception>)
    ensures pdfText.Failure? ==> r == Failure(pdfText.error)
    ensures pdfText == Success([]) ==> r == Failure(ValueError("Aucun texte extrait du PDF: " + pdfPath))
    ensures pdfText.Success? && pdfText.value != [] ==>
      var answer := extract(PromptFrom(t, pdfText.value, filename));
      && (answer.Failure? ==> r == Failure(answer.error))
      && (answer.Success? ==>
            var fixed := FixSupplier(answer.value, filename);
            && (fixed.Failure? ==> r == Failure(fixed.error))
            && (fixed.Success? ==> r == Success(WithMetadata(fixed.value, pdfPath, filename, now))))
  {
    var text :- pdfText;
    if text == [] then Failure(ValueError("Aucun texte extrait du PDF: " + pdfPath))
    else
      var data :- extract(PromptFrom(t, text, filename));
      var fixed :- FixSupplier(data, filename);
      Success(WithMetadata(fixed, pdfPath, filename, now))
  }

  /** The corrector keeps the keys of a record it accepts. */
  lemma FixSupplierKeepsKeys(data: Fields, filename: string)
    requires FixSupplier(data, filename).Success?
    ensures forall k | HasKey(data, k) :: HasKey(FixSupplier(data, filename).value, k)
  {
    var r := FixSupplier(data, filename).value;
    forall k | HasKey(data, k) ensures HasKey(r, k) {
      if Get(r, k) != Get(data, k) {
        assert k == "fournisseur";
      }
    }
  }

  /** A record `extract_from_pdf` returns keeps every key of the model's
      answer and has the extraction time and the PDF path. */
  lemma ExtractFromPdfKeys(
    t: Template, pdfPath: string, filename: string, pdfText: Result<string, Exception>,
    extract: string -> Result<Fields, Exception>, now: string)
    requires ExtractFromPdf(t, pdfPath, filename, pdfText, extract, now).Success?
    ensures var answer := extract(PromptFrom(t, pdfText.value, filename)).value;
      var r := ExtractFromPdf(t, pdfPath, filename, pdfText, extract, now).value;
      && (forall k | HasKey(answer, k) :: HasKey(r, k))
      && HasKey(r, "extraction_date") && HasKey(r, "pdf_path") && HasKey(r, "nom_fichier")
  {
    var answer := extract(PromptFrom(t, pdfText.value, filename)).value;
    FixSupplierKeepsKeys(answer, filename);
    var fixed := FixSupplier(answer, filename).value;
    WithMetadataKeys(fixed, pdfPath, filename, now);
  }
}

=== FILE: invoice_store.dfy ===
/** The invoice table of `DynamoDBClient`: the item written for an extracted
    record, and the read, the queries and the deletion over a table modelled
    as the sequence of the items it holds. A service that fails raises the
    same exception from every call. */
module InvoiceStore {
  import opened Wrappers
  import opened Exceptions
  import opened Json
  import DynamoCodec
  import Numerals

  type AttrMap = DynamoCodec.AttrMap

  /** The fields copied from the record into attributes of their own, next to
      the full record kept as JSON text. */
  const ExtractedFields: seq<string> := [
    "fournisseur", "montant_ht", "numero_facture", "date_facture",
    "Le numero Chrono du document", "La période de couverture",
    "nom du fichier que tu trouves ici", "filename", "extraction_date", "pdf_path"
  ]

  predicate IsScalar(v: Value) {
    v.Str? || v.Int? || v.Float? || v.Bool?
  }

  /** The field is in the record and is not None. */
  predicate Holds(data: Fields, f: string) {
    Get(data, f).Some? && !Get(data, f).value.Null?
  }

  /** The value kept for an extracted field: a scalar as it is, anything else
      as its `str()` text. */
  function Flattened(v: Value, repr: Value -> string): (r: Value)
    ensures IsScalar(r)
    ensures IsScalar(v) ==> r == v
  {
    if IsScalar(v) then v else Str(repr(v))
  }

  predicate DistinctNames(fields: seq<string>) {
    forall i, j | 0 <= i < j < |fields| :: fields[i] != fields[j]
  }

  /** The loop over the extracted fields: each one the record holds becomes
      an entry. The names are distinct and none of them is a leading
      attribute, so each `item[field] = value` adds an entry at the end. */
  function Extracted(data: Fields, fields: seq<string>, repr: Value -> string): Fields
    decreases |fields|
  {
    if fields == [] then []
    else
      var rest := Extracted(data, fields[1..], repr);
      if Holds(data, fields[0]) then [(fields[0], Flattened(Get(data, fields[0]).value, repr))] + rest
      else rest
  }

  /** Each entry of `r` is a field of `fields` that the record holds, with
      its kept value. */
  predicate EntriesFrom(r: Fields, data: Fields, fields: seq<string>, repr: Value -> string) {
    forall i | 0 <= i < |r| ::
      r[i].0 in fields && Holds(data, r[i].0) && r[i].1 == Flattened(Get(data, r[i].0).value, repr)
  }

  lemma {:induction false} ExtractedEntries(data: Fields, fields: seq<string>, repr: Value -> string)
    ensures EntriesFrom(Extracted(data, fields, repr), data, fields, repr)
    decreases |fields|
  {
    if fields != [] {
      var rest := Extracted(data, fields[1..], repr);
      var r := Extracted(data, fields, repr);
      ExtractedEntries(data, fields[1..], repr);
      assert EntriesFrom(rest, data, fields[1..], repr);
      forall i | 0 <= i < |r| ensures
        r[i].0 in fields && Holds(data, r[i].0) && r[i].1 == Flattened(Get(data, r[i].0).value, repr)
      {
        if Holds(data, fields[0]) && i == 0 {
        } else {
          var k := if Holds(data, fields[0]) then i - 1 else i;
          assert r[i] == rest[k];
          var g := rest[k].0;
          assert g in fields[1..];
          var m :| 0 <= m < |fields[1..]| && fields[1..][m] == g;
          assert fields[m + 1] == g;
        }
      }
    }
  }

  /** Every held field has an entry. */
  lemma {:induction false} ExtractedCovers(data: Fields, fields: seq<string>, repr: Value -> string)
    ensures forall f | f in fields && Holds(data, f) :: HasKey(Extracted(data, fields, repr), f)
    decreases |fields|
  {
    if fields != [] {
      var rest := Extracted(data, fields[1..], repr);
      var r := Extracted(data, fields, repr);
      ExtractedCovers(data, fields[1..], repr);
      forall g | g in fields && Holds(data, g) ensures HasKey(r, g) {
        if g == fields[0] {
          assert r[0].0 == g;
        } else {
          assert g in fields[1..];
          var j :| 0 <= j < |rest| && rest[j].0 == g;
          var k := if Holds(data, fields[0]) then j + 1 else j;
          assert r[k] == rest[j];
        }
      }
    }
  }

  /** Distinct names give distinct keys. */
  lemma {:induction false} ExtractedDistinct(data: Fields, fields: seq<string>, repr: Value -> string)
    requires DistinctNames(fields)
    ensures DistinctKeys(Extracted(data, fields, repr))
    decreases |fields|
  {
    if fields != [] {
      var rest := Extracted(data, fields[1..], repr);
      var r := Extracted(data, fields, repr);
      forall i, j | 0 <= i < j < |fields[1..]| ensures fields[1..][i] != fields[1..][j] {
        assert fields[1..][i] == fields[i + 1] && fields[1..][j] == fields[j + 1];
      }
      ExtractedDistinct(data, fields[1..], repr);
      ExtractedEntries(data, fields[1..], repr);
      assert EntriesFrom(rest, data, fields[1..], repr);
      if Holds(data, fields[0]) {
        forall i, j | 0 <= i < j < |r| ensures r[i].0 != r[j].0 {
          assert r[j] == rest[j - 1];
          if i > 0 {
            assert r[i] == rest[i - 1];
          } else {
            assert rest[j - 1].0 in fields[1..];
            var m :| 0 <= m < |fields[1..]| && fields[1..][m] == rest[j - 1].0;
            assert fields[1..][m] == fields[m + 1];
          }
        }
      }
    }
  }

  lemma ExtractedShape(data: Fields, fields: seq<string>, repr: Value -> string)
    ensures var r := Extracted(data, fields, repr);
      && (forall i | 0 <= i < |r| ::
            r[i].0 in fields && Holds(data, r[i].0) && r[i].1 == Flattened(Get(data, r[i].0).value, repr))
      && (forall f | f in fields && Holds(data, f) :: HasKey(r, f))
      && (DistinctNames(fields) ==> DistinctKeys(r))
  {
    ExtractedEntries(data, fields, repr);
    assert EntriesFrom(Extracted(data, fields, repr), data, fields, repr);
    ExtractedCovers(data, fields, repr);
    if DistinctNames(fields) {
      ExtractedDistinct(data, fields, repr);
    }
  }

  /** The leading attributes: the generated id, the creation time and the
      whole record as JSON text. */
  function Leading(data: Fields, id: string, createdAt: string, codec: Codec): Fields {
    [("invoice_id", Str(id)), ("created_at", Str(createdAt)), ("raw_data", Str(codec.dumps(Obj(data))))]
  }

  /** The fixed field list has distinct names, none of them a leading one. */
  lemma ExtractedFieldsFacts()
    ensures DistinctNames(ExtractedFields)
    ensures forall i | 0 <= i < |ExtractedFields| ::
      ExtractedFields[i] != "invoice_id" && ExtractedFields[i] != "created_at" && ExtractedFields[i] != "raw_data"
  {
  }

  lemma ItemKeysDistinct(lead: Fields, rest: Fields)
    requires DistinctKeys(lead) && DistinctKeys(rest)
    requires forall i, j | 0 <= i < |lead| && 0 <= j < |rest| :: lead[i].0 != rest[j].0
    ensures DistinctKeys(lead + rest)
  {
    var item := lead + rest;
    forall i, j | 0 <= i < j < |item| ensures item[i].0 != item[j].0 {
      if j < |lead| {
      } else if i >= |lead| {
        assert item[i] == rest[i - |lead|] && item[j] == rest[j - |lead|];
      } else {
        assert item[j] == rest[j - |lead|];
      }
    }
  }

  /** The item `save_invoice_data` writes for the field list `fields`: the
      leading attributes, then the listed fields the record holds, each a
      scalar. */
  function ItemWith(data: Fields, id: string, createdAt: string, codec: Codec, fields: seq<string>): (item: Fields)
    requires DistinctNames(fields)
    requires forall i | 0 <= i < |fields| :: fields[i] != "invoice_id" && fields[i] != "created_at" && fields[i] != "raw_data"
    ensures |item| >= 3 && item[..3] == Leading(data, id, createdAt, codec)
    ensures forall i | 3 <= i < |item| ::
      item[i].0 in fields && Holds(data, item[i].0) && item[i].1 == Flattened(Get(data, item[i].0).value, codec.repr)
    ensures forall f | f in fields && Holds(data, f) :: HasKey(item, f)
    ensures forall i | 0 <= i < |item| :: IsScalar(item[i].1)
    ensures DistinctKeys(item)
  {
    var lead := Leading(data, id, createdAt, codec);
    var rest := Extracted(data, fields, codec.repr);
    ExtractedShape(data, fields, codec.repr);
    ItemKeysDistinct(lead, rest);
    var item := lead + rest;
    assert forall i | 3 <= i < |item| :: item[i] == rest[i - 3];
    assert forall f | f in fields && Holds(data, f) :: HasKey(item, f) by {
      forall f | f in fields && Holds(data, f) ensures HasKey(item, f) {
        var j :| 0 <= j < |rest| && rest[j].0 == f;
        assert item[j + 3] == rest[j];
      }
    }
    item
  }

  /** The item for the fixed field list. */
  function BuildItem(data: Fields, id: string, createdAt: string, codec: Codec): Fields {
    ExtractedFieldsFacts();
    ItemWith(data, id, createdAt, codec, ExtractedFields)
  }

  /** The attributes sent to `put_item`. */
  function Written(data: Fields, id: string, createdAt: string, codec: Codec): AttrMap {
    DynamoCodec.EncodeFields(BuildItem(data, id, createdAt, codec), codec)
  }

  // ---------------------------------------------------------------------------
  // The table

  /** The table and the service that holds it. `fault` is an error every
      call raises. `numbers` gives the text the service keeps for a number it
      is sent (it drops leading and trailing zeros), or None for a number it
      cannot store (NaN, an infinity, more than 38 significant digits).
      `withinLimit` is its item size limit of 400 KB, as it measures items. */
  datatype Service = Service(items: seq<AttrMap>, fault: Option<Exception>,
                             numbers: string -> Option<string>, withinLimit: AttrMap -> bool)

  /** The attribute named `name`, if the item has one. */
  function Attribute(item: AttrMap, name: string): (r: Option<DynamoCodec.Attr>)
    ensures r.None? <==> forall i | 0 <= i < |item| :: item[i].0 != name
    ensures r.Some? ==> exists i | 0 <= i < |item| :: item[i] == (name, r.value)
  {
    if item == [] then None
    else if item[0].0 == name then Some(item[0].1)
    else Attribute(item[1..], name)
  }

  /** The item's partition key: its `invoice_id`, which the table takes
      only as a non-empty string. */
  function KeyOf(item: AttrMap): Option<string> {
    var a := Attribute(item, "invoice_id");
    if a.Some? && a.value.S? && a.value.s != "" then Some(a.value.s) else None
  }

  /** An index key, when present, must be a non-empty string. */
  predicate IndexKeyAccepted(a: Option<DynamoCodec.Attr>) {
    a.None? || (a.value.S? && a.value.s != "")
  }

  /** What `put_item` accepts under the schema `_create_table` declares: the
      partition key `invoice_id` is a string, and each attribute with a global
      secondary index (`<name>-index`) is absent or a non-empty string. */
  predicate SchemaAccepts(item: AttrMap) {
    && KeyOf(item).Some?
    && IndexKeyAccepted(Attribute(item, "numero_facture"))
    && IndexKeyAccepted(Attribute(item, "date_facture"))
    && IndexKeyAccepted(Attribute(item, "fournisseur"))
  }

  /** What the table keeps of one attribute: a number in the service's own
      form, anything else as sent. */
  function StoredAttr(a: DynamoCodec.Attr, numbers: string -> Option<string>): (r: Option<DynamoCodec.Attr>)
    ensures !a.N? ==> r == Some(a)
    ensures a.N? ==> (r.Some? <==> numbers(a.n).Some?)
    ensures a.N? && r.Some? ==> r.value == DynamoCodec.N(numbers(a.n).value)
  {
    if !a.N? then Some(a)
    else if numbers(a.n).Some? then Some(DynamoCodec.N(numbers(a.n).value))
    else None
  }

  /** What the table keeps of an item: every attribute in its place, or
      nothing when one of its numbers cannot be stored. */
  function StoredItem(m: AttrMap, numbers: string -> Option<string>): (r: Option<AttrMap>)
    ensures r.None? <==> exists i | 0 <= i < |m| :: StoredAttr(m[i].1, numbers).None?
    ensures r.Some? ==> |r.value| == |m|
    ensures r.Some? ==> forall i | 0 <= i < |m| :: r.value[i] == (m[i].0, StoredAttr(m[i].1, numbers).value)
  {
    if forall i | 0 <= i < |m| :: StoredAttr(m[i].1, numbers).Some? then
      Some(seq(|m|, i requires 0 <= i < |m| => (m[i].0, StoredAttr(m[i].1, numbers).value)))
    else None
  }

  /** Looking an attribute up in what the table keeps gives what the table
      keeps of the attribute sent. */
  lemma {:induction false} StoredAttribute(m: AttrMap, numbers: string -> Option<string>, name: string)
    requires StoredItem(m, numbers).Some?
    ensures var a := Attribute(m, name);
      Attribute(StoredItem(m, numbers).value, name) == (if a.Some? then StoredAttr(a.value, numbers) else None)
  {
    if m != [] {
      var kept := StoredItem(m, numbers).value;
      assert forall i | 0 <= i < |m[1..]| :: m[1..][i] == m[i + 1];
      assert forall i | 0 <= i < |m[1..]| :: StoredAttr(m[1..][i].1, numbers).Some?;
      var tail := StoredItem(m[1..], numbers);
      assert tail.value == kept[1..];
      StoredAttribute(m[1..], numbers, name);
    }
  }

  /** The table keeps the key, and accepts the kept item under the schema
      exactly when it accepts the item sent. */
  lemma StoredKey(m: AttrMap, numbers: string -> Option<string>)
    requires StoredItem(m, numbers).Some?
    ensures KeyOf(StoredItem(m, numbers).value) == KeyOf(m)
    ensures SchemaAccepts(StoredItem(m, numbers).value) == SchemaAccepts(m)
  {
    StoredAttribute(m, numbers, "invoice_id");
    StoredAttribute(m, numbers, "numero_facture");
    StoredAttribute(m, numbers, "date_facture");
    StoredAttribute(m, numbers, "fournisseur");
  }

  /** Every item has a key and no two items share one. */
  predicate WellFormed(items: seq<AttrMap>) {
    && (forall x | x in items :: KeyOf(x).Some?)
    && (forall x, y | x in items && y in items && KeyOf(x) == KeyOf(y) :: x == y)
  }

  /** The first item with key `id`. */
  function FindItem(items: seq<AttrMap>, id: string): (r: Option<AttrMap>)
    ensures r.Some? ==> r.value in items && KeyOf(r.value) == Some(id)
    ensures r.None? <==> forall x | x in items :: KeyOf(x) != Some(id)
  {
    if items == [] then None
    else if KeyOf(items[0]) == Some(id) then Some(items[0])
    else FindItem(items[1..], id)
  }

  /** The items whose key is not `id`, in order. */
  function Without(items: seq<AttrMap>, id: string): (r: seq<AttrMap>)
    ensures forall x :: x in r <==> x in items && KeyOf(x) != Some(id)
  {
    if items == [] then []
    else if KeyOf(items[0]) == Some(id) then Without(items[1..], id)
    else [items[0]] + Without(items[1..], id)
  }

  /** `put_item`: the item replaces any item with the same key. */
  function Upsert(items: seq<AttrMap>, item: AttrMap): seq<AttrMap>
    requires KeyOf(item).Some?
  {
    Without(items, KeyOf(item).value) + [item]
  }

  /** The items `keep` selects, in order. */
  function Select(items: seq<AttrMap>, keep: AttrMap -> bool): (r: seq<AttrMap>)
    ensures forall x :: x in r <==> x in items && keep(x)
  {
    if items == [] then []
    else if keep(items[0]) then [items[0]] + Select(items[1..], keep)
    else Select(items[1..], keep)
  }

  lemma {:induction false} SelectNothing(items: seq<AttrMap>, keep: AttrMap -> bool)
    requires forall x | x in items :: !keep(x)
    ensures Select(items, keep) == []
  {
    if items != [] {
      assert items[0] in items;
      assert forall x | x in items[1..] :: x in items;
      SelectNothing(items[1..], keep);
    }
  }

  /** Each item converted in turn; the first conversion that raises ends the
      list comprehension. */
  function DecodeAll(items: seq<AttrMap>, loads: string -> Option<Value>): (r: Result<seq<Fields>, Exception>)
    ensures r.Success? <==> forall i | 0 <= i < |items| :: DynamoCodec.DecodeMap(items[i], loads).Success?
    ensures r.Success? ==>
      && |r.value| == |items|
      && forall i | 0 <= i < |items| :: DynamoCodec.DecodeMap(items[i], loads) == Success(r.value[i])
    ensures r.Failure? ==> exists i | 0 <= i < |items| ::
      && DynamoCodec.DecodeMap(items[i], loads) == Failure(r.error)
      && forall j | 0 <= j < i :: DynamoCodec.DecodeMap(items[j], loads).Success?
  {
    if items == [] then Success([])
    else match DynamoCodec.DecodeMap(items[0], loads)
      case Failure(e) => Failure(e)
      case Success(first) =>
        match DecodeAll(items[1..], loads)
        case Failure(e) =>
          FirstFailureShift(items, loads, e);
          Failure(e)
        case Success(rest) =>
          assert forall i | 1 <= i < |items| :: items[i] == items[1..][i - 1];
          Success([first] + rest)
  }

  /** A first failure in the tail is a first failure of the whole list when
      the head converts. */
  lemma FirstFailureShift(items: seq<AttrMap>, loads: string -> Option<Value>, e: Exception)
    requires |items| > 0 && DynamoCodec.DecodeMap(items[0], loads).Success?
    requires exists i | 0 <= i < |items[1..]| ::
      && DynamoCodec.DecodeMap(items[1..][i], loads) == Failure(e)
      && forall j | 0 <= j < i :: DynamoCodec.DecodeMap(items[1..][j], loads).Success?
    ensures exists i | 0 <= i < |items| ::
      && DynamoCodec.DecodeMap(items[i], loads) == Failure(e)
      && forall j | 0 <= j < i :: DynamoCodec.DecodeMap(items[j], loads).Success?
  {
    var i :| 0 <= i < |items[1..]| && DynamoCodec.DecodeMap(items[1..][i], loads) == Failure(e)
      && forall j | 0 <= j < i :: DynamoCodec.DecodeMap(items[1..][j], loads).Success?;
    assert items[1..][i] == items[i + 1];
    forall j | 0 <= j < i + 1 ensures DynamoCodec.DecodeMap(items[j], loads).Success? {
      if j > 0 {
        assert items[j] == items[1..][j - 1];
      }
    }
  }

  // ---------------------------------------------------------------------------
  // Operations. Only ClientError is caught where the client catches it; any
  // other exception propagates.

  /** What a healthy service accepts: an item that fits the key schema,
      whose numbers can all be stored, and which is within the size limit
      once stored. */
  predicate Accepts(svc: Service, item: AttrMap) {
    && SchemaAccepts(item)
    && StoredItem(item, svc.numbers).Some?
    && svc.withinLimit(StoredItem(item, svc.numbers).value)
  }

  /** What the table holds after saving `data`, if it can hold it. */
  function SavedItem(data: Fields, id: string, createdAt: string, codec: Codec, numbers: string -> Option<string>): Option<AttrMap> {
    StoredItem(Written(data, id, createdAt, codec), numbers)
  }

  /** `save_invoice_data`. The id (a fresh UUID) and the creation time are
      parameters; every exception is logged and raised again. */
  function SaveInvoiceData(svc: Service, data: Fields, id: string, createdAt: string, codec: Codec): (r: Result<(string, Service), Exception>)
    ensures svc.fault.Some? ==> r == Failure(svc.fault.value)
    ensures svc.fault.None? ==> (r.Success? <==> Accepts(svc, Written(data, id, createdAt, codec)))
    ensures svc.fault.None? && r.Failure? ==> r.error.ClientError? && r.error.code == "ValidationException"
    ensures r.Success? ==> r.value.0 == id && r.value.1 == svc.(items := r.value.1.items)
    ensures r.Success? ==> Stores(svc.items, r.value.1.items, SavedItem(data, id, createdAt, codec, svc.numbers).value)
  {
    var item := Written(data, id, createdAt, codec);
    if svc.fault.Some? then Failure(svc.fault.value)
    else if !SchemaAccepts(item) then
      Failure(ClientError("ValidationException", "PutItem", "One or more parameter values were invalid"))
    else match StoredItem(item, svc.numbers)
      case None =>
        Failure(ClientError("ValidationException", "PutItem", "The parameter cannot be converted to a numeric value"))
      case Some(kept) =>
        if !svc.withinLimit(kept) then
          Failure(ClientError("ValidationException", "PutItem", "Item size has exceeded the maximum allowed size"))
        else
          StoredKey(item, svc.numbers);
          UpsertStores(svc.items, kept);
          Success((id, svc.(items := Upsert(svc.items, kept))))
  }

  /** `after` holds `item` under its key, and otherwise exactly the items of
      `before` with other keys. */
  predicate Stores(before: seq<AttrMap>, after: seq<AttrMap>, item: AttrMap) {
    && KeyOf(item).Some?
    && FindItem(after, KeyOf(item).value) == Some(item)
    && (forall x | x in after && x != item :: x in before && KeyOf(x) != KeyOf(item))
    && (forall x | x in before && KeyOf(x) != KeyOf(item) :: x in after)
  }

  lemma UpsertStores(items: seq<AttrMap>, item: AttrMap)
    requires KeyOf(item).Some?
    ensures Stores(items, Upsert(items, item), item)
  {
    FindAfterUpsert(items, item);
  }

  lemma FindAfterUpsert(items: seq<AttrMap>, item: AttrMap)
    requires KeyOf(item).Some?
    ensures FindItem(Upsert(items, item), KeyOf(item).value) == Some(item)
  {
    var id := KeyOf(item).value;
    FindAppendNew(Without(items, id), item);
  }

  lemma {:induction false} FindAppendNew(items: seq<AttrMap>, item: AttrMap)
    requires KeyOf(item).Some?
    requires forall x | x in items :: KeyOf(x) != KeyOf(item)
    ensures FindItem(items + [item], KeyOf(item).value) == Some(item)
  {
    if items != [] {
      assert items[0] in items;
      assert (items + [item])[1..] == items[1..] + [item];
      FindAppendNew(items[1..], item);
    }
  }

  /** `get_invoice`: the converted item, or None when there is no item or the
      service reports a client error. */
  function GetInvoice(svc: Service, id: string, loads: string -> Option<Value>): (r: Result<Option<Fields>, Exception>)
    ensures svc.fault.Some? ==> r == (if svc.fault.value.ClientError? then Success(None) else Failure(svc.fault.value))
    ensures svc.fault.None? && (forall x | x in svc.items :: KeyOf(x) != Some(id)) ==> r == Success(None)
    ensures r.Success? && r.value.Some? ==>
      exists x | x in svc.items :: KeyOf(x) == Some(id) && DynamoCodec.DecodeMap(x, loads) == Success(r.value.value)
    ensures svc.fault.None? && FindItem(svc.items, id).Some? ==>
      var x := FindItem(svc.items, id).value;
      && (r.Success? <==> DynamoCodec.DecodeMap(x, loads).Success?)
      && (r.Success? ==> r.value == Some(DynamoCodec.DecodeMap(x, loads).value))
  {
    match svc.fault
    case Some(e) => if e.ClientError? then Success(None) else Failure(e)
    case None =>
      match FindItem(svc.items, id)
      case None => Success(None)
      case Some(item) =>
        if item == [] then Success(None)
        else
          var record :- DynamoCodec.DecodeMap(item, loads);
          Success(Some(record))
  }

  /** The items an index on `attribute` holds under the key `value`. */
  function Matching(items: seq<AttrMap>, attribute: string, value: string): (r: seq<AttrMap>)
    ensures forall x :: x in r <==> x in items && Attribute(x, attribute) == Some(DynamoCodec.S(value))
  {
    Select(items, x => Attribute(x, attribute) == Some(DynamoCodec.S(value)))
  }

  /** A query on one index: a client error gives the empty list. */
  function QueryIndex(svc: Service, attribute: string, value: string, loads: string -> Option<Value>): (r: Result<seq<Fields>, Exception>)
    ensures svc.fault.Some? ==> r == (if svc.fault.value.ClientError? then Success([]) else Failure(svc.fault.value))
    ensures svc.fault.None? ==> r == DecodeAll(Matching(svc.items, attribute, value), loads)
  {
    match svc.fault
    case Some(e) => if e.ClientError? then Success([]) else Failure(e)
    case None => DecodeAll(Matching(svc.items, attribute, value), loads)
  }

  /** `query_by_invoice_number`, on `numero_facture-index`. */
  function QueryByInvoiceNumber(svc: Service, number: string, loads: string -> Option<Value>): (r: Result<seq<Fields>, Exception>)
    ensures r == QueryIndex(svc, "numero_facture", number, loads)
  {
    QueryIndex(svc, "numero_facture", number, loads)
  }

  /** `query_by_supplier`, on `fournisseur-index`. */
  function QueryBySupplier(svc: Service, supplier: string, loads: string -> Option<Value>): (r: Result<seq<Fields>, Exception>)
    ensures r == QueryIndex(svc, "fournisseur", supplier, loads)
  {
    QueryIndex(svc, "fournisseur", supplier, loads)
  }

  /** String order as the service compares strings: by UTF-8 bytes, which is
      code point order. */
  predicate LexLe(a: string, b: string)
    decreases |a|
  {
    a == [] || (b != [] && (a[0] < b[0] || (a[0] == b[0] && LexLe(a[1..], b[1..]))))
  }

  lemma {:induction false} LexLeTransitive(a: string, b: string, c: string)
    requires LexLe(a, b) && LexLe(b, c)
    ensures LexLe(a, c)
    decreases |a|
  {
    if a != [] && a[0] == b[0] && b[0] == c[0] {
      LexLeTransitive(a[1..], b[1..], c[1..]);
    }
  }

  /** `date_facture BETWEEN lo AND hi` on a string attribute; an item without
      a string `date_facture` does not pass. */
  predicate DateBetween(item: AttrMap, lo: string, hi: string) {
    var a := Attribute(item, "date_facture");
    a.Some? && a.value.S? && LexLe(lo, a.value.s) && LexLe(a.value.s, hi)
  }

  /** `query_by_date_range`: a scan with a filter. */
  function QueryByDateRange(svc: Service, lo: string, hi: string, loads: string -> Option<Value>): (r: Result<seq<Fields>, Exception>)
    ensures svc.fault.Some? ==> r == (if svc.fault.value.ClientError? then Success([]) else Failure(svc.fault.value))
    ensures svc.fault.None? ==> r == DecodeAll(Select(svc.items, x => DateBetween(x, lo, hi)), loads)
  {
    match svc.fault
    case Some(e) => if e.ClientError? then Success([]) else Failure(e)
    case None => DecodeAll(Select(svc.items, x => DateBetween(x, lo, hi)), loads)
  }

  /** A range whose bounds are out of order selects nothing. */
  lemma InvertedRangeEmpty(svc: Service, lo: string, hi: string, loads: string -> Option<Value>)
    requires !LexLe(lo, hi)
    ensures QueryByDateRange(svc, lo, hi, loads).Success? ==> QueryByDateRange(svc, lo, hi, loads).value == []
  {
    var keep := x => DateBetween(x, lo, hi);
    forall x | x in svc.items ensures !keep(x) {
      if DateBetween(x, lo, hi) {
        var d := Attribute(x, "date_facture").value.s;
        LexLeTransitive(lo, d, hi);
      }
    }
    SelectNothing(svc.items, keep);
  }

  /** `delete_invoice`: True once the delete call returns, whether or not an
      item had that key; False on a client error. The table refuses an empty
      key with a validation error, a client error too, so an empty id gives
      False and changes nothing. */
  function DeleteInvoice(svc: Service, id: string): (r: Result<(bool, Service), Exception>)
    ensures svc.fault.Some? ==> r == (if svc.fault.value.ClientError? then Success((false, svc)) else Failure(svc.fault.value))
    ensures svc.fault.None? && id == "" ==> r == Success((false, svc))
    ensures svc.fault.None? && id != "" ==>
      && r.Success? && r.value.0
      && (forall x | x in r.value.1.items :: KeyOf(x) != Some(id))
      && (forall x | x in svc.items && KeyOf(x) != Some(id) :: x in r.value.1.items)
      && (forall x | x in r.value.1.items :: x in svc.items)
  {
    match svc.fault
    case Some(e) => if e.ClientError? then Success((false, svc)) else Failure(e)
    case None =>
      if id == "" then Success((false, svc))
      else Success((true, svc.(items := Without(svc.items, id))))
  }

  // ---------------------------------------------------------------------------
  // Properties across operations

  /** Saving and deleting keep at most one item per key. */
  lemma SaveKeepsWellFormed(svc: Service, data: Fields, id: string, createdAt: string, codec: Codec)
    requires WellFormed(svc.items)
    ensures var r := SaveInvoiceData(svc, data, id, createdAt, codec);
      r.Success? ==> WellFormed(r.value.1.items)
  {
  }

  lemma DeleteKeepsWellFormed(svc: Service, id: string)
    requires WellFormed(svc.items)
    ensures var r := DeleteInvoice(svc, id);
      r.Success? ==> WellFormed(r.value.1.items)
  {
  }

  /** After a delete, reading that id finds nothing. */
  lemma GetAfterDelete(svc: Service, id: string, loads: string -> Option<Value>)
    requires svc.fault.None?
    ensures GetInvoice(DeleteInvoice(svc, id).value.1, id, loads) == Success(None)
  {
  }

  /** A written item is the attributes of its entries, in order. */
  lemma WrittenEntries(data: Fields, id: string, createdAt: string, codec: Codec)
    ensures var item := BuildItem(data, id, createdAt, codec);
      Written(data, id, createdAt, codec) == DynamoCodec.Encoded(item, codec)
  {
    var item := BuildItem(data, id, createdAt, codec);
    DynamoCodec.EncodeFieldsPresent(item, codec);
    var m := DynamoCodec.Encoded(item, codec);
    var none: AttrMap := [];
    assert DynamoCodec.KeysApart(none, m);
    DynamoCodec.PutAllAppends(none, m);
    assert none + m == m;
  }

  /** Every written item is keyed by the id it was saved under, and an
      empty id is no key at all. */
  lemma WrittenKey(data: Fields, id: string, createdAt: string, codec: Codec)
    ensures KeyOf(Written(data, id, createdAt, codec)) == if id == "" then None else Some(id)
  {
    WrittenEntries(data, id, createdAt, codec);
    var item := BuildItem(data, id, createdAt, codec);
    assert item[0] == item[..3][0];
    var w := Written(data, id, createdAt, codec);
    assert w[0] == ("invoice_id", DynamoCodec.S(id));
  }

  /** What `get_invoice` gives back for a field the record holds: the kept
      value, a number read from the text the service keeps for it; None when
      the service cannot store that number. */
  function ReadBack(v: Value, codec: Codec, numbers: string -> Option<string>): (r: Option<Value>)
    ensures v.Str? || v.Bool? ==> r == Some(v)
    ensures !IsScalar(v) ==> r == Some(Str(codec.repr(v)))
    ensures v.Float? ==> (r.Some? <==> numbers(codec.repr(v)).Some?)
    ensures v.Float? && r.Some? ==> r.value == DynamoCodec.DecodeNumber(numbers(codec.repr(v)).value)
  {
    var kept := Flattened(v, codec.repr);
    if kept.Int? || kept.Float? then
      match numbers(DynamoCodec.NumberText(kept, codec.repr))
      case Some(t) => Some(DynamoCodec.DecodeNumber(t))
      case None => None
    else Some(kept)
  }

  /** An int whose digits the service keeps as they are reads back as itself. */
  lemma ReadBackInt(n: int, codec: Codec, numbers: string -> Option<string>)
    requires numbers(Numerals.IntToString(n)) == Some(Numerals.IntToString(n))
    ensures ReadBack(Int(n), codec, numbers) == Some(Int(n))
  {
    DynamoCodec.DecodeEncodeInt(n, codec);
  }

  /** A whole amount the model gives as `1250.00` is the float `1250.0`, sent
      as the text "1250.0"; the service keeps "1250", which has no `.`, so it
      reads back as the int 1250. */
  lemma WholeAmountReadAsInt(codec: Codec, numbers: string -> Option<string>)
    requires codec.repr(Float("1250.00")) == "1250.0"
    requires numbers("1250.0") == Some("1250")
    ensures ReadBack(Float("1250.00"), codec, numbers) == Some(Int(1250))
  {
    Numerals.IntToStringRoundTrip(1250);
    assert Numerals.IntToString(1250) == "1250";
  }

  /** A scalar's attribute can be stored exactly when it has a read-back, and
      then reads back as it. */
  lemma StoredScalar(v: Value, codec: Codec, numbers: string -> Option<string>)
    requires IsScalar(v)
    ensures StoredAttr(DynamoCodec.Encode(v, codec), numbers).Some? <==> ReadBack(v, codec, numbers).Some?
    ensures ReadBack(v, codec, numbers).Some? ==>
      DynamoCodec.Decode(StoredAttr(DynamoCodec.Encode(v, codec), numbers).value, codec.loads) ==
        Success(Some(ReadBack(v, codec, numbers).value))
  {
  }

  /** Keeping a value flat first changes nothing about what is read back. */
  lemma ReadBackFlattened(v: Value, codec: Codec, numbers: string -> Option<string>)
    ensures ReadBack(Flattened(v, codec.repr), codec, numbers) == ReadBack(v, codec, numbers)
  {
  }

  /** The value read back for each entry, in order. */
  function ReadAll(d: Fields, codec: Codec, numbers: string -> Option<string>): (r: Fields)
    requires forall i | 0 <= i < |d| :: ReadBack(d[i].1, codec, numbers).Some?
    ensures |r| == |d|
    ensures forall i | 0 <= i < |d| :: r[i] == (d[i].0, ReadBack(d[i].1, codec, numbers).value)
  {
    seq(|d|, i requires 0 <= i < |d| => (d[i].0, ReadBack(d[i].1, codec, numbers).value))
  }

  /** With distinct keys and no None value, the converter gives one
      attribute per entry, in order. */
  lemma EncodedItem(d: Fields, codec: Codec)
    requires DistinctKeys(d) && forall i | 0 <= i < |d| :: !d[i].1.Null?
    ensures DynamoCodec.EncodeFields(d, codec) == DynamoCodec.Encoded(d, codec)
  {
    var m := DynamoCodec.Encoded(d, codec);
    DynamoCodec.EncodeFieldsPresent(d, codec);
    DynamoCodec.PutAllAppends([], m);
    assert [] + m == m;
  }

  /** Each attribute the table keeps for a scalar entry reads back as the
      entry's read-back. */
  lemma StoredReads(d: Fields, codec: Codec, numbers: string -> Option<string>)
    requires DistinctKeys(d) && forall i | 0 <= i < |d| :: IsScalar(d[i].1)
    requires StoredItem(DynamoCodec.EncodeFields(d, codec), numbers).Some?
    ensures forall i | 0 <= i < |d| :: ReadBack(d[i].1, codec, numbers).Some?
    ensures var kept := StoredItem(DynamoCodec.EncodeFields(d, codec), numbers).value;
      && |kept| == |d|
      && forall i | 0 <= i < |d| ::
        kept[i].0 == d[i].0 &&
        DynamoCodec.Decode(kept[i].1, codec.loads) == Success(Some(ReadBack(d[i].1, codec, numbers).value))
  {
    EncodedItem(d, codec);
    var m := DynamoCodec.Encoded(d, codec);
    forall i | 0 <= i < |d|
      ensures ReadBack(d[i].1, codec, numbers).Some?
      ensures DynamoCodec.Decode(StoredAttr(m[i].1, numbers).value, codec.loads) ==
        Success(Some(ReadBack(d[i].1, codec, numbers).value))
    {
      assert StoredAttr(m[i].1, numbers).Some?;
      StoredScalar(d[i].1, codec, numbers);
    }
  }

  /** An item of scalar entries, as the table keeps it, reads back entry by
      entry, then gains `parsed_data`. */
  lemma DecodeStoredItem(d: Fields, codec: Codec, numbers: string -> Option<string>)
    requires DistinctKeys(d) && forall i | 0 <= i < |d| :: IsScalar(d[i].1)
    requires StoredItem(DynamoCodec.EncodeFields(d, codec), numbers).Some?
    ensures forall i | 0 <= i < |d| :: ReadBack(d[i].1, codec, numbers).Some?
    ensures DynamoCodec.DecodeMap(StoredItem(DynamoCodec.EncodeFields(d, codec), numbers).value, codec.loads) ==
      DynamoCodec.WithParsedData(ReadAll(d, codec, numbers), codec.loads)
  {
    StoredReads(d, codec, numbers);
    var kept := StoredItem(DynamoCodec.EncodeFields(d, codec), numbers).value;
    var e := ReadAll(d, codec, numbers);
    ReadAllKeys(d, codec, numbers);
    DynamoCodec.DecodeMapRead(kept, e, codec.loads);
    DynamoCodec.GatherAppends([], e);
  }

  lemma ReadAllKeys(d: Fields, codec: Codec, numbers: string -> Option<string>)
    requires DistinctKeys(d) && forall i | 0 <= i < |d| :: ReadBack(d[i].1, codec, numbers).Some?
    ensures DynamoCodec.KeysDistinct(ReadAll(d, codec, numbers))
  {
    var e := ReadAll(d, codec, numbers);
    forall i, j | 0 <= i < j < |e| ensures e[i].0 != e[j].0 {
      assert e[i].0 == d[i].0 && e[j].0 == d[j].0;
    }
  }

  /** What reading back a saved record gives: the leading attributes, the
      parsed copy of the whole record, each listed field the record holds as
      the table keeps it, and none that it does not. */
  predicate SavedRecord(rec: Fields, data: Fields, id: string, createdAt: string, codec: Codec,
                        numbers: string -> Option<string>, fields: seq<string>) {
    var raw := codec.dumps(Obj(data));
    && Get(rec, "invoice_id") == Some(Str(id))
    && Get(rec, "created_at") == Some(Str(createdAt))
    && Get(rec, "raw_data") == Some(Str(raw))
    && Get(rec, "parsed_data") == Some(if codec.loads(raw).Some? then codec.loads(raw).value else Obj([]))
    && (forall f | f in fields && Holds(data, f) :: Get(rec, f) == ReadBack(Get(data, f).value, codec, numbers))
    && (forall f | f in fields && !Holds(data, f) :: Get(rec, f).None?)
  }

  /** The field-list requirements of `ItemWith`, and `parsed_data` is not a
      listed field. */
  predicate FieldList(fields: seq<string>) {
    && DistinctNames(fields)
    && (forall i | 0 <= i < |fields| :: fields[i] != "invoice_id" && fields[i] != "created_at" && fields[i] != "raw_data")
    && "parsed_data" !in fields
  }

  lemma ExtractedFieldList()
    ensures FieldList(ExtractedFields)
  {
    ExtractedFieldsFacts();
  }

  /** The leading entries of the item as they are read back. */
  lemma ReadBackLeading(data: Fields, id: string, createdAt: string, codec: Codec,
                        numbers: string -> Option<string>, fields: seq<string>)
    requires FieldList(fields)
    requires forall i | 0 <= i < |ItemWith(data, id, createdAt, codec, fields)| ::
      ReadBack(ItemWith(data, id, createdAt, codec, fields)[i].1, codec, numbers).Some?
    ensures var back := ReadAll(ItemWith(data, id, createdAt, codec, fields), codec, numbers);
      && DistinctKeys(back)
      && Get(back, "invoice_id") == Some(Str(id))
      && Get(back, "created_at") == Some(Str(createdAt))
      && Get(back, "raw_data") == Some(Str(codec.dumps(Obj(data))))
      && !HasKey(back, "parsed_data")
  {
    var item := ItemWith(data, id, createdAt, codec, fields);
    var back := ReadAll(item, codec, numbers);
    assert forall i | 0 <= i < |back| :: back[i].0 == item[i].0;
    assert DistinctKeys(back);
    assert item[0] == item[..3][0] && item[1] == item[..3][1] && item[2] == item[..3][2];
    GetAt(back, 0);
    GetAt(back, 1);
    GetAt(back, 2);
    forall i | 0 <= i < |back| ensures back[i].0 != "parsed_data" {
      if i >= 3 {
        assert item[i].0 in fields;
      }
    }
  }

  /** The listed fields of the item as they are read back. */
  lemma ReadBackFields(data: Fields, id: string, createdAt: string, codec: Codec,
                       numbers: string -> Option<string>, fields: seq<string>)
    requires FieldList(fields)
    requires forall i | 0 <= i < |ItemWith(data, id, createdAt, codec, fields)| ::
      ReadBack(ItemWith(data, id, createdAt, codec, fields)[i].1, codec, numbers).Some?
    ensures var back := ReadAll(ItemWith(data, id, createdAt, codec, fields), codec, numbers);
      && (forall f | f in fields && Holds(data, f) :: Get(back, f) == ReadBack(Get(data, f).value, codec, numbers))
      && (forall f | f in fields && !Holds(data, f) :: Get(back, f).None?)
  {
    var item := ItemWith(data, id, createdAt, codec, fields);
    var back := ReadAll(item, codec, numbers);
    assert forall i | 0 <= i < |back| :: back[i].0 == item[i].0;
    assert DistinctKeys(back);
    forall f | f in fields && Holds(data, f)
      ensures Get(back, f) == ReadBack(Get(data, f).value, codec, numbers)
    {
      var j :| 0 <= j < |item| && item[j].0 == f;
      GetAt(back, j);
      ReadBackFlattened(Get(data, f).value, codec, numbers);
    }
    forall f | f in fields && !Holds(data, f) ensures Get(back, f).None? {
      forall i | 0 <= i < |back| ensures back[i].0 != f {
        if i < 3 {
          assert item[i] == item[..3][i];
        }
      }
    }
  }

  /** Reading back what the table keeps of an item written for the field
      list `fields`. */
  lemma DecodeWritten(data: Fields, id: string, createdAt: string, codec: Codec,
                      numbers: string -> Option<string>, fields: seq<string>)
    requires FieldList(fields)
    requires StoredItem(DynamoCodec.EncodeFields(ItemWith(data, id, createdAt, codec, fields), codec), numbers).Some?
    ensures var m := StoredItem(DynamoCodec.EncodeFields(ItemWith(data, id, createdAt, codec, fields), codec), numbers).value;
      var r := DynamoCodec.DecodeMap(m, codec.loads);
      r.Success? && SavedRecord(r.value, data, id, createdAt, codec, numbers, fields)
  {
    var item := ItemWith(data, id, createdAt, codec, fields);
    DecodeStoredItem(item, codec, numbers);
    ReadBackLeading(data, id, createdAt, codec, numbers, fields);
    ReadBackFields(data, id, createdAt, codec, numbers, fields);
  }

  /** The item a successful save leaves in the table, under its id. */
  lemma SavedFound(svc: Service, data: Fields, id: string, createdAt: string, codec: Codec)
    requires SaveInvoiceData(svc, data, id, createdAt, codec).Success?
    ensures SavedItem(data, id, createdAt, codec, svc.numbers).Some?
    ensures var kept := SavedItem(data, id, createdAt, codec, svc.numbers).value;
      var after := SaveInvoiceData(svc, data, id, createdAt, codec).value.1;
      && KeyOf(kept) == Some(id)
      && FindItem(after.items, id) == Some(kept)
      && kept in after.items
  {
    var w := Written(data, id, createdAt, codec);
    WrittenKey(data, id, createdAt, codec);
    StoredKey(w, svc.numbers);
  }

  /** Reading back a freshly saved invoice gives the saved record. */
  lemma SaveThenGet(svc: Service, data: Fields, id: string, createdAt: string, codec: Codec)
    requires SaveInvoiceData(svc, data, id, createdAt, codec).Success?
    ensures var after := SaveInvoiceData(svc, data, id, createdAt, codec).value.1;
      var r := GetInvoice(after, id, codec.loads);
      r.Success? && r.value.Some? && SavedRecord(r.value.value, data, id, createdAt, codec, svc.numbers, ExtractedFields)
  {
    SavedFound(svc, data, id, createdAt, codec);
    ExtractedFieldList();
    DecodeWritten(data, id, createdAt, codec, svc.numbers, ExtractedFields);
  }

  /** Every item in the table converts back without raising. */
  predicate Readable(items: seq<AttrMap>, loads: string -> Option<Value>) {
    forall x | x in items :: DynamoCodec.DecodeMap(x, loads).Success?
  }

  /** Saving keeps every item readable. */
  lemma SaveKeepsReadable(svc: Service, data: Fields, id: string, createdAt: string, codec: Codec)
    requires Readable(svc.items, codec.loads)
    ensures var r := SaveInvoiceData(svc, data, id, createdAt, codec);
      r.Success? ==> Readable(r.value.1.items, codec.loads)
  {
    if SaveInvoiceData(svc, data, id, createdAt, codec).Success? {
      ExtractedFieldList();
      DecodeWritten(data, id, createdAt, codec, svc.numbers, ExtractedFields);
    }
  }

  /** With distinct names, the attribute of a name is its one entry. */
  lemma AttributeAt(m: AttrMap, j: nat)
    requires DynamoCodec.KeysDistinct(m) && j < |m|
    ensures Attribute(m, m[j].0) == Some(m[j].1)
  {
  }

  /** A listed field the record holds has its entry in the item, past the
      leading attributes. */
  lemma HeldEntry(data: Fields, id: string, createdAt: string, codec: Codec, f: string) returns (j: nat)
    requires f in ExtractedFields && Holds(data, f)
    ensures var item := BuildItem(data, id, createdAt, codec);
      3 <= j < |item| && item[j] == (f, Flattened(Get(data, f).value, codec.repr))
  {
    var item := BuildItem(data, id, createdAt, codec);
    j :| 0 <= j < |item| && item[j].0 == f;
    GetAt(item, j);
    if j < 3 {
      assert item[j] == item[..3][j];
      ExtractedFieldsFacts();
      assert false;
    }
  }

  /** The attribute written for a listed field the record holds. */
  lemma WrittenAttribute(data: Fields, id: string, createdAt: string, codec: Codec, f: string)
    requires f in ExtractedFields && Holds(data, f)
    ensures Attribute(Written(data, id, createdAt, codec), f) ==
      Some(DynamoCodec.Encode(Flattened(Get(data, f).value, codec.repr), codec))
  {
    var item := BuildItem(data, id, createdAt, codec);
    WrittenEntries(data, id, createdAt, codec);
    DynamoCodec.EncodeFieldsPresent(item, codec);
    var j := HeldEntry(data, id, createdAt, codec, f);
    AttributeAt(Written(data, id, createdAt, codec), j);
  }

  /** The attribute the table keeps for a listed field the record holds. */
  lemma KeptAttribute(data: Fields, id: string, createdAt: string, codec: Codec, numbers: string -> Option<string>, f: string)
    requires f in ExtractedFields && Holds(data, f)
    requires SavedItem(data, id, createdAt, codec, numbers).Some?
    ensures Attribute(SavedItem(data, id, createdAt, codec, numbers).value, f) ==
      StoredAttr(DynamoCodec.Encode(Flattened(Get(data, f).value, codec.repr), codec), numbers)
  {
    WrittenAttribute(data, id, createdAt, codec, f);
    StoredAttribute(Written(data, id, createdAt, codec), numbers, f);
  }

  /** A listed field the record does not hold has no attribute. */
  lemma WrittenAttributeAbsent(data: Fields, id: string, createdAt: string, codec: Codec, f: string)
    requires f in ExtractedFields && !Holds(data, f)
    ensures Attribute(Written(data, id, createdAt, codec), f).None?
  {
    var item := BuildItem(data, id, createdAt, codec);
    WrittenEntries(data, id, createdAt, codec);
    ExtractedFieldsFacts();
    forall i | 0 <= i < |item| ensures item[i].0 != f {
      if i < 3 {
        assert item[i] == item[..3][i];
      }
    }
  }

  /** The attribute names that key a global secondary index. */
  predicate IndexName(f: string) {
    f == "numero_facture" || f == "date_facture" || f == "fournisseur"
  }

  /** What the record must give an indexed field for the item to be
      accepted: nothing, or a value kept as a non-empty string. */
  predicate IndexValueAccepted(data: Fields, f: string, repr: Value -> string) {
    !Holds(data, f) || (Flattened(Get(data, f).value, repr).Str? && Flattened(Get(data, f).value, repr).s != "")
  }

  lemma IndexNamesListed(f: string)
    requires IndexName(f)
    ensures f in ExtractedFields
  {
  }

  lemma IndexAttribute(data: Fields, id: string, createdAt: string, codec: Codec, f: string)
    requires IndexName(f)
    ensures IndexKeyAccepted(Attribute(Written(data, id, createdAt, codec), f)) <==> IndexValueAccepted(data, f, codec.repr)
  {
    IndexNamesListed(f);
    if Holds(data, f) {
      WrittenAttribute(data, id, createdAt, codec, f);
    } else {
      WrittenAttributeAbsent(data, id, createdAt, codec, f);
    }
  }

  /** Every field the record holds has a form the table can keep: no number
      among them that the service cannot store. */
  predicate NumbersStorable(data: Fields, codec: Codec, numbers: string -> Option<string>) {
    forall f | f in ExtractedFields && Holds(data, f) :: ReadBack(Get(data, f).value, codec, numbers).Some?
  }

  /** The table can keep the written item exactly when every entry of the
      item has a read-back. */
  lemma StoredEntriesIff(data: Fields, id: string, createdAt: string, codec: Codec, numbers: string -> Option<string>)
    ensures var item := BuildItem(data, id, createdAt, codec);
      SavedItem(data, id, createdAt, codec, numbers).Some? <==>
        forall i | 0 <= i < |item| :: ReadBack(item[i].1, codec, numbers).Some?
  {
    var item := BuildItem(data, id, createdAt, codec);
    var w := Written(data, id, createdAt, codec);
    WrittenEntries(data, id, createdAt, codec);
    forall i | 0 <= i < |item|
      ensures StoredAttr(w[i].1, numbers).Some? <==> ReadBack(item[i].1, codec, numbers).Some?
    {
      StoredScalar(item[i].1, codec, numbers);
    }
  }

  /** Every entry of the written item has a read-back when the record's
      numbers can be stored. */
  lemma EntriesReadWhenStorable(data: Fields, id: string, createdAt: string, codec: Codec, numbers: string -> Option<string>)
    requires NumbersStorable(data, codec, numbers)
    ensures var item := BuildItem(data, id, createdAt, codec);
      forall i | 0 <= i < |item| :: ReadBack(item[i].1, codec, numbers).Some?
  {
    var item := BuildItem(data, id, createdAt, codec);
    forall i | 0 <= i < |item| ensures ReadBack(item[i].1, codec, numbers).Some? {
      if i < 3 {
        assert item[i] == item[..3][i];
      } else {
        ReadBackFlattened(Get(data, item[i].0).value, codec, numbers);
      }
    }
  }

  /** The record's numbers can be stored when every entry of the written
      item has a read-back. */
  lemma StorableWhenEntriesRead(data: Fields, id: string, createdAt: string, codec: Codec, numbers: string -> Option<string>)
    requires var item := BuildItem(data, id, createdAt, codec);
      forall i | 0 <= i < |item| :: ReadBack(item[i].1, codec, numbers).Some?
    ensures NumbersStorable(data, codec, numbers)
  {
    forall f | f in ExtractedFields && Holds(data, f) ensures ReadBack(Get(data, f).value, codec, numbers).Some? {
      var j := HeldEntry(data, id, createdAt, codec, f);
      ReadBackFlattened(Get(data, f).value, codec, numbers);
    }
  }

  /** The table can keep the written item exactly when the record's numbers
      can be stored. */
  lemma StoredWrittenIff(data: Fields, id: string, createdAt: string, codec: Codec, numbers: string -> Option<string>)
    ensures SavedItem(data, id, createdAt, codec, numbers).Some? <==> NumbersStorable(data, codec, numbers)
  {
    StoredEntriesIff(data, id, createdAt, codec, numbers);
    var item := BuildItem(data, id, createdAt, codec);
    if NumbersStorable(data, codec, numbers) {
      EntriesReadWhenStorable(data, id, createdAt, codec, numbers);
    }
    if forall i | 0 <= i < |item| :: ReadBack(item[i].1, codec, numbers).Some? {
      StorableWhenEntriesRead(data, id, createdAt, codec, numbers);
    }
  }

  /** On a healthy service, saving succeeds exactly when the id is not
      empty, each indexed field is absent or kept as a non-empty string,
      every number among the fields can be stored, and the stored item is
      within the size limit; otherwise the service rejects the item with a
      validation error. */
  lemma SaveAcceptedIff(svc: Service, data: Fields, id: string, createdAt: string, codec: Codec)
    requires svc.fault.None?
    ensures var r := SaveInvoiceData(svc, data, id, createdAt, codec);
      var kept := SavedItem(data, id, createdAt, codec, svc.numbers);
      && (r.Success? <==>
            && id != ""
            && IndexValueAccepted(data, "numero_facture", codec.repr)
            && IndexValueAccepted(data, "date_facture", codec.repr)
            && IndexValueAccepted(data, "fournisseur", codec.repr)
            && NumbersStorable(data, codec, svc.numbers)
            && kept.Some? && svc.withinLimit(kept.value))
      && (r.Failure? ==> r.error.ClientError? && r.error.code == "ValidationException")
  {
    WrittenKey(data, id, createdAt, codec);
    IndexAttribute(data, id, createdAt, codec, "numero_facture");
    IndexAttribute(data, id, createdAt, codec, "date_facture");
    IndexAttribute(data, id, createdAt, codec, "fournisseur");
    StoredWrittenIff(data, id, createdAt, codec, svc.numbers);
  }

  /** An invoice number the model read as a number is refused by the index. */
  lemma NumericInvoiceNumberRejected(svc: Service, data: Fields, id: string, createdAt: string, codec: Codec, n: int)
    requires svc.fault.None? && Get(data, "numero_facture") == Some(Int(n))
    ensures SaveInvoiceData(svc, data, id, createdAt, codec).Failure?
  {
    WrittenKey(data, id, createdAt, codec);
    IndexAttribute(data, id, createdAt, codec, "numero_facture");
  }

  /** The item a save leaves in the table lies in the index of an indexed
      field under the field's string. */
  lemma SavedUnderIndex(svc: Service, data: Fields, id: string, createdAt: string, codec: Codec, f: string, value: string)
    requires SaveInvoiceData(svc, data, id, createdAt, codec).Success?
    requires IndexName(f) && Get(data, f) == Some(Str(value))
    ensures var after := SaveInvoiceData(svc, data, id, createdAt, codec).value.1;
      SavedItem(data, id, createdAt, codec, svc.numbers).Some? &&
      SavedItem(data, id, createdAt, codec, svc.numbers).value in Matching(after.items, f, value)
  {
    SavedFound(svc, data, id, createdAt, codec);
    IndexNamesListed(f);
    KeptAttribute(data, id, createdAt, codec, svc.numbers, f);
    assert Flattened(Str(value), codec.repr) == Str(value);
  }

  /** A query whose matches are all readable returns the saved record when
      the item the table keeps for it is among them. */
  lemma QueryFindsSaved(hits: seq<AttrMap>, data: Fields, id: string, createdAt: string, codec: Codec,
                        numbers: string -> Option<string>)
    requires Readable(hits, codec.loads)
    requires SavedItem(data, id, createdAt, codec, numbers).Some?
    requires SavedItem(data, id, createdAt, codec, numbers).value in hits
    ensures var r := DecodeAll(hits, codec.loads);
      r.Success? && exists rec | rec in r.value :: SavedRecord(rec, data, id, createdAt, codec, numbers, ExtractedFields)
  {
    var r := DecodeAll(hits, codec.loads);
    var i :| 0 <= i < |hits| && hits[i] == SavedItem(data, id, createdAt, codec, numbers).value;
    ExtractedFieldList();
    DecodeWritten(data, id, createdAt, codec, numbers, ExtractedFields);
    assert r.value[i] in r.value;
  }

  /** A saved invoice is found by its supplier. */
  lemma SaveThenQueryBySupplier(svc: Service, data: Fields, id: string, createdAt: string, codec: Codec, supplier: string)
    requires Readable(svc.items, codec.loads)
    requires SaveInvoiceData(svc, data, id, createdAt, codec).Success?
    requires Get(data, "fournisseur") == Some(Str(supplier))
    ensures var after := SaveInvoiceData(svc, data, id, createdAt, codec).value.1;
      var r := QueryBySupplier(after, supplier, codec.loads);
      r.Success? && exists rec | rec in r.value :: SavedRecord(rec, data, id, createdAt, codec, svc.numbers, ExtractedFields)
  {
    var after := SaveInvoiceData(svc, data, id, createdAt, codec).value.1;
    SavedUnderIndex(svc, data, id, createdAt, codec, "fournisseur", supplier);
    SaveKeepsReadable(svc, data, id, createdAt, codec);
    QueryFindsSaved(Matching(after.items, "fournisseur", supplier), data, id, createdAt, codec, svc.numbers);
  }

  /** A saved invoice is found by its invoice number. */
  lemma SaveThenQueryByInvoiceNumber(svc: Service, data: Fields, id: string, createdAt: string, codec: Codec, number: string)
    requires Readable(svc.items, codec.loads)
    requires SaveInvoiceData(svc, data, id, createdAt, codec).Success?
    requires Get(data, "numero_facture") == Some(Str(number))
    ensures var after := SaveInvoiceData(svc, data, id, createdAt, codec).value.1;
      var r := QueryByInvoiceNumber(after, number, codec.loads);
      r.Success? && exists rec | rec in r.value :: SavedRecord(rec, data, id, createdAt, codec, svc.numbers, ExtractedFields)
  {
    var after := SaveInvoiceData(svc, data, id, createdAt, codec).value.1;
    SavedUnderIndex(svc, data, id, createdAt, codec, "numero_facture", number);
    SaveKeepsReadable(svc, data, id, createdAt, codec);
    QueryFindsSaved(Matching(after.items, "numero_facture", number), data, id, createdAt, codec, svc.numbers);
  }
}

=== FILE: json.dfy ===
/** JSON-shaped Python values and dictionaries as ordered association lists. */
module Json {
  import opened Wrappers
  import Numerals

  /** A Python value of the shapes the pipeline handles: what `json.loads`
      returns, plus dictionaries built in code. A float is kept as its literal. */
  datatype Value =
    | Null
    | Bool(b: bool)
    | Int(n: int)
    | Float(literal: string)
    | Str(s: string)
    | Arr(items: seq<Value>)
    | Obj(fields: Fields)

  /** A Python dict: entries in insertion order. Python keeps keys distinct;
      the functions below preserve that when they are given it. */
  type Fields = seq<(string, Value)>

  function Keys(d: Fields): (ks: seq<string>)
    ensures |ks| == |d|
    ensures forall i | 0 <= i < |d| :: ks[i] == d[i].0
  {
    seq(|d|, i requires 0 <= i < |d| => d[i].0)
  }

  predicate HasKey(d: Fields, k: string) {
    exists i | 0 <= i < |d| :: d[i].0 == k
  }

  predicate DistinctKeys(d: Fields) {
    forall i, j | 0 <= i < j < |d| :: d[i].0 != d[j].0
  }

  /** Position of key `k`, if present (the first one). */
  function Find(d: Fields, k: string): (r: Option<nat>)
    ensures r.Some? ==> r.value < |d| && d[r.value].0 == k
    ensures r.Some? ==> forall j | 0 <= j < r.value :: d[j].0 != k
    ensures r.None? <==> !HasKey(d, k)
  {
    if d == [] then None
    else if d[0].0 == k then Some(0)
    else match Find(d[1..], k)
      case None => None
      case Some(i) => Some(i + 1)
  }

  /** `d.get(k)`: the value stored under `k`, or None when `k` is absent. */
  function Get(d: Fields, k: string): (r: Option<Value>)
    ensures r.Some? <==> HasKey(d, k)
  {
    match Find(d, k)
    case None => None
    case Some(i) => Some(d[i].1)
  }

  /** `d.get(k, default)`. */
  function GetOr(d: Fields, k: string, default: Value): Value {
    Get(d, k).GetOr(default)
  }

  /** In a dict with distinct keys, the entry at `i` is the one `get` finds. */
  lemma GetAt(d: Fields, i: nat)
    requires DistinctKeys(d) && i < |d|
    ensures Get(d, d[i].0) == Some(d[i].1)
  {
    var j := Find(d, d[i].0).value;
    assert !(j < i) && !(i < j);
  }

  /** `d[k] = v`: an existing key keeps its position, a new key goes last. */
  function Put(d: Fields, k: string, v: Value): (r: Fields)
    ensures Get(r, k) == Some(v)
    ensures forall k' | k' != k :: Get(r, k') == Get(d, k')
    ensures HasKey(d, k) ==> Keys(r) == Keys(d)
    ensures HasKey(d, k) ==> forall i | 0 <= i < |d| && d[i].0 != k :: r[i] == d[i]
    ensures !HasKey(d, k) ==> r == d + [(k, v)]
    ensures DistinctKeys(d) ==> DistinctKeys(r)
  {
    match Find(d, k)
    case None =>
      PutNewKey(d, k, v);
      d + [(k, v)]
    case Some(i) =>
      var r := d[i := (k, v)];
      PutExistingKey(d, k, v, i);
      r
  }

  lemma PutNewKey(d: Fields, k: string, v: Value)
    requires !HasKey(d, k)
    ensures Get(d + [(k, v)], k) == Some(v)
    ensures forall k' | k' != k :: Get(d + [(k, v)], k') == Get(d, k')
    ensures DistinctKeys(d) ==> DistinctKeys(d + [(k, v)])
  {
    FindAppend(d, k, v);
    forall k' | k' != k
      ensures Get(d + [(k, v)], k') == Get(d, k')
    {
      FindAppendOther(d, k, v, k');
    }
  }

  lemma {:induction false} FindAppend(d: Fields, k: string, v: Value)
    requires !HasKey(d, k)
    ensures Find(d + [(k, v)], k) == Some(|d|)
  {
    if d != [] {
      assert (d + [(k, v)])[1..] == d[1..] + [(k, v)];
      FindAppend(d[1..], k, v);
    }
  }

  lemma {:induction false} FindAppendOther(d: Fields, k: string, v: Value, k': string)
    requires k' != k
    ensures Find(d + [(k, v)], k') == Find(d, k')
  {
    if d != [] {
      assert (d + [(k, v)])[1..] == d[1..] + [(k, v)];
      FindAppendOther(d[1..], k, v, k');
    }
  }

  lemma PutExistingKey(d: Fields, k: string, v: Value, i: nat)
    requires Find(d, k) == Some(i)
    ensures Get(d[i := (k, v)], k) == Some(v)
    ensures forall k' | k' != k :: Get(d[i := (k, v)], k') == Get(d, k')
    ensures Keys(d[i := (k, v)]) == Keys(d)
  {
    var r := d[i := (k, v)];
    FindUpdate(d, k, v, i);
    forall k' | k' != k
      ensures Get(r, k') == Get(d, k')
    {
      FindUpdateOther(d, k, v, i, k');
    }
  }

  lemma {:induction false} FindUpdate(d: Fields, k: string, v: Value, i: nat)
    requires Find(d, k) == Some(i)
    ensures Find(d[i := (k, v)], k) == Some(i)
  {
    if i > 0 {
      assert d[i := (k, v)][1..] == d[1..][i - 1 := (k, v)];
      FindUpdate(d[1..], k, v, i - 1);
    }
  }

  lemma {:induction false} FindUpdateOther(d: Fields, k: string, v: Value, i: nat, k': string)
    requires i < |d| && d[i].0 == k && k' != k
    ensures Find(d[i := (k, v)], k') == Find(d, k')
    ensures Find(d, k').Some? ==> d[i := (k, v)][Find(d, k').value] == d[Find(d, k').value]
  {
    if d != [] && d[0].0 != k' && i > 0 {
      assert d[i := (k, v)][1..] == d[1..][i - 1 := (k, v)];
      FindUpdateOther(d[1..], k, v, i - 1, k');
    }
  }

  /** The value reached by following the keys of `path` through nested dicts. */
  function Lookup(v: Value, path: seq<string>): Option<Value>
    decreases |path|
  {
    if path == [] then Some(v)
    else if !v.Obj? then None
    else match Get(v.fields, path[0])
      case None => None
      case Some(w) => Lookup(w, path[1..])
  }

  /** Python truthiness (`if v:` / `not v`). A float is falsy only when it is
      a decimal literal of zero; NaN and the infinities are truthy. */
  predicate Truthy(v: Value) {
    match v
    case Null => false
    case Bool(b) => b
    case Int(n) => n != 0
    case Float(lit) => !(Numerals.IsFloatLiteral(lit) && Numerals.FloatIsZero(lit))
    case Str(s) => s != []
    case Arr(items) => items != []
    case Obj(fields) => fields != []
  }

  /** An example of float truthiness: NaN and infinity are truthy, and so is
      a non-zero decimal; only a decimal zero is falsy. */
  lemma FloatTruthiness()
    ensures Truthy(Float("NaN")) && Truthy(Float("Infinity"))
    ensures Truthy(Float("0.5")) && !Truthy(Float("0.0"))
  {
    assert Numerals.MantissaEnd("0.5", 0) == 3;
    assert Numerals.MantissaEnd("0.0", 0) == 3;
  }

  /** Python's name for the type of a value, as it appears in error messages. */
  function TypeName(v: Value): string {
    match v
    case Null => "NoneType"
    case Bool(_) => "bool"
    case Int(_) => "int"
    case Float(_) => "float"
    case Str(_) => "str"
    case Arr(_) => "list"
    case Obj(_) => "dict"
  }

  /** The library routines the pipeline calls but that are not modelled:
      `json.loads` (None where it raises JSONDecodeError), `json.dumps` (with
      `ensure_ascii=False`) and `str()` of a container. */
  datatype Codec = Codec(
    loads: string -> Option<Value>,
    dumps: Value -> string,
    repr: Value -> string)

  /** Moving the head of `m` onto the end of `acc` keeps the concatenation. */
  lemma ConsShift<A>(acc: seq<A>, m: seq<A>)
    requires |m| > 0
    ensures (acc + [m[0]]) + m[1..] == acc + m
  {
  }
}

=== FILE: manual_extraction.dfy ===
/** The manual fallback (`_extract_manual_data`): when no JSON object can be
    recovered, four labelled fields are looked for in the raw answer with fixed
    case-insensitive patterns, and a currency amount backs up the amount field.
    The patterns are matched here by hand, following the regular-expression
    engine's leftmost, ordered-alternative, backtracking semantics. */
module ManualExtraction {
  import opened Wrappers
  import opened Json
  import Text
  import Normalizer

  /** What the single capturing group of a field pattern accepts. */
  datatype Group =
    | RestOfLine   // ([^\n]+)
    | AmountText   // ([\d,.]+)\s*€?   — the optional suffix never fails
    | InvoiceRef   // ([A-Za-z0-9\-_]+)
    | DateText     // (\d{2}[/-]\d{2}[/-]\d{4}|\d{4}[/-]\d{2}[/-]\d{2})

  /** `(?:label|label|...)SEP+GROUP`, where SEP is `[:\s]`, or `[\s#:]` when
      `hashSep` holds. */
  datatype Pattern = Pattern(labels: seq<string>, hashSep: bool, group: Group)

  const SupplierPattern := Pattern(["fournisseur", "supplier", "vendeur"], false, RestOfLine)
  const AmountPattern := Pattern(["montant", "amount", "total"], false, AmountText)
  const NumberPattern := Pattern(["numero", "numéro", "facture", "invoice"], true, InvoiceRef)
  const DatePattern := Pattern(["date", "date facture"], false, DateText)

  // ---------------------------------------------------------------------------
  // Character classes and runs

  predicate SepChar(c: char, hashSep: bool) {
    c == ':' || Text.IsSpace(c) || (hashSep && c == '#')
  }

  predicate AmountChar(c: char) {
    Text.IsDigit(c) || c == ',' || c == '.'
  }

  predicate RefChar(c: char) {
    ('A' <= c <= 'Z') || ('a' <= c <= 'z') || Text.IsDigit(c) || c == '-' || c == '_'
  }

  predicate NotNewline(c: char) {
    c != '\n'
  }

  /** The end of the longest run of characters in the class starting at `i`. */
  function RunEnd(s: string, i: nat, inClass: char -> bool): (k: nat)
    requires i <= |s|
    ensures i <= k <= |s|
    ensures forall j | i <= j < k :: inClass(s[j])
    ensures k < |s| ==> !inClass(s[k])
    decreases |s| - i
  {
    if i < |s| && inClass(s[i]) then RunEnd(s, i + 1, inClass) else i
  }

  predicate DigitsAt(s: string, k: nat, n: nat) {
    k + n <= |s| && forall j | k <= j < k + n :: Text.IsDigit(s[j])
  }

  predicate DateSepAt(s: string, k: nat) {
    k < |s| && (s[k] == '/' || s[k] == '-')
  }

  /** `\d{2}[/-]\d{2}[/-]\d{4}` at `k`. */
  predicate DayFirstAt(s: string, k: nat) {
    DigitsAt(s, k, 2) && DateSepAt(s, k + 2) && DigitsAt(s, k + 3, 2) && DateSepAt(s, k + 5) && DigitsAt(s, k + 6, 4)
  }

  /** `\d{4}[/-]\d{2}[/-]\d{2}` at `k`. */
  predicate YearFirstAt(s: string, k: nat) {
    DigitsAt(s, k, 4) && DateSepAt(s, k + 4) && DigitsAt(s, k + 5, 2) && DateSepAt(s, k + 7) && DigitsAt(s, k + 8, 2)
  }

  /** Where the group ends when it starts at `k`; the greedy runs take all they
      can since nothing after them can fail. */
  function GroupEnd(g: Group, s: string, k: nat): (r: Option<nat>)
    requires k <= |s|
    ensures r.Some? ==> k < r.value <= |s|
  {
    match g
    case RestOfLine =>
      var e := RunEnd(s, k, NotNewline);
      if e > k then Some(e) else None
    case AmountText =>
      var e := RunEnd(s, k, AmountChar);
      if e > k then Some(e) else None
    case InvoiceRef =>
      var e := RunEnd(s, k, RefChar);
      if e > k then Some(e) else None
    case DateText =>
      if DayFirstAt(s, k) || YearFirstAt(s, k) then Some(k + 10) else None
  }

  /** The name occurs at `p`, compared case-insensitively. */
  predicate LabelAt(s: string, p: nat, name: string) {
    p + |name| <= |s| && forall j | 0 <= j < |name| :: Text.LowerChar(s[p + j]) == Text.LowerChar(name[j])
  }

  /** The pattern matches at `p` taking alternative `a` and a separator run
      that ends at `k` — the declarative reading of the pattern. */
  predicate Matches(pat: Pattern, s: string, p: nat, a: nat, k: nat) {
    && a < |pat.labels|
    && LabelAt(s, p, pat.labels[a])
    && p + |pat.labels[a]| < k <= |s|
    && (forall j | p + |pat.labels[a]| <= j < k :: SepChar(s[j], pat.hashSep))
    && GroupEnd(pat.group, s, k).Some?
  }

  // ---------------------------------------------------------------------------
  // The search

  /** A match: where it starts, the alternative taken, where the group starts
      and ends. */
  datatype Hit = Hit(start: nat, alt: nat, groupStart: nat, groupEnd: nat)

  /** Backtracking over the separator run: the group is tried at `k`, then one
      character earlier, down to one separator character. */
  function Backtrack(g: Group, s: string, q: nat, k: nat): (r: Option<nat>)
    requires q <= k <= |s|
    ensures r.Some? ==> q < r.value <= k && GroupEnd(g, s, r.value).Some?
    ensures forall k' | (if r.Some? then r.value else q) < k' <= k :: GroupEnd(g, s, k').None?
    decreases k
  {
    if k == q then None
    else if GroupEnd(g, s, k).Some? then Some(k)
    else Backtrack(g, s, q, k - 1)
  }

  /** The alternatives from `a` on, in order, at position `p`. */
  function TryAlternatives(pat: Pattern, s: string, p: nat, a: nat): (r: Option<Hit>)
    ensures r.Some? ==> r.value.start == p && a <= r.value.alt
    ensures r.Some? ==> Matches(pat, s, p, r.value.alt, r.value.groupStart)
    ensures r.Some? ==> Some(r.value.groupEnd) == GroupEnd(pat.group, s, r.value.groupStart)
    ensures r.Some? ==> forall k: nat | r.value.groupStart < k :: !Matches(pat, s, p, r.value.alt, k)
    ensures forall a': nat, k: nat | a <= a' < (if r.Some? then r.value.alt else |pat.labels|) :: !Matches(pat, s, p, a', k)
    decreases |pat.labels| - a
  {
    if a >= |pat.labels| then None
    else
      var name := pat.labels[a];
      var q := p + |name|;
      if !LabelAt(s, p, name) then
        TryAlternatives(pat, s, p, a + 1)
      else
        var m := RunEnd(s, q, c => SepChar(c, pat.hashSep));
        match Backtrack(pat.group, s, q, m)
        case Some(k) => Some(Hit(p, a, k, GroupEnd(pat.group, s, k).value))
        case None => TryAlternatives(pat, s, p, a + 1)
  }

  /** `re.search`: the leftmost position at which the pattern matches. */
  function SearchFrom(pat: Pattern, s: string, p: nat): (r: Option<Hit>)
    requires p <= |s|
    ensures r.Some? ==> p <= r.value.start && Matches(pat, s, r.value.start, r.value.alt, r.value.groupStart)
    ensures r.Some? ==> Some(r.value.groupEnd) == GroupEnd(pat.group, s, r.value.groupStart)
    ensures r.Some? ==> forall a: nat, k: nat | a < r.value.alt :: !Matches(pat, s, r.value.start, a, k)
    ensures r.Some? ==> forall k: nat | r.value.groupStart < k :: !Matches(pat, s, r.value.start, r.value.alt, k)
    ensures forall p': nat, a: nat, k: nat | p <= p' < (if r.Some? then r.value.start else |s| + 1) :: !Matches(pat, s, p', a, k)
    decreases |s| - p
  {
    match TryAlternatives(pat, s, p, 0)
    case Some(h) => Some(h)
    case None =>
      if p == |s| then None
      else SearchFrom(pat, s, p + 1)
  }

  /** The match `re.search` reports: the leftmost start, the first
      alternative that matches there, and the longest separator run after
      which the group can start. */
  ghost predicate FirstMatch(pat: Pattern, s: string, p: nat, a: nat, k: nat) {
    && Matches(pat, s, p, a, k)
    && (forall p': nat, a': nat, k': nat | p' < p :: !Matches(pat, s, p', a', k'))
    && (forall a': nat, k': nat | a' < a :: !Matches(pat, s, p, a', k'))
    && (forall k': nat | k < k' :: !Matches(pat, s, p, a, k'))
  }

  /** There is at most one such match, so "the" match is well defined. */
  lemma FirstMatchUnique(pat: Pattern, s: string, p: nat, a: nat, k: nat, p': nat, a': nat, k': nat)
    requires FirstMatch(pat, s, p, a, k) && FirstMatch(pat, s, p', a', k')
    ensures p == p' && a == a' && k == k'
  {
  }

  function Search(pat: Pattern, s: string): (r: Option<Hit>)
    ensures r.Some? ==> FirstMatch(pat, s, r.value.start, r.value.alt, r.value.groupStart)
    ensures r.Some? ==> Some(r.value.groupEnd) == GroupEnd(pat.group, s, r.value.groupStart)
    ensures r.None? <==> forall p: nat, a: nat, k: nat :: !Matches(pat, s, p, a, k)
  {
    var r := SearchFrom(pat, s, 0);
    assert forall p: nat, a: nat, k: nat | Matches(pat, s, p, a, k) :: p <= |s|;
    r
  }

  // ---------------------------------------------------------------------------
  // The currency backstop: (\d+[.,]\d{2})\s*€, case-sensitive

  /** The backstop matches at `p`: digits, a decimal mark, two digits, then
      optional whitespace and the euro sign. The group is `s[p..end]`. */
  predicate EuroAt(s: string, p: nat, end: nat) {
    p <= |s| &&
    var d := RunEnd(s, p, Text.IsDigit);
    && d > p
    && end == d + 3
    && d + 3 <= |s|
    && (s[d] == '.' || s[d] == ',')
    && Text.IsDigit(s[d + 1]) && Text.IsDigit(s[d + 2])
    && var w := Text.SkipSpaces(s, d + 3); w < |s| && s[w] == '€'
  }

  /** Since `\d+` is followed by a decimal mark, only the full digit run can be
      taken, so one end per start is all there is to try. */
  function EuroFrom(s: string, p: nat): (r: Option<(nat, nat)>)
    requires p <= |s|
    ensures r.Some? ==> p <= r.value.0 && EuroAt(s, r.value.0, r.value.1)
    ensures forall p': nat, e: nat | p <= p' < (if r.Some? then r.value.0 else |s| + 1) :: !EuroAt(s, p', e)
    decreases |s| - p
  {
    var d := RunEnd(s, p, Text.IsDigit);
    if EuroAt(s, p, d + 3) then Some((p, d + 3))
    else if p == |s| then None
    else EuroFrom(s, p + 1)
  }

  /** The backstop's leftmost match, whose group is `s[p..end]`. */
  ghost predicate FirstEuroAt(s: string, p: nat, end: nat) {
    EuroAt(s, p, end) && forall q: nat, e: nat | q < p :: !EuroAt(s, q, e)
  }

  /** The backstop amount, `float(group.replace(',', '.'))` of the leftmost
      match, kept as the literal it reads: digits, a dot, two digits. */
  function EuroAmount(s: string): (r: Option<Value>)
    ensures r.Some? ==> r.value.Float?
    ensures r.None? <==> forall p: nat, e: nat :: !EuroAt(s, p, e)
    ensures r.Some? ==> exists p: nat, e: nat | FirstEuroAt(s, p, e) :: r.value == Float(Text.Replace(s[p..e], ',', '.'))
  {
    match EuroFrom(s, 0)
    case None =>
      assert forall p: nat, e: nat | EuroAt(s, p, e) :: p <= |s|;
      None
    case Some((p, e)) => Some(Float(Text.Replace(s[p..e], ',', '.')))
  }

  // ---------------------------------------------------------------------------
  // The fallback record

  /** `match.group(1).strip()` when the pattern matches, else None. */
  function Captured(pat: Pattern, s: string): (v: Value)
    ensures v == Null <==> forall p: nat, a: nat, k: nat :: !Matches(pat, s, p, a, k)
    ensures v.Null? || v.Str?
    ensures v.Str? ==> exists p: nat, a: nat, k: nat | FirstMatch(pat, s, p, a, k) ::
      v == Str(Text.Strip(s[k..GroupEnd(pat.group, s, k).value]))
  {
    match Search(pat, s)
    case None => Null
    case Some(h) => Str(Text.Strip(s[h.groupStart..h.groupEnd]))
  }

  /** A text that opens with a supplier line: the supplier read is that
      line's value, stripped, whatever follows the line. */
  lemma SupplierLineCaptured(name: string, rest: string)
    requires |name| > 0 && !SepChar(name[0], false)
    requires forall i | 0 <= i < |name| :: name[i] != '\n'
    ensures Captured(SupplierPattern, "Fournisseur: " + name + "\n" + rest) == Str(Text.Strip(name))
  {
    var s := "Fournisseur: " + name + "\n" + rest;
    var e := 13 + |name|;
    assert s[..13] == "Fournisseur: ";
    assert s[13..e] == name;
    assert s[e] == '\n';
    assert LabelAt(s, 0, "fournisseur");
    assert s[13] == name[0];
    assert GroupEnd(RestOfLine, s, 13) == Some(e);
    assert Matches(SupplierPattern, s, 0, 0, 13);
    forall k': nat | 13 < k' ensures !Matches(SupplierPattern, s, 0, 0, k') {
      assert !SepChar(s[13], false);
    }
    assert FirstMatch(SupplierPattern, s, 0, 0, 13);
    var v := Captured(SupplierPattern, s);
    var p: nat, a: nat, k: nat :| FirstMatch(SupplierPattern, s, p, a, k) &&
      v == Str(Text.Strip(s[k..GroupEnd(SupplierPattern.group, s, k).value]));
    FirstMatchUnique(SupplierPattern, s, p, a, k, 0, 0, 13);
  }

  /** The fallback's record: the seven canonical keys in their fixed order,
      the three that no pattern targets left null. */
  function Record(supplier: Value, amount: Value, number: Value, date: Value): (r: Fields)
    ensures Keys(r) == Normalizer.CanonicalKeys
    ensures r[0].1 == supplier && r[1].1 == amount && r[2].1 == number && r[3].1 == date
    ensures r[4].1 == Null && r[5].1 == Null && r[6].1 == Null
  {
    [("fournisseur", supplier), ("montant_ht", amount), ("numero_facture", number), ("date_facture", date),
     ("chrono", Null), ("couverture", Null), ("nom_fichier", Null)]
  }

  /** `_extract_manual_data`: only the four labelled fields can be set, each
      to its stripped group; the amount falls back to the currency backstop
      only when the labelled amount is empty. */
  function ManualExtract(text: string): (r: Fields)
    ensures Keys(r) == Normalizer.CanonicalKeys
    ensures r[4].1 == Null && r[5].1 == Null && r[6].1 == Null
    ensures r[0].1 == Captured(SupplierPattern, text)
    ensures r[2].1 == Captured(NumberPattern, text)
    ensures r[3].1 == Captured(DatePattern, text)
    ensures Truthy(Captured(AmountPattern, text)) ==> r[1].1 == Captured(AmountPattern, text)
    ensures !Truthy(Captured(AmountPattern, text)) ==>
      r[1].1 == (match EuroAmount(text) case Some(v) => v case None => Captured(AmountPattern, text))
  {
    var labelled := Captured(AmountPattern, text);
    var amount := if Truthy(labelled) then labelled
      else match EuroAmount(text) case Some(v) => v case None => labelled;
    Record(Captured(SupplierPattern, text), amount, Captured(NumberPattern, text), Captured(DatePattern, text))
  }
}


=== FILE: model_adapter.dfy ===
/** The Bedrock model adapter of `BedrockClient`: which provider family a model
    id belongs to, the request body each family expects, and how the text is
    read back out of each family's response body. */
module ModelAdapter {
  import opened Wrappers
  import opened Json
  import Text
  import opened Exceptions

  datatype Family = Anthropic | Meta | Amazon | Ai21 | Cohere | Unknown

  /** The family tokens, in the order the classifier tests them. */
  const FamilyTokens: seq<(string, Family)> :=
    [("anthropic", Anthropic), ("meta", Meta), ("amazon", Amazon), ("ai21", Ai21), ("cohere", Cohere)]

  /** `_detect_model_type`: the first family, in `FamilyTokens` order, whose
      token occurs in the lower-cased id; `Unknown` when none does. */
  function Classify(modelId: string): (f: Family)
    ensures f == Unknown <==>
      forall i | 0 <= i < |FamilyTokens| :: !Text.Contains(Text.Lower(modelId), FamilyTokens[i].0)
    ensures f != Unknown ==>
      exists i | 0 <= i < |FamilyTokens| ::
        && FamilyTokens[i].1 == f
        && Text.Contains(Text.Lower(modelId), FamilyTokens[i].0)
        && forall j | 0 <= j < i :: !Text.Contains(Text.Lower(modelId), FamilyTokens[j].0)
  {
    var id := Text.Lower(modelId);
    assert FamilyTokens[0] == ("anthropic", Anthropic) && FamilyTokens[1] == ("meta", Meta);
    assert FamilyTokens[2] == ("amazon", Amazon) && FamilyTokens[3] == ("ai21", Ai21);
    assert FamilyTokens[4] == ("cohere", Cohere);
    if Text.Contains(id, "anthropic") then Anthropic
    else if Text.Contains(id, "meta") then Meta
    else if Text.Contains(id, "amazon") then Amazon
    else if Text.Contains(id, "ai21") then Ai21
    else if Text.Contains(id, "cohere") then Cohere
    else Unknown
  }

  /** Generation settings taken from the configuration. The temperature is a
      float and stays opaque. */
  datatype Settings = Settings(maxTokens: int, temperature: Value)

  const TopP: Value := Float("0.9")

  /** The Human/Assistant turn the completion-style families send. */
  function HumanTurn(prompt: string): string {
    "\n\nHuman: " + prompt + "\n\nAssistant:"
  }

  /** Where each family's request carries the prompt ... */
  function PromptPath(f: Family): seq<string> {
    if f == Amazon then ["inputText"] else ["prompt"]
  }

  /** ... and the token limit. */
  function TokenLimitPath(f: Family): seq<string> {
    match f
    case Anthropic => ["max_tokens_to_sample"]
    case Meta => ["max_gen_len"]
    case Amazon => ["textGenerationConfig", "maxTokenCount"]
    case Ai21 => ["maxTokens"]
    case Cohere => ["max_tokens"]
    case Unknown => ["max_tokens_to_sample"]
  }

  /** The prompt text a family sends: wrapped for Anthropic and the unknown
      default, verbatim otherwise. */
  function SentPrompt(f: Family, prompt: string): string {
    if f == Anthropic || f == Unknown then HumanTurn(prompt) else prompt
  }

  /** The facts every family's request body satisfies. */
  predicate WellShaped(f: Family, prompt: string, s: Settings, body: Fields) {
    && DistinctKeys(body)
    && Lookup(Obj(body), PromptPath(f)) == Some(Str(SentPrompt(f, prompt)))
    && Lookup(Obj(body), TokenLimitPath(f)) == Some(Int(s.maxTokens))
  }

  /** `_create_request_body`: one builder per family. */
  function CreateRequestBody(f: Family, prompt: string, s: Settings): (body: Fields)
    ensures WellShaped(f, prompt, s, body)
    ensures f == Anthropic <==> Get(body, "stop_sequences") == Some(Arr([Str("\n\nHuman:")]))
  {
    match f
    case Anthropic => AnthropicBody(prompt, s)
    case Meta => MetaBody(prompt, s)
    case Amazon => AmazonBody(prompt, s)
    case Ai21 => Ai21Body(prompt, s)
    case Cohere => CohereBody(prompt, s)
    case Unknown => DefaultBody(prompt, s)
  }

  /** Anthropic Claude, text-completions format. */
  function AnthropicBody(prompt: string, s: Settings): (body: Fields)
    ensures WellShaped(Anthropic, prompt, s, body)
    ensures Get(body, "stop_sequences") == Some(Arr([Str("\n\nHuman:")]))
  {
    var body := [("prompt", Str(HumanTurn(prompt))),
                 ("max_tokens_to_sample", Int(s.maxTokens)),
                 ("temperature", s.temperature),
                 ("stop_sequences", Arr([Str("\n\nHuman:")]))];
    GetAt(body, 0); GetAt(body, 1); GetAt(body, 3);
    body
  }

  /** Meta Llama. */
  function MetaBody(prompt: string, s: Settings): (body: Fields)
    ensures WellShaped(Meta, prompt, s, body)
    ensures !HasKey(body, "stop_sequences")
  {
    var body := [("prompt", Str(prompt)),
                 ("max_gen_len", Int(s.maxTokens)),
                 ("temperature", s.temperature),
                 ("top_p", TopP)];
    GetAt(body, 0); GetAt(body, 1);
    body
  }

  /** Amazon Titan: the limits are nested under `textGenerationConfig`. */
  function AmazonBody(prompt: string, s: Settings): (body: Fields)
    ensures WellShaped(Amazon, prompt, s, body)
    ensures !HasKey(body, "stop_sequences")
  {
    var config := [("maxTokenCount", Int(s.maxTokens)),
                   ("temperature", s.temperature),
                   ("topP", TopP),
                   ("stopSequences", Arr([]))];
    var body := [("inputText", Str(prompt)), ("textGenerationConfig", Obj(config))];
    GetAt(body, 0); GetAt(body, 1); GetAt(config, 0);
    var path := TokenLimitPath(Amazon);
    assert path[1..] == ["maxTokenCount"];
    assert Lookup(Obj(config), path[1..]) == Some(Int(s.maxTokens));
    body
  }

  /** AI21 Jurassic. */
  function Ai21Body(prompt: string, s: Settings): (body: Fields)
    ensures WellShaped(Ai21, prompt, s, body)
    ensures !HasKey(body, "stop_sequences")
  {
    var body := [("prompt", Str(prompt)),
                 ("maxTokens", Int(s.maxTokens)),
                 ("temperature", s.temperature),
                 ("topP", TopP),
                 ("stopSequences", Arr([])),
                 ("countPenalty", Obj([("scale", Int(0))])),
                 ("presencePenalty", Obj([("scale", Int(0))])),
                 ("frequencyPenalty", Obj([("scale", Int(0))]))];
    GetAt(body, 0); GetAt(body, 1);
    body
  }

  /** Cohere Command: its stop sequences are an empty list. */
  function CohereBody(prompt: string, s: Settings): (body: Fields)
    ensures WellShaped(Cohere, prompt, s, body)
    ensures Get(body, "stop_sequences") == Some(Arr([]))
  {
    var body := [("prompt", Str(prompt)),
                 ("max_tokens", Int(s.maxTokens)),
                 ("temperature", s.temperature),
                 ("p", TopP),
                 ("k", Int(0)),
                 ("stop_sequences", Arr([])),
                 ("return_likelihoods", Str("NONE"))];
    GetAt(body, 0); GetAt(body, 1); GetAt(body, 5);
    body
  }

  /** The default for unrecognised ids: Anthropic's prompt wrapping and limit
      field, without stop sequences. */
  function DefaultBody(prompt: string, s: Settings): (body: Fields)
    ensures WellShaped(Unknown, prompt, s, body)
    ensures !HasKey(body, "stop_sequences")
  {
    var body := [("prompt", Str(HumanTurn(prompt))),
                 ("max_tokens_to_sample", Int(s.maxTokens)),
                 ("temperature", s.temperature)];
    GetAt(body, 0); GetAt(body, 1);
    body
  }

  /** An unrecognised model id gets the Anthropic body minus its stop sequence. */
  lemma UnknownIsAnthropicWithoutStop(prompt: string, s: Settings)
    ensures CreateRequestBody(Unknown, prompt, s) == CreateRequestBody(Anthropic, prompt, s)[..3]
    ensures !HasKey(CreateRequestBody(Unknown, prompt, s), "stop_sequences")
  {
    assert CreateRequestBody(Unknown, prompt, s)[0].0 != "stop_sequences";
  }

  /** `v.strip()`: only strings have it. */
  function StripValue(v: Value): (r: Result<string, Exception>)
    ensures v.Str? <==> r.Success?
    ensures v.Str? ==> r.value == Text.Strip(v.s)
    ensures r.Success? ==> Text.Strip(r.value) == r.value
  {
    if v.Str? then Text.StripIdempotent(v.s); Success(Text.Strip(v.s))
    else Failure(AttributeError("object has no attribute 'strip'"))
  }

  /** `v[0]` on a JSON value. */
  function First(v: Value): (r: Result<Value, Exception>)
    ensures v.Arr? && v.items != [] ==> r == Success(v.items[0])
    ensures v.Arr? && v.items == [] ==> r.Failure? && r.error.IndexError?
  {
    match v
    case Arr(items) => if items == [] then Failure(IndexError("list index out of range")) else Success(items[0])
    case Str(s) => if s == [] then Failure(IndexError("string index out of range")) else Success(Str([s[0]]))
    case Obj(_) => Failure(KeyError("0"))
    case _ => Failure(TypeError("object is not subscriptable"))
  }

  /** `v.get(k, default)`: only dicts have it. */
  function GetFrom(v: Value, k: string, default: Value): (r: Result<Value, Exception>)
    ensures v.Obj? <==> r.Success?
    ensures v.Obj? ==> r.value == GetOr(v.fields, k, default)
  {
    if v.Obj? then Success(GetOr(v.fields, k, default))
    else Failure(AttributeError("object has no attribute 'get'"))
  }

  /** The string a dict holds under `k`, if it holds one. */
  function TextAt(d: Fields, k: string): Option<string> {
    match Get(d, k)
    case Some(Str(t)) => Some(t)
    case _ => None
  }

  /** The string under `key` in the first entry of the list under `listKey`
      (the Amazon and Cohere response shapes). */
  function FirstEntryTextAt(body: Fields, listKey: string, key: string): Option<string> {
    match Get(body, listKey)
    case Some(Arr(items)) => if items != [] && items[0].Obj? then TextAt(items[0].fields, key) else None
    case _ => None
  }

  /** The string at `completions[0].data.text` (the AI21 response shape). */
  function Ai21TextAt(body: Fields): Option<string> {
    match Get(body, "completions")
    case Some(Arr(items)) =>
      if items != [] && items[0].Obj? then
        match Get(items[0].fields, "data")
        case Some(Obj(data)) => TextAt(data, "text")
        case _ => None
      else None
    case _ => None
  }

  /** The generated text an answer of family `f` carries: the string at the
      family's own path, whatever other keys the answer has; for an unknown
      family, the string under the first of completion, generation and
      outputText that is present. */
  function CarriedText(f: Family, body: Fields): Option<string> {
    match f
    case Anthropic => TextAt(body, "completion")
    case Meta => TextAt(body, "generation")
    case Amazon => FirstEntryTextAt(body, "results", "outputText")
    case Ai21 => Ai21TextAt(body)
    case Cohere => FirstEntryTextAt(body, "generations", "text")
    case Unknown =>
      if HasKey(body, "completion") then TextAt(body, "completion")
      else if HasKey(body, "generation") then TextAt(body, "generation")
      else TextAt(body, "outputText")
  }

  /** `body.get(key, "").strip()`, the reading of Anthropic and Meta. */
  function KeyText(body: Fields, key: string): (r: Result<string, Exception>)
    ensures TextAt(body, key).Some? ==> r == Success(Text.Strip(TextAt(body, key).value))
    ensures !HasKey(body, key) ==> r == Success("")
    ensures HasKey(body, key) && TextAt(body, key).None? ==> r.Failure? && r.error.AttributeError?
    ensures r.Success? ==> Text.Strip(r.value) == r.value
  {
    StripValue(GetOr(body, key, Str("")))
  }

  /** `results[0].get(key, "").strip()` after the `if results:` guard used for
      the list-shaped responses of Amazon and Cohere. */
  function FirstEntryText(body: Fields, listKey: string, key: string): (r: Result<string, Exception>)
    ensures !HasKey(body, listKey) || Get(body, listKey) == Some(Arr([])) ==> r == Success("")
    ensures FirstEntryTextAt(body, listKey, key).Some? ==> r == Success(Text.Strip(FirstEntryTextAt(body, listKey, key).value))
    ensures r.Success? ==> Text.Strip(r.value) == r.value
  {
    var list := GetOr(body, listKey, Arr([]));
    if !Truthy(list) then Success("")
    else
      var entry :- First(list);
      var text :- GetFrom(entry, key, Str(""));
      StripValue(text)
  }

  /** `body.get("completions", [{}])[0].get("data", {}).get("text", "").strip()`,
      the reading of AI21. */
  function Ai21Text(body: Fields): (r: Result<string, Exception>)
    ensures !HasKey(body, "completions") ==> r == Success("")
    ensures Get(body, "completions") == Some(Arr([])) ==> r.Failure? && r.error.IndexError?
    ensures Ai21TextAt(body).Some? ==> r == Success(Text.Strip(Ai21TextAt(body).value))
    ensures r.Success? ==> Text.Strip(r.value) == r.value
  {
    var entry :- First(GetOr(body, "completions", Arr([Obj([])])));
    var data :- GetFrom(entry, "data", Obj([]));
    var text :- GetFrom(data, "text", Str(""));
    StripValue(text)
  }

  /** The reading for an unrecognised family: completion, then generation,
      then outputText, whichever is present first, else `str()` of the body. */
  function UnknownText(body: Fields, repr: Value -> string): (r: Result<string, Exception>)
    ensures TextAt(body, "completion").Some? ==> r == Success(Text.Strip(TextAt(body, "completion").value))
    ensures HasKey(body, "completion") && TextAt(body, "completion").None? ==> r.Failure? && r.error.AttributeError?
    ensures !HasKey(body, "completion") && TextAt(body, "generation").Some? ==>
      r == Success(Text.Strip(TextAt(body, "generation").value))
    ensures !HasKey(body, "completion") && HasKey(body, "generation") && TextAt(body, "generation").None? ==>
      r.Failure? && r.error.AttributeError?
    ensures !HasKey(body, "completion") && !HasKey(body, "generation") && TextAt(body, "outputText").Some? ==>
      r == Success(Text.Strip(TextAt(body, "outputText").value))
    ensures (!HasKey(body, "completion") && !HasKey(body, "generation") && HasKey(body, "outputText") &&
             TextAt(body, "outputText").None?) ==> r.Failure? && r.error.AttributeError?
    ensures !HasKey(body, "completion") && !HasKey(body, "generation") && !HasKey(body, "outputText") ==>
      r == Success(repr(Obj(body)))
    ensures r.Success? && (HasKey(body, "completion") || HasKey(body, "generation") || HasKey(body, "outputText")) ==>
      r.value == Text.Strip(r.value)
  {
    if HasKey(body, "completion") then StripValue(Get(body, "completion").value)
    else if HasKey(body, "generation") then StripValue(Get(body, "generation").value)
    else if HasKey(body, "outputText") then StripValue(Get(body, "outputText").value)
    else Success(repr(Obj(body)))
  }

  /** `_parse_response`. The response body is the object `json.loads` returned;
      `repr` is Python's `str()` of it, used by the unknown family's fallback.
      Whatever other keys the answer holds, the text it carries for the family
      is read back stripped. */
  function ParseResponse(f: Family, body: Fields, repr: Value -> string): (r: Result<string, Exception>)
    ensures CarriedText(f, body).Some? ==> r == Success(Text.Strip(CarriedText(f, body).value))
    ensures f == Anthropic && !HasKey(body, "completion") ==> r == Success("")
    ensures f == Meta && !HasKey(body, "generation") ==> r == Success("")
    ensures (f == Anthropic && HasKey(body, "completion") && TextAt(body, "completion").None?) ||
            (f == Meta && HasKey(body, "generation") && TextAt(body, "generation").None?) ==>
      r.Failure? && r.error.AttributeError?
    ensures f == Amazon && (!HasKey(body, "results") || Get(body, "results") == Some(Arr([]))) ==> r == Success("")
    ensures f == Cohere && (!HasKey(body, "generations") || Get(body, "generations") == Some(Arr([]))) ==> r == Success("")
    ensures f == Ai21 && !HasKey(body, "completions") ==> r == Success("")
    ensures f == Ai21 && Get(body, "completions") == Some(Arr([])) ==> r.Failure? && r.error.IndexError?
    ensures f == Unknown && HasKey(body, "completion") && TextAt(body, "completion").None? ==> r.Failure? && r.error.AttributeError?
    ensures f == Unknown && !HasKey(body, "completion") && HasKey(body, "generation") && TextAt(body, "generation").None? ==>
      r.Failure? && r.error.AttributeError?
    ensures (f == Unknown && !HasKey(body, "completion") && !HasKey(body, "generation") && HasKey(body, "outputText") &&
             TextAt(body, "outputText").None?) ==> r.Failure? && r.error.AttributeError?
    ensures f == Unknown && !HasKey(body, "completion") && !HasKey(body, "generation") && !HasKey(body, "outputText") ==>
      r == Success(repr(Obj(body)))
    ensures r.Success? && (f != Unknown || HasKey(body, "completion") || HasKey(body, "generation") || HasKey(body, "outputText")) ==>
      r.value == Text.Strip(r.value)
  {
    match f
    case Anthropic => KeyText(body, "completion")
    case Meta => KeyText(body, "generation")
    case Amazon => FirstEntryText(body, "results", "outputText")
    case Ai21 => Ai21Text(body)
    case Cohere => FirstEntryText(body, "generations", "text")
    case Unknown => UnknownText(body, repr)
  }

  /** The response a provider of family `f` returns for generated text `t`. */
  function ProviderResponse(f: Family, t: string): Fields {
    match f
    case Anthropic => [("completion", Str(t))]
    case Meta => [("generation", Str(t))]
    case Amazon => [("results", Arr([Obj([("outputText", Str(t))])]))]
    case Ai21 => [("completions", Arr([Obj([("data", Obj([("text", Str(t))]))])]))]
    case Cohere => [("generations", Arr([Obj([("text", Str(t))])]))]
    case Unknown => [("outputText", Str(t))]
  }

  /** Every family's own minimal response shape carries the generated text,
      and parsing reads it back stripped of surrounding whitespace. */
  lemma ParseProviderResponse(f: Family, t: string, repr: Value -> string)
    ensures CarriedText(f, ProviderResponse(f, t)) == Some(t)
    ensures ParseResponse(f, ProviderResponse(f, t), repr) == Success(Text.Strip(t))
  {
    var body := ProviderResponse(f, t);
    GetAt(body, 0);
    match f
    case Ai21 =>
      var data := Obj([("text", Str(t))]);
      GetAt([("data", data)], 0);
      GetAt(data.fields, 0);
    case Amazon =>
      GetAt([("outputText", Str(t))], 0);
    case Cohere =>
      GetAt([("text", Str(t))], 0);
    case Unknown =>
      assert !HasKey(body, "completion") && !HasKey(body, "generation");
    case _ =>
  }
}

=== FILE: model_setup.dfy ===
/** The two decisions of the `configure_model.py` script: rewriting the
    `BEDROCK_MODEL_ID` line of a `.env` file, and the request body it sends to
    check that a model answers. Reading and writing the file and calling the
    model are outside the model; the file is its text as read in text mode,
    so every line ends with `\n` except perhaps the last. */
module ModelSetup {
  import opened Wrappers
  import opened Json
  import Text
  import ModelAdapter

  // ---------------------------------------------------------------------------
  // Lines of a text file

  /** The length of the first line of a non-empty text, its `\n` included. */
  function LineEnd(s: string): (e: nat)
    requires s != []
    ensures 0 < e <= |s|
    ensures forall j | 0 <= j < e - 1 :: s[j] != '\n'
    ensures s[e - 1] == '\n' || e == |s|
  {
    if s[0] == '\n' || |s| == 1 then 1 else 1 + LineEnd(s[1..])
  }

  /** `f.readlines()`: the text cut after every `\n`. */
  function ReadLines(s: string): seq<string>
    decreases |s|
  {
    if s == [] then [] else [s[..LineEnd(s)]] + ReadLines(s[LineEnd(s)..])
  }

  /** `f.writelines(lines)`. */
  function Concat(lines: seq<string>): string {
    if lines == [] then [] else lines[0] + Concat(lines[1..])
  }

  /** A proper line: not empty, with no `\n` before its last character. */
  predicate IsLine(line: string) {
    line != [] && forall j | 0 <= j < |line| - 1 :: line[j] != '\n'
  }

  predicate EndsWithNewline(line: string) {
    line != [] && line[|line| - 1] == '\n'
  }

  /** What `readlines` can return: proper lines, all but the last ended. */
  predicate WellSplit(lines: seq<string>) {
    forall i | 0 <= i < |lines| :: IsLine(lines[i]) && (i < |lines| - 1 ==> EndsWithNewline(lines[i]))
  }

  /** Cutting a text into lines loses nothing and yields proper lines. */
  lemma {:induction false} ReadLinesSplits(s: string)
    ensures WellSplit(ReadLines(s))
    ensures Concat(ReadLines(s)) == s
    decreases |s|
  {
    if s != [] {
      var e := LineEnd(s);
      var rest := ReadLines(s[e..]);
      ReadLinesSplits(s[e..]);
      assert ReadLines(s) == [s[..e]] + rest;
      assert ([s[..e]] + rest)[1..] == rest;
      assert s[..e] + s[e..] == s;
      if rest != [] {
        assert s[e..] != [];
        assert s[e - 1] == '\n';
      }
    }
  }

  /** Joining proper lines and cutting the text again gives them back. */
  lemma {:induction false} ReadLinesConcat(lines: seq<string>)
    requires WellSplit(lines)
    ensures ReadLines(Concat(lines)) == lines
    decreases |lines|
  {
    if lines != [] {
      var first := lines[0];
      var rest := lines[1..];
      assert WellSplit(rest) by {
        forall i | 0 <= i < |rest| ensures IsLine(rest[i]) && (i < |rest| - 1 ==> EndsWithNewline(rest[i])) {
          assert rest[i] == lines[i + 1];
        }
      }
      ReadLinesConcat(rest);
      var s := Concat(lines);
      assert s == first + Concat(rest);
      FirstLine(first, Concat(rest), rest == []);
    }
  }

  /** The first line of `line + rest` is `line` when it ends with `\n` or
      nothing follows. */
  lemma FirstLine(line: string, rest: string, last: bool)
    requires IsLine(line)
    requires last ==> rest == []
    requires !last ==> EndsWithNewline(line)
    ensures LineEnd(line + rest) == |line|
    ensures (line + rest)[..|line|] == line && (line + rest)[|line|..] == rest
  {
    var s := line + rest;
    var e := LineEnd(s);
    assert forall j | 0 <= j < |line| :: s[j] == line[j];
    if e < |line| {
      assert false;
    }
    if e > |line| {
      assert false;
    }
  }

  // ---------------------------------------------------------------------------
  // update_env_file

  const ModelPrefix := "BEDROCK_MODEL_ID="

  /** The comment line written above an appended assignment,
      `# Modèle Bedrock pour l'extraction de factures`. */
  const Comment := "# Modèle " + "Bedrock pour " + "l'extraction " + "de factures" + "\n"

  /** The line `BEDROCK_MODEL_ID=<id>` that replaces each model line. */
  function Assignment(modelId: string): string {
    ModelPrefix + modelId + "\n"
  }

  /** A line the script treats as setting the model. */
  predicate IsModelLine(line: string) {
    Text.StartsWith(Text.Strip(line), ModelPrefix)
  }

  predicate HasModelLine(lines: seq<string>) {
    exists i | 0 <= i < |lines| :: IsModelLine(lines[i])
  }

  /** The rewrite of the lines, with the comment to write above an appended
      assignment: every model line, not only the first, becomes the
      assignment; the other lines stay, in order; when no line was replaced,
      one element holding a blank line, the comment and the assignment is
      added at the end. */
  function Rewrite(lines: seq<string>, comment: string, modelId: string): (r: seq<string>)
    ensures HasModelLine(lines) ==> |r| == |lines|
    ensures !HasModelLine(lines) ==> r == lines + ["\n" + comment + Assignment(modelId)]
    ensures forall i | 0 <= i < |lines| ::
      r[i] == (if IsModelLine(lines[i]) then Assignment(modelId) else lines[i])
  {
    var replaced := seq(|lines|, i requires 0 <= i < |lines| =>
      if IsModelLine(lines[i]) then Assignment(modelId) else lines[i]);
    if HasModelLine(lines) then replaced
    else
      assert replaced == lines;
      replaced + ["\n" + comment + Assignment(modelId)]
  }

  /** `update_env_file` on the lines of the file. */
  function UpdateLines(lines: seq<string>, modelId: string): seq<string> {
    Rewrite(lines, Comment, modelId)
  }

  /** `update_env_file` on the text of the file. */
  function UpdateFile(content: string, modelId: string): string {
    Concat(UpdateLines(ReadLines(content), modelId))
  }

  /** A prefix that starts and ends with a non-space survives `strip()`. */
  lemma StripKeepsPrefix(s: string, p: string)
    requires Text.StartsWith(s, p) && p != []
    requires !Text.IsSpace(p[0]) && !Text.IsSpace(p[|p| - 1])
    ensures Text.StartsWith(Text.Strip(s), p)
  {
    var a, b := Text.StripBounds(s);
    assert a == 0 && |p| <= b by {
      assert s[0] == p[0] && s[|p| - 1] == p[|p| - 1];
      Text.NonSpaceInside(s, a, b, 0);
      Text.NonSpaceInside(s, a, b, |p| - 1);
    }
    PrefixOfSlice(s, a, b, p);
  }

  /** A prefix of `s` is a prefix of any slice from 0 that is long enough. */
  lemma PrefixOfSlice(s: string, a: nat, b: nat, p: string)
    requires Text.StartsWith(s, p) && a == 0 && |p| <= b <= |s|
    ensures Text.StartsWith(s[a..b], p)
  {
    assert s[a..b][..|p|] == s[..|p|];
  }

  /** A line ended by `\n` and holding no other. */
  predicate EndedLine(line: string) {
    IsLine(line) && EndsWithNewline(line)
  }

  lemma EndedAppend(x: string)
    requires '\n' !in x
    ensures EndedLine(x + "\n")
  {
    var t := x + "\n";
    forall j | 0 <= j < |t| - 1 ensures t[j] != '\n' {
      assert t[j] == x[j];
    }
  }

  lemma AssignmentShape(modelId: string)
    requires '\n' !in modelId
    ensures EndedLine(Assignment(modelId)) && IsModelLine(Assignment(modelId))
  {
    assert Assignment(modelId) == (ModelPrefix + modelId) + "\n";
    EndedAppend(ModelPrefix + modelId);
    StripKeepsPrefix(Assignment(modelId), ModelPrefix);
  }

  /** A line whose text starts with `#` is a comment, not a model line. */
  lemma CommentLine(line: string)
    requires Text.StartsWith(line, "#")
    ensures !IsModelLine(line)
  {
    StripKeepsPrefix(line, "#");
    var stripped := Text.Strip(line);
    assert stripped[0] == "#"[0];
    assert ModelPrefix[0] == 'B';
  }

  /** The comment ends with its only `\n` and starts with `#` ... */
  lemma CommentText()
    ensures |Comment| > 0 && '\n' !in Comment[..|Comment| - 1] && Comment[|Comment| - 1] == '\n'
    ensures Comment[..1] == "#"
  {
    var text := "# Modèle " + "Bedrock pour " + "l'extraction " + "de factures";
    assert '\n' !in "# Modèle ";
    assert '\n' !in "Bedrock pour ";
    assert '\n' !in "l'extraction ";
    assert '\n' !in "de factures";
    assert text[0] == "# Modèle "[0] == '#';
    assert Comment[..|Comment| - 1] == text;
  }

  lemma EndedLineOf(s: string)
    requires |s| > 0 && '\n' !in s[..|s| - 1] && s[|s| - 1] == '\n'
    ensures EndedLine(s)
  {
    forall j | 0 <= j < |s| - 1 ensures s[j] != '\n' {
      assert s[j] == s[..|s| - 1][j];
    }
  }

  /** ... so it is an ended line and not a model line. */
  lemma CommentShape()
    ensures EndedLine(Comment) && !IsModelLine(Comment)
  {
    CommentText();
    EndedLineOf(Comment);
    assert Text.StartsWith(Comment, "#");
    CommentLine(Comment);
  }

  /** A blank line is not a model line. */
  lemma BlankShape()
    ensures EndedLine("\n") && !IsModelLine("\n")
  {
    assert Text.StrippedSlice("\n", 0, 0);
    Text.StripIs("\n", 0, 0);
  }

  /** Lines whose model lines all already hold the assignment are left as
      they are. */
  lemma RewriteFixed(lines: seq<string>, comment: string, modelId: string)
    requires HasModelLine(lines)
    requires forall i | 0 <= i < |lines| && IsModelLine(lines[i]) :: lines[i] == Assignment(modelId)
    ensures Rewrite(lines, comment, modelId) == lines
  {
  }

  /** When some line already sets the model, the rewritten lines are still
      proper lines ... */
  lemma RewriteSplits(lines: seq<string>, comment: string, modelId: string)
    requires WellSplit(lines) && HasModelLine(lines)
    requires '\n' !in modelId
    ensures WellSplit(Rewrite(lines, comment, modelId))
  {
    AssignmentShape(modelId);
  }

  /** ... and rewriting them again changes nothing. */
  lemma RewriteTwice(lines: seq<string>, comment: string, modelId: string)
    requires HasModelLine(lines)
    requires '\n' !in modelId
    ensures Rewrite(Rewrite(lines, comment, modelId), comment, modelId) == Rewrite(lines, comment, modelId)
  {
    var r := Rewrite(lines, comment, modelId);
    AssignmentShape(modelId);
    var i :| 0 <= i < |lines| && IsModelLine(lines[i]);
    assert IsModelLine(r[i]);
    forall j | 0 <= j < |r| && IsModelLine(r[j]) ensures r[j] == Assignment(modelId) {
      if !IsModelLine(lines[j]) {
        assert false;
      }
    }
    RewriteFixed(r, comment, modelId);
  }

  /** The lines of a text once a `\n` is written after it. */
  function Terminated(lines: seq<string>): (r: seq<string>)
    ensures |r| >= |lines|
  {
    if lines == [] || EndsWithNewline(lines[|lines| - 1]) then lines + ["\n"]
    else lines[..|lines| - 1] + [lines[|lines| - 1] + "\n"]
  }

  lemma ConcatAppend(a: seq<string>, b: seq<string>)
    ensures Concat(a + b) == Concat(a) + Concat(b)
    decreases |a|
  {
    if a != [] {
      assert (a + b)[0] == a[0];
      assert (a + b)[1..] == a[1..] + b;
      ConcatAppend(a[1..], b);
    } else {
      assert a + b == b;
    }
  }

  lemma ConcatOne(a: string)
    ensures Concat([a]) == a
  {
    assert [a][1..] == [];
  }

  /** Writing a `\n` after lines adds it to their text ... */
  lemma TerminatedText(lines: seq<string>)
    ensures Concat(Terminated(lines)) == Concat(lines) + "\n"
  {
    ConcatOne("\n");
    if lines == [] || EndsWithNewline(lines[|lines| - 1]) {
      ConcatAppend(lines, ["\n"]);
    } else {
      var n := |lines|;
      var last := lines[n - 1];
      assert lines == lines[..n - 1] + [last];
      ConcatAppend(lines[..n - 1], [last]);
      ConcatAppend(lines[..n - 1], [last + "\n"]);
      ConcatOne(last);
      ConcatOne(last + "\n");
    }
  }

  /** ... and, after proper lines with no model line, leaves ended lines,
      still with no model line. */
  lemma TerminatedShape(lines: seq<string>)
    requires WellSplit(lines) && !HasModelLine(lines)
    ensures forall i | 0 <= i < |Terminated(lines)| ::
      EndedLine(Terminated(lines)[i]) && !IsModelLine(Terminated(lines)[i])
  {
    var t := Terminated(lines);
    BlankShape();
    if lines == [] || EndsWithNewline(lines[|lines| - 1]) {
      assert t == lines + ["\n"];
      forall i | 0 <= i < |t| ensures EndedLine(t[i]) && !IsModelLine(t[i]) {
        if i < |lines| {
          assert t[i] == lines[i];
        }
      }
    } else {
      var n := |lines|;
      var last := lines[n - 1];
      assert t == lines[..n - 1] + [last + "\n"];
      EndedLast(last);
      forall i | 0 <= i < |t| ensures EndedLine(t[i]) && !IsModelLine(t[i]) {
        if i < n - 1 {
          assert t[i] == lines[i];
        }
      }
    }
  }

  /** Ending the unended last line keeps it a line that is no model line. */
  lemma EndedLast(last: string)
    requires IsLine(last) && !EndsWithNewline(last) && !IsModelLine(last)
    ensures EndedLine(last + "\n") && !IsModelLine(last + "\n")
  {
    assert EndedLine(last + "\n") by {
      forall j | 0 <= j < |last| ensures (last + "\n")[j] == last[j] { }
    }
    Text.StripAppendSpace(last, '\n');
  }

  /** The read-back lines are proper lines. */
  lemma AppendedSplits(lines: seq<string>, comment: string, modelId: string)
    requires WellSplit(lines) && !HasModelLine(lines)
    requires EndedLine(comment) && '\n' !in modelId
    ensures WellSplit(Terminated(lines) + [comment, Assignment(modelId)])
  {
    var t := Terminated(lines);
    var back := t + [comment, Assignment(modelId)];
    TerminatedShape(lines);
    AssignmentShape(modelId);
    forall i | 0 <= i < |back| ensures EndedLine(back[i]) {
      if i < |t| {
        assert back[i] == t[i];
      }
    }
  }

  /** The text written when the element is appended is the text of the
      read-back lines. */
  lemma AppendedText(lines: seq<string>, comment: string, modelId: string)
    ensures Concat(lines + ["\n" + comment + Assignment(modelId)])
      == Concat(Terminated(lines) + [comment, Assignment(modelId)])
  {
    var a := Assignment(modelId);
    var t := Terminated(lines);
    ConcatAppend(lines, ["\n" + comment + a]);
    ConcatOne("\n" + comment + a);
    TerminatedText(lines);
    ConcatAppend(t, [comment, a]);
    assert [comment, a][1..] == [a];
    ConcatOne(a);
    assert Concat([comment, a]) == comment + a;
    Regroup(Concat(lines), "\n", comment, a);
  }

  lemma Regroup(w: string, x: string, y: string, z: string)
    ensures w + (x + y + z) == (w + x) + (y + z)
  {
  }

  /** The text of lines with no model line and the appended element, cut
      into lines again. */
  lemma AppendedReadBack(lines: seq<string>, comment: string, modelId: string)
    requires WellSplit(lines) && !HasModelLine(lines)
    requires EndedLine(comment) && '\n' !in modelId
    ensures ReadLines(Concat(lines + ["\n" + comment + Assignment(modelId)]))
      == Terminated(lines) + [comment, Assignment(modelId)]
  {
    AppendedText(lines, comment, modelId);
    AppendedSplits(lines, comment, modelId);
    ReadLinesConcat(Terminated(lines) + [comment, Assignment(modelId)]);
  }

  /** The read-back of an appended element, rewritten again, is unchanged. */
  lemma AppendedFixed(lines: seq<string>, comment: string, modelId: string)
    requires WellSplit(lines) && !HasModelLine(lines)
    requires EndedLine(comment) && !IsModelLine(comment) && '\n' !in modelId
    ensures var back := Terminated(lines) + [comment, Assignment(modelId)];
      Rewrite(back, comment, modelId) == back
  {
    var t := Terminated(lines);
    var back := t + [comment, Assignment(modelId)];
    TerminatedShape(lines);
    AssignmentShape(modelId);
    assert IsModelLine(back[|back| - 1]);
    forall i | 0 <= i < |back| && IsModelLine(back[i]) ensures back[i] == Assignment(modelId) {
      if i < |t| {
        assert false;
      }
    }
    RewriteFixed(back, comment, modelId);
  }

  /** The second run over a file in which the first one replaced lines. */
  lemma ReplacedTwice(lines: seq<string>, comment: string, modelId: string)
    requires WellSplit(lines) && HasModelLine(lines) && '\n' !in modelId
    ensures var r := Rewrite(lines, comment, modelId);
      Rewrite(ReadLines(Concat(r)), comment, modelId) == r
  {
    RewriteSplits(lines, comment, modelId);
    ReadLinesConcat(Rewrite(lines, comment, modelId));
    RewriteTwice(lines, comment, modelId);
  }

  /** The second run over a file to which the first one appended. */
  lemma AppendedTwice(lines: seq<string>, comment: string, modelId: string)
    requires WellSplit(lines) && !HasModelLine(lines)
    requires EndedLine(comment) && !IsModelLine(comment) && '\n' !in modelId
    ensures var once := Concat(Rewrite(lines, comment, modelId));
      Concat(Rewrite(ReadLines(once), comment, modelId)) == once
  {
    assert Rewrite(lines, comment, modelId) == lines + ["\n" + comment + Assignment(modelId)];
    AppendedReadBack(lines, comment, modelId);
    AppendedFixed(lines, comment, modelId);
    AppendedText(lines, comment, modelId);
  }

  /** Running the script twice with the same id leaves the file as the first
      run wrote it, for any comment line: the appended element, read back,
      holds a model line, so the second run only rewrites that line to
      itself. */
  lemma RewriteFileIdempotent(content: string, comment: string, modelId: string)
    requires EndedLine(comment) && !IsModelLine(comment) && '\n' !in modelId
    ensures var once := Concat(Rewrite(ReadLines(content), comment, modelId));
      Concat(Rewrite(ReadLines(once), comment, modelId)) == once
  {
    var lines := ReadLines(content);
    ReadLinesSplits(content);
    if HasModelLine(lines) {
      ReplacedTwice(lines, comment, modelId);
    } else {
      AppendedTwice(lines, comment, modelId);
    }
  }

  /** `update_env_file` run twice with the same id writes what it wrote the
      first time. */
  lemma UpdateFileIdempotent(content: string, modelId: string)
    requires '\n' !in modelId
    ensures UpdateFile(UpdateFile(content, modelId), modelId) == UpdateFile(content, modelId)
  {
    CommentShape();
    RewriteFileIdempotent(content, Comment, modelId);
  }

  // ---------------------------------------------------------------------------
  // test_model_access

  const TestPrompt := "Bonjour, ceci est un test. Réponds simplement par 'TEST_OK'."

  const TestMaxTokens := 10

  const TestTemperature: Value := Float("0.1")

  /** `{"prompt": "\n\nHuman: …\n\nAssistant:", "max_tokens_to_sample": 10, …}` */
  function ClaudeProbe(): (body: Fields)
    ensures Lookup(Obj(body), ["prompt"]) == Some(Str(ModelAdapter.HumanTurn(TestPrompt)))
    ensures Lookup(Obj(body), ["max_tokens_to_sample"]) == Some(Int(TestMaxTokens))
  {
    var body := [("prompt", Str(ModelAdapter.HumanTurn(TestPrompt))),
                 ("max_tokens_to_sample", Int(TestMaxTokens)),
                 ("temperature", TestTemperature)];
    GetAt(body, 0); GetAt(body, 1);
    body
  }

  /** `{"prompt": …, "max_gen_len": 10, …}` */
  function LlamaProbe(): (body: Fields)
    ensures Lookup(Obj(body), ["prompt"]) == Some(Str(TestPrompt))
    ensures Lookup(Obj(body), ["max_gen_len"]) == Some(Int(TestMaxTokens))
  {
    var body := [("prompt", Str(TestPrompt)),
                 ("max_gen_len", Int(TestMaxTokens)),
                 ("temperature", TestTemperature)];
    GetAt(body, 0); GetAt(body, 1);
    body
  }

  /** `{"inputText": …, "textGenerationConfig": {"maxTokenCount": 10, …}}` */
  function TitanProbe(): (body: Fields)
    ensures Lookup(Obj(body), ["inputText"]) == Some(Str(TestPrompt))
    ensures Lookup(Obj(body), ["textGenerationConfig", "maxTokenCount"]) == Some(Int(TestMaxTokens))
  {
    var config := [("maxTokenCount", Int(TestMaxTokens)), ("temperature", TestTemperature)];
    var body := [("inputText", Str(TestPrompt)), ("textGenerationConfig", Obj(config))];
    GetAt(body, 0); GetAt(body, 1); GetAt(config, 0);
    assert ["textGenerationConfig", "maxTokenCount"][1..] == ["maxTokenCount"];
    body
  }

  /** `{"inputs": …, "parameters": {"max_new_tokens": 10, …}}` */
  function GenericProbe(): (body: Fields)
    ensures Lookup(Obj(body), ["inputs"]) == Some(Str(TestPrompt))
    ensures Lookup(Obj(body), ["parameters", "max_new_tokens"]) == Some(Int(TestMaxTokens))
    ensures !HasKey(body, "prompt")
  {
    var parameters := [("max_new_tokens", Int(TestMaxTokens)), ("temperature", TestTemperature)];
    var body := [("inputs", Str(TestPrompt)), ("parameters", Obj(parameters))];
    GetAt(body, 0); GetAt(body, 1); GetAt(parameters, 0);
    assert ["parameters", "max_new_tokens"][1..] == ["max_new_tokens"];
    body
  }

  /** The request body the script sends, chosen by substring tests on the id
      as given (no lower-casing), in this order. */
  function TestRequestBody(modelId: string): (body: Fields)
    ensures Text.Contains(modelId, "anthropic.claude") ==>
      && Lookup(Obj(body), ["prompt"]) == Some(Str(ModelAdapter.HumanTurn(TestPrompt)))
      && Lookup(Obj(body), ["max_tokens_to_sample"]) == Some(Int(TestMaxTokens))
    ensures !Text.Contains(modelId, "anthropic.claude") && Text.Contains(modelId, "meta.llama") ==>
      && Lookup(Obj(body), ["prompt"]) == Some(Str(TestPrompt))
      && Lookup(Obj(body), ["max_gen_len"]) == Some(Int(TestMaxTokens))
    ensures (!Text.Contains(modelId, "anthropic.claude") && !Text.Contains(modelId, "meta.llama")
             && Text.Contains(modelId, "amazon.titan")) ==>
      && Lookup(Obj(body), ["inputText"]) == Some(Str(TestPrompt))
      && Lookup(Obj(body), ["textGenerationConfig", "maxTokenCount"]) == Some(Int(TestMaxTokens))
    ensures (!Text.Contains(modelId, "anthropic.claude") && !Text.Contains(modelId, "meta.llama")
             && !Text.Contains(modelId, "amazon.titan")) ==>
      && Lookup(Obj(body), ["inputs"]) == Some(Str(TestPrompt))
      && Lookup(Obj(body), ["parameters", "max_new_tokens"]) == Some(Int(TestMaxTokens))
      && !HasKey(body, "prompt")
  {
    if Text.Contains(modelId, "anthropic.claude") then ClaudeProbe()
    else if Text.Contains(modelId, "meta.llama") then LlamaProbe()
    else if Text.Contains(modelId, "amazon.titan") then TitanProbe()
    else GenericProbe()
  }

  /** A pattern found in a string is found through any prefix of it. */
  lemma ContainsPrefix(s: string, t: string, u: string)
    requires Text.Contains(s, t) && Text.StartsWith(t, u)
    ensures Text.Contains(s, u)
  {
    var p :| 0 <= p <= |s| - |t| && Text.OccursAt(s, t, p);
    assert s[p..p + |u|] == s[p..p + |t|][..|u|];
    assert Text.OccursAt(s, u, p);
  }

  /** The family token `k` occurs in the lower-cased id. */
  lemma TokenFound(modelId: string, pattern: string, k: nat)
    requires k < |ModelAdapter.FamilyTokens|
    requires Text.Contains(modelId, pattern)
    requires Text.StartsWith(pattern, ModelAdapter.FamilyTokens[k].0)
    ensures Text.Contains(Text.Lower(modelId), ModelAdapter.FamilyTokens[k].0)
  {
    var token := ModelAdapter.FamilyTokens[k].0;
    ContainsPrefix(modelId, pattern, token);
    Text.LowerIdentity(token);
    Text.LowerKeepsOccurrence(modelId, token);
  }

  /** Where the script and the adapter agree: a Claude id is of the Anthropic
      family, and the test body puts the prompt and the token limit where
      the adapter's body for that family does. */
  lemma ClaudeProbeAgrees(modelId: string)
    requires Text.Contains(modelId, "anthropic.claude")
    ensures ModelAdapter.Classify(modelId) == ModelAdapter.Anthropic
    ensures var f := ModelAdapter.Anthropic;
      && Lookup(Obj(TestRequestBody(modelId)), ModelAdapter.PromptPath(f)) == Some(Str(ModelAdapter.SentPrompt(f, TestPrompt)))
      && Lookup(Obj(TestRequestBody(modelId)), ModelAdapter.TokenLimitPath(f)) == Some(Int(TestMaxTokens))
  {
    TokenFound(modelId, "anthropic.claude", 0);
  }

  /** A Llama id is of the Meta family unless it also names Anthropic, and
      when it is, the test body agrees with the adapter's. */
  lemma LlamaProbeAgrees(modelId: string)
    requires !Text.Contains(modelId, "anthropic.claude") && Text.Contains(modelId, "meta.llama")
    ensures ModelAdapter.Classify(modelId) in {ModelAdapter.Anthropic, ModelAdapter.Meta}
    ensures ModelAdapter.Classify(modelId) == ModelAdapter.Meta ==>
      var f := ModelAdapter.Meta;
      && Lookup(Obj(TestRequestBody(modelId)), ModelAdapter.PromptPath(f)) == Some(Str(ModelAdapter.SentPrompt(f, TestPrompt)))
      && Lookup(Obj(TestRequestBody(modelId)), ModelAdapter.TokenLimitPath(f)) == Some(Int(TestMaxTokens))
  {
    TokenFound(modelId, "meta.llama", 1);
  }

  /** A Titan id that the adapter files under Amazon gets the body the
      adapter would build, as far as the prompt and the token limit go. */
  lemma TitanProbeAgrees(modelId: string)
    requires !Text.Contains(modelId, "anthropic.claude") && !Text.Contains(modelId, "meta.llama")
    requires Text.Contains(modelId, "amazon.titan")
    ensures ModelAdapter.Classify(modelId) != ModelAdapter.Unknown
    ensures ModelAdapter.Classify(modelId) == ModelAdapter.Amazon ==>
      var f := ModelAdapter.Amazon;
      && Lookup(Obj(TestRequestBody(modelId)), ModelAdapter.PromptPath(f)) == Some(Str(ModelAdapter.SentPrompt(f, TestPrompt)))
      && Lookup(Obj(TestRequestBody(modelId)), ModelAdapter.TokenLimitPath(f)) == Some(Int(TestMaxTokens))
  {
    TokenFound(modelId, "amazon.titan", 2);
  }

  /** Where they differ: for any other id the script sends the generic
      `inputs` shape, while the adapter, for every family but Amazon, sends a
      `prompt`. */
  lemma GenericProbeDiffers(modelId: string, settings: ModelAdapter.Settings)
    requires !Text.Contains(modelId, "anthropic.claude") && !Text.Contains(modelId, "meta.llama")
    requires !Text.Contains(modelId, "amazon.titan")
    requires ModelAdapter.Classify(modelId) != ModelAdapter.Amazon
    ensures !HasKey(TestRequestBody(modelId), "prompt")
    ensures HasKey(ModelAdapter.CreateRequestBody(ModelAdapter.Classify(modelId), TestPrompt, settings), "prompt")
  {
    var body := ModelAdapter.CreateRequestBody(ModelAdapter.Classify(modelId), TestPrompt, settings);
    assert Lookup(Obj(body), ["prompt"]).Some?;
  }
}

=== FILE: normalizer.dfy ===
/** Field-name normalisation (`_normalize_field_names`) and validation
    (`_validate_extracted_data`): the recovered object is rewritten onto the
    seven canonical invoice keys through a fixed alias table, and keys the table
    does not know are carried over unchanged. */
module Normalizer {
  import opened Wrappers
  import opened Json
  import Text

  /** Canonical key, then its accepted names in the order they are tried. Every
      name is already lower-case, so `name.lower()` is the name itself. */
  const FieldMappings: seq<(string, seq<string>)> := [
    ("fournisseur", ["fournisseur", "supplier", "vendor", "vendeur"]),
    ("montant_ht", ["montant_ht", "montant", "amount", "total"]),
    ("numero_facture", ["numero_facture", "numero", "invoice_number", "facture_numero"]),
    ("date_facture", ["date_facture", "date", "invoice_date"]),
    ("chrono", ["chrono", "numero_chrono", "chrono_number", "document_chrono"]),
    ("couverture", ["couverture", "periode_couverture", "periode", "period", "coverage_period"]),
    ("nom_fichier", ["nom_fichier", "filename", "file_name"])
  ]

  const CanonicalKeys: seq<string> :=
    ["fournisseur", "montant_ht", "numero_facture", "date_facture", "chrono", "couverture", "nom_fichier"]

  /** Optional fields that validation inserts as null when they are missing. */
  const OptionalFields: seq<string> := ["chrono", "couverture", "nom_fichier"]

  predicate IsCanonical(k: string) {
    k in CanonicalKeys
  }

  /** The key's lower-case form is one of the accepted names of some field. */
  predicate IsAliasKey(k: string) {
    exists i | 0 <= i < |FieldMappings| :: Text.Lower(k) in FieldMappings[i].1
  }

  /** Facts about the constant table: each canonical key is its own first name
      and is left alone by lowercasing, and the canonical keys are distinct. */
  lemma TableFacts()
    ensures |FieldMappings| == 7
    ensures forall i | 0 <= i < 7 :: FieldMappings[i].0 == CanonicalKeys[i]
    ensures forall i | 0 <= i < 7 :: |FieldMappings[i].1| > 0 && FieldMappings[i].1[0] == CanonicalKeys[i]
    ensures forall i | 0 <= i < 7 :: Text.Lower(CanonicalKeys[i]) == CanonicalKeys[i]
    ensures forall i, j | 0 <= i < j < 7 :: CanonicalKeys[i] != CanonicalKeys[j]
    ensures forall i, j | 0 <= i < 7 && 0 <= j < 7 && i != j :: CanonicalKeys[i] !in FieldMappings[j].1
  {
    CanonicalLower();
    forall j | 0 <= j < 7 ensures forall i | 0 <= i < 7 && i != j :: CanonicalKeys[i] !in FieldMappings[j].1 {
      OnlyOwnKey(j);
    }
  }

  /** The canonical keys are lower case already. */
  lemma CanonicalLower()
    ensures forall i | 0 <= i < 7 :: Text.Lower(CanonicalKeys[i]) == CanonicalKeys[i]
  {
    Text.LowerIdentity("fournisseur");
    Text.LowerIdentity("montant_ht");
    Text.LowerIdentity("numero_facture");
    Text.LowerIdentity("date_facture");
    Text.LowerIdentity("chrono");
    Text.LowerIdentity("couverture");
    Text.LowerIdentity("nom_fichier");
  }

  /** The names accepted for field `j` include no other field's key. */
  lemma OnlyOwnKey(j: nat)
    requires j < 7
    ensures forall i | 0 <= i < 7 && i != j :: CanonicalKeys[i] !in FieldMappings[j].1
  {
    if j == 0 {
    } else if j == 1 {
    } else if j == 2 {
    } else if j == 3 {
    } else if j == 4 {
    } else if j == 5 {
    } else {
    }
  }

  /** A canonical key is itself an accepted name. */
  lemma CanonicalIsAlias(k: string)
    requires IsCanonical(k)
    ensures IsAliasKey(k)
  {
    TableFacts();
    var i :| 0 <= i < 7 && CanonicalKeys[i] == k;
    assert Text.Lower(k) in FieldMappings[i].1;
  }

  /** `data_lower[name]` where `data_lower = {k.lower(): v for k, v in data.items()}`:
      among keys that lowercase to `name`, the last one written wins. */
  function LowerGet(d: Fields, name: string): (r: Option<Value>)
    ensures r.None? <==> forall i | 0 <= i < |d| :: Text.Lower(d[i].0) != name
    ensures r.Some? ==> exists i | 0 <= i < |d| ::
      && Text.Lower(d[i].0) == name && d[i].1 == r.value
      && forall j | i < j < |d| :: Text.Lower(d[j].0) != name
    decreases |d|
  {
    if d == [] then None
    else if Text.Lower(d[|d| - 1].0) == name then Some(d[|d| - 1].1)
    else
      var r := LowerGet(d[..|d| - 1], name);
      assert forall i | 0 <= i < |d| - 1 :: d[..|d| - 1][i] == d[i];
      r
  }

  /** The value of the first accepted name present, in table order, or null. */
  function AliasValue(d: Fields, names: seq<string>): (v: Value)
    ensures (forall j | 0 <= j < |names| :: LowerGet(d, names[j]).None?) ==> v == Null
    ensures forall j | 0 <= j < |names| ::
      (LowerGet(d, names[j]).Some? && forall m | 0 <= m < j :: LowerGet(d, names[m]).None?) ==>
        v == LowerGet(d, names[j]).value
  {
    if names == [] then Null
    else match LowerGet(d, names[0])
      case Some(v) => v
      case None =>
        var v := AliasValue(d, names[1..]);
        assert forall j | 1 <= j < |names| :: names[1..][j - 1] == names[j];
        v
  }

  /** The seven canonical entries, in table order. */
  function CanonicalEntries(d: Fields): (c: Fields)
    ensures |c| == |FieldMappings|
    ensures forall i | 0 <= i < |c| :: c[i] == (FieldMappings[i].0, AliasValue(d, FieldMappings[i].1))
  {
    seq(|FieldMappings|, i requires 0 <= i < |FieldMappings| => (FieldMappings[i].0, AliasValue(d, FieldMappings[i].1)))
  }

  /** The second loop: every input entry whose key is not `known` (matches no
      accepted name) is written into the result under its original name. */
  function CopyExtras(acc: Fields, rest: Fields, known: string -> bool): Fields
    decreases |rest|
  {
    if rest == [] then acc
    else CopyExtras(if known(rest[0].0) then acc else Put(acc, rest[0].0, rest[0].1), rest[1..], known)
  }

  /** Copying extras keeps every existing key in place, leaves entries under
      accepted names untouched, appends only unknown keys, and adds exactly the
      unknown keys of the input. */
  lemma {:induction false} CopyExtrasShape(acc: Fields, rest: Fields, known: string -> bool)
    ensures var r := CopyExtras(acc, rest, known);
      && |r| >= |acc|
      && (forall i | 0 <= i < |acc| :: r[i].0 == acc[i].0)
      && (forall i | 0 <= i < |acc| && known(acc[i].0) :: r[i] == acc[i])
      && (forall i | |acc| <= i < |r| :: !known(r[i].0))
      && (DistinctKeys(acc) ==> DistinctKeys(r))
      && (forall k :: HasKey(r, k) <==> HasKey(acc, k) || (HasKey(rest, k) && !known(k)))
    decreases |rest|
  {
    if rest != [] {
      var (k, v) := rest[0];
      var acc' := if known(k) then acc else Put(acc, k, v);
      HasKeyTail(rest);
      if !known(k) {
        PutUnknown(acc, k, v, known);
      }
      CopyExtrasShape(acc', rest[1..], known);
    }
  }

  /** The keys of a non-empty list: its first key and those of its tail. */
  lemma HasKeyTail(rest: Fields)
    requires rest != []
    ensures forall k' :: HasKey(rest, k') <==> k' == rest[0].0 || HasKey(rest[1..], k')
  {
    forall k' ensures HasKey(rest, k') <==> k' == rest[0].0 || HasKey(rest[1..], k') {
      if HasKey(rest, k') && k' != rest[0].0 {
        var i :| 0 <= i < |rest| && rest[i].0 == k';
        assert rest[1..][i - 1].0 == k';
      }
      if HasKey(rest[1..], k') {
        var i :| 0 <= i < |rest[1..]| && rest[1..][i].0 == k';
        assert rest[i + 1].0 == k';
      }
    }
  }

  /** Storing under an unknown key keeps every existing key in place, leaves
      entries under known names untouched and appends only that key. */
  lemma PutUnknown(acc: Fields, k: string, v: Value, known: string -> bool)
    requires !known(k)
    ensures var r := Put(acc, k, v);
      && |r| >= |acc|
      && (forall i | 0 <= i < |acc| :: r[i].0 == acc[i].0)
      && (forall i | 0 <= i < |acc| && known(acc[i].0) :: r[i] == acc[i])
      && (forall i | |acc| <= i < |r| :: r[i].0 == k)
      && (forall x :: HasKey(r, x) <==> HasKey(acc, x) || x == k)
  {
    var r := Put(acc, k, v);
    if HasKey(acc, k) {
      assert Keys(r) == Keys(acc);
      forall i | 0 <= i < |acc| ensures r[i].0 == acc[i].0 {
        assert Keys(r)[i] == Keys(acc)[i];
      }
      forall x ensures HasKey(r, x) <==> HasKey(acc, x) || x == k {
        if HasKey(r, x) {
          var i :| 0 <= i < |r| && r[i].0 == x;
          assert acc[i].0 == x;
        }
        if HasKey(acc, x) {
          var i :| 0 <= i < |acc| && acc[i].0 == x;
          assert r[i].0 == x;
        }
      }
    } else {
      assert r == acc + [(k, v)];
      forall x ensures HasKey(r, x) <==> HasKey(acc, x) || x == k {
        if HasKey(r, x) && x != k {
          var i :| 0 <= i < |r| && r[i].0 == x;
          assert acc[i].0 == x;
        }
        if HasKey(acc, x) {
          var i :| 0 <= i < |acc| && acc[i].0 == x;
          assert r[i].0 == x;
        }
        if x == k {
          assert r[|acc|].0 == x;
        }
      }
    }
  }

  /** `_normalize_field_names`. */
  function Normalize(d: Fields): (r: Fields)
    ensures |r| >= 7
    ensures forall i | 0 <= i < 7 :: r[i] == (CanonicalKeys[i], AliasValue(d, FieldMappings[i].1))
    ensures forall i | 7 <= i < |r| :: !IsAliasKey(r[i].0)
    ensures DistinctKeys(r)
    ensures forall k :: HasKey(r, k) <==> IsCanonical(k) || (HasKey(d, k) && !IsAliasKey(k))
  {
    TableFacts();
    var c := CanonicalEntries(d);
    CopyExtrasShape(c, d, IsAliasKey);
    forall i | 0 <= i < 7 ensures IsAliasKey(c[i].0) {
      CanonicalIsAlias(c[i].0);
    }
    assert forall k :: HasKey(c, k) <==> IsCanonical(k) by {
      forall k ensures HasKey(c, k) <==> IsCanonical(k) {
        if IsCanonical(k) {
          var i :| 0 <= i < 7 && CanonicalKeys[i] == k;
          assert c[i].0 == k;
        }
      }
    }
    CopyExtras(c, d, IsAliasKey)
  }

  /** Each canonical key takes the value under its first accepted name present
      in the input, matched case-insensitively, or null when none is present. */
  lemma NormalizeCanonical(d: Fields, i: nat)
    requires i < 7
    ensures Get(Normalize(d), CanonicalKeys[i]) == Some(AliasValue(d, FieldMappings[i].1))
  {
    var r := Normalize(d);
    GetAt(r, i);
  }

  /** An input key that matches no accepted name keeps its value under its own name. */
  lemma NormalizeKeepsUnknown(d: Fields, k: string)
    requires DistinctKeys(d)
    requires HasKey(d, k) && !IsAliasKey(k)
    ensures Get(Normalize(d), k) == Get(d, k)
  {
    CopyExtrasValue(CanonicalEntries(d), d, IsAliasKey, k);
  }

  lemma {:induction false} CopyExtrasValue(acc: Fields, rest: Fields, known: string -> bool, k: string)
    requires DistinctKeys(rest)
    requires HasKey(rest, k) && !known(k)
    ensures Get(CopyExtras(acc, rest, known), k) == Get(rest, k)
    decreases |rest|
  {
    var (k0, v0) := rest[0];
    var acc' := if known(k0) then acc else Put(acc, k0, v0);
    var tail := rest[1..];
    assert CopyExtras(acc, rest, known) == CopyExtras(acc', tail, known);
    assert forall a | 0 <= a < |tail| :: tail[a] == rest[a + 1];
    if k0 == k {
      GetAt(rest, 0);
      assert !HasKey(tail, k);
      CopyExtrasOther(acc', tail, known, k);
    } else {
      var i :| 0 <= i < |rest| && rest[i].0 == k;
      assert tail[i - 1].0 == k;
      CopyExtrasValue(acc', tail, known, k);
      GetAt(rest, i);
      GetAt(tail, i - 1);
    }
  }

  /** A key that is known, or that the input lacks, keeps its value. */
  lemma {:induction false} CopyExtrasOther(acc: Fields, rest: Fields, known: string -> bool, k: string)
    requires known(k) || !HasKey(rest, k)
    ensures Get(CopyExtras(acc, rest, known), k) == Get(acc, k)
    decreases |rest|
  {
    if rest != [] {
      var (k0, v0) := rest[0];
      var acc' := if known(k0) then acc else Put(acc, k0, v0);
      if !known(k) {
        assert k0 != k;
        forall a | 0 <= a < |rest[1..]| ensures rest[1..][a].0 != k {
          assert rest[1..][a] == rest[a + 1];
        }
      }
      CopyExtrasOther(acc', rest[1..], known, k);
    }
  }

  /** Normalising a normalised record changes nothing. */
  lemma NormalizeIdempotent(d: Fields)
    ensures Normalize(Normalize(d)) == Normalize(d)
  {
    var r := Normalize(d);
    var c := NormalizedSplit(r);
    CopyExtrasSkipsPrefix(c, r, IsAliasKey, 7);
    CopyExtrasFresh(c, r[7..], IsAliasKey);
  }

  /** The canonical prefix of a normalised record is what normalisation would
      rebuild from it, and no later key collides with it. */
  lemma NormalizedSplit(r: Fields) returns (c: Fields)
    requires |r| >= 7 && DistinctKeys(r)
    requires forall m | 0 <= m < 7 :: r[m].0 == CanonicalKeys[m]
    requires forall m | 7 <= m < |r| :: !IsAliasKey(r[m].0)
    ensures c == CanonicalEntries(r) && r == c + r[7..]
    ensures forall i | 0 <= i < 7 :: IsAliasKey(r[i].0)
    ensures DistinctKeys(r[7..])
    ensures forall i | 0 <= i < |r[7..]| :: !IsAliasKey(r[7..][i].0) && !HasKey(c, r[7..][i].0)
  {
    c := CanonicalEntries(r);
    forall i | 0 <= i < 7 ensures c[i] == r[i] && IsAliasKey(r[i].0) {
      CanonicalFound(r, i);
      CanonicalIsAlias(CanonicalKeys[i]);
    }
    assert c == r[..7];
    var extras := r[7..];
    assert forall j | 0 <= j < |extras| :: extras[j] == r[7 + j];
  }

  /** In a normalised record the canonical entry is the only one whose key
      lowercases to that canonical key, so it is the value normalisation reads. */
  lemma CanonicalFound(r: Fields, i: nat)
    requires i < 7 && |r| >= 7
    requires forall m | 0 <= m < 7 :: r[m].0 == CanonicalKeys[m]
    requires forall m | 7 <= m < |r| :: !IsAliasKey(r[m].0)
    ensures CanonicalEntries(r)[i] == r[i]
  {
    TableFacts();
    var names := FieldMappings[i].1;
    assert Text.Lower(r[i].0) == names[0];
    forall j | i < j < |r| ensures Text.Lower(r[j].0) != names[0] {
      if j < 7 {
        assert Text.Lower(r[j].0) == CanonicalKeys[j];
      }
    }
    var found := LowerGet(r, names[0]);
    var w :| 0 <= w < |r| && Text.Lower(r[w].0) == names[0] && r[w].1 == found.value
      && forall j | w < j < |r| :: Text.Lower(r[j].0) != names[0];
    if w < 7 {
      assert Text.Lower(r[w].0) == CanonicalKeys[w];
    }
  }

  lemma {:induction false} CopyExtrasSkipsPrefix(acc: Fields, rest: Fields, known: string -> bool, n: nat)
    requires n <= |rest|
    requires forall i | 0 <= i < n :: known(rest[i].0)
    ensures CopyExtras(acc, rest, known) == CopyExtras(acc, rest[n..], known)
    decreases n
  {
    if n > 0 {
      assert rest[1..][n - 1..] == rest[n..];
      assert forall i | 0 <= i < n - 1 :: rest[1..][i] == rest[i + 1];
      CopyExtrasSkipsPrefix(acc, rest[1..], known, n - 1);
    }
  }

  /** Entries with fresh, distinct, unknown keys are appended as they are. */
  lemma {:induction false} CopyExtrasFresh(acc: Fields, rest: Fields, known: string -> bool)
    requires DistinctKeys(rest)
    requires forall i | 0 <= i < |rest| :: !known(rest[i].0)
    requires forall i | 0 <= i < |rest| :: !HasKey(acc, rest[i].0)
    ensures CopyExtras(acc, rest, known) == acc + rest
    decreases |rest|
  {
    if rest != [] {
      CopyFreshStep(acc, rest, known);
      FreshTail(acc, rest);
      CopyExtrasFresh(acc + [rest[0]], rest[1..], known);
    }
  }

  /** One step of copying a fresh unknown entry: it is appended. */
  lemma CopyFreshStep(acc: Fields, rest: Fields, known: string -> bool)
    requires |rest| > 0 && !known(rest[0].0) && !HasKey(acc, rest[0].0)
    ensures CopyExtras(acc, rest, known) == CopyExtras(acc + [rest[0]], rest[1..], known)
    ensures (acc + [rest[0]]) + rest[1..] == acc + rest
  {
    var p := Put(acc, rest[0].0, rest[0].1);
    assert p == acc + [rest[0]];
    assert CopyExtras(acc, rest, known) == CopyExtras(p, rest[1..], known);
    ConsShift(acc, rest);
  }

  /** Moving the first fresh entry onto the accumulator keeps the rest fresh. */
  lemma FreshTail(acc: Fields, rest: Fields)
    requires |rest| > 0 && DistinctKeys(rest)
    requires forall i | 0 <= i < |rest| :: !HasKey(acc, rest[i].0)
    ensures DistinctKeys(rest[1..])
    ensures forall i | 0 <= i < |rest| - 1 :: !HasKey(acc + [rest[0]], rest[1..][i].0)
  {
    forall i | 0 <= i < |rest| - 1 ensures !HasKey(acc + [rest[0]], rest[1..][i].0) {
      var y := rest[i + 1].0;
      assert rest[1..][i].0 == y;
      assert y != rest[0].0;
      assert !HasKey(acc, y);
      if HasKey(acc + [rest[0]], y) {
        assert false;
      }
    }
  }

  // ---------------------------------------------------------------------------
  // Validation

  /** `_validate_extracted_data`: each optional field that is missing is added
      as null; required fields are only reported. */
  function Validate(d: Fields): (r: Fields)
    ensures |r| >= |d| && r[..|d|] == d
    ensures forall k :: HasKey(r, k) <==> HasKey(d, k) || k in OptionalFields
    ensures forall k | HasKey(d, k) :: Get(r, k) == Get(d, k)
    ensures forall k | k in OptionalFields && !HasKey(d, k) :: Get(r, k) == Some(Null)
    ensures DistinctKeys(d) ==> DistinctKeys(r)
  {
    AddMissing(d, OptionalFields)
  }

  function AddMissing(d: Fields, fields: seq<string>): (r: Fields)
    ensures |r| >= |d| && r[..|d|] == d
    ensures forall k :: HasKey(r, k) <==> HasKey(d, k) || k in fields
    ensures forall k | HasKey(d, k) :: Get(r, k) == Get(d, k)
    ensures forall k | k in fields && !HasKey(d, k) :: Get(r, k) == Some(Null)
    ensures DistinctKeys(d) ==> DistinctKeys(r)
    decreases |fields|
  {
    if fields == [] then d
    else
      var f := fields[0];
      var d' := if HasKey(d, f) then d else Put(d, f, Null);
      var r := AddMissing(d', fields[1..]);
      assert forall k :: k in fields <==> k == f || k in fields[1..];
      assert r[..|d|] == r[..|d'|][..|d|];
      r
  }

  /** A normalised record already holds every optional field, so validation
      returns it unchanged. */
  lemma ValidateNormalized(d: Fields)
    ensures Validate(Normalize(d)) == Normalize(d)
  {
    var r := Normalize(d);
    NoMissing(r, OptionalFields);
  }

  lemma {:induction false} NoMissing(d: Fields, fields: seq<string>)
    requires forall k | k in fields :: HasKey(d, k)
    ensures AddMissing(d, fields) == d
    decreases |fields|
  {
    if fields != [] {
      NoMissing(d, fields[1..]);
    }
  }
}

=== FILE: numerals.dfy ===
/** Decimal text of numbers: Python's `str(int)`, `int(str)` and the shape of
    the literals `float(str)` accepts. Floating-point values themselves are kept
    as the literal text they were read from. */
module Numerals {
  import opened Wrappers
  import Text

  function DigitChar(d: nat): (c: char)
    requires d < 10
    ensures Text.IsDigit(c) && c as int - '0' as int == d
  {
    ('0' as int + d) as char
  }

  function DigitValue(c: char): (d: nat)
    requires Text.IsDigit(c)
    ensures d < 10
  {
    c as int - '0' as int
  }

  predicate AllDigits(s: string) {
    forall i | 0 <= i < |s| :: Text.IsDigit(s[i])
  }

  /** Decimal digits of `n`, most significant first, without leading zeros. */
  function NatToString(n: nat): (r: string)
    ensures |r| > 0 && AllDigits(r)
    ensures |r| > 1 ==> r[0] != '0'
  {
    if n < 10 then [DigitChar(n)] else NatToString(n / 10) + [DigitChar(n % 10)]
  }

  /** The number a string of decimal digits denotes. */
  function DigitsValue(s: string): nat
    requires AllDigits(s)
  {
    if s == [] then 0 else DigitsValue(s[..|s| - 1]) * 10 + DigitValue(s[|s| - 1])
  }

  /** `str(n)` for a Python int. */
  function IntToString(n: int): (r: string)
    ensures |r| > 0
    ensures forall i | 0 <= i < |r| :: Text.IsDigit(r[i]) || (i == 0 && r[i] == '-')
    ensures '.' !in r
  {
    if n < 0 then "-" + NatToString(-n) else NatToString(n)
  }

  /** `int(s)`: an optional sign followed by at least one decimal digit;
      `None` where Python raises ValueError. */
  function ParseInt(s: string): (r: Option<int>)
    ensures r.Some? ==> |s| > 0
  {
    if |s| > 0 && (s[0] == '-' || s[0] == '+') then
      var body := s[1..];
      if |body| > 0 && AllDigits(body) then
        Some(if s[0] == '-' then -(DigitsValue(body) as int) else DigitsValue(body))
      else None
    else if |s| > 0 && AllDigits(s) then Some(DigitsValue(s))
    else None
  }

  lemma {:induction false} NatToStringValue(n: nat)
    ensures DigitsValue(NatToString(n)) == n
  {
    if n >= 10 {
      var r := NatToString(n);
      assert r[..|r| - 1] == NatToString(n / 10);
      NatToStringValue(n / 10);
    }
  }

  /** Reading back the decimal text of an int gives the int. */
  lemma IntToStringRoundTrip(n: int)
    ensures ParseInt(IntToString(n)) == Some(n)
  {
    if n < 0 {
      NatToStringValue(-n);
      assert IntToString(n)[1..] == NatToString(-n);
    } else {
      NatToStringValue(n);
    }
  }

  /** The end of the run of digits that starts at `i`. */
  function DigitRunEnd(s: string, i: nat): (k: nat)
    requires i <= |s|
    ensures i <= k <= |s|
    ensures forall j | i <= j < k :: Text.IsDigit(s[j])
    ensures k < |s| ==> !Text.IsDigit(s[k])
    decreases |s| - i
  {
    if i < |s| && Text.IsDigit(s[i]) then DigitRunEnd(s, i + 1) else i
  }

  /** From `k` on, `s` is either empty or an exponent `e`/`E`, optional sign, digits. */
  predicate ExponentOrEnd(s: string, k: nat)
    requires k <= |s|
  {
    k == |s| ||
    ((s[k] == 'e' || s[k] == 'E') &&
     var m := if k + 1 < |s| && (s[k + 1] == '+' || s[k + 1] == '-') then k + 2 else k + 1;
     var n := DigitRunEnd(s, m);
     n > m && n == |s|)
  }

  /** A literal `float(s)` accepts: optional sign, a mantissa `D+`, `D+.D*` or
      `.D+`, and an optional exponent. */
  predicate IsFloatLiteral(s: string) {
    var i := if |s| > 0 && (s[0] == '+' || s[0] == '-') then 1 else 0;
    var j := DigitRunEnd(s, i);
    if j < |s| && s[j] == '.' then
      var k := DigitRunEnd(s, j + 1);
      (j > i || k > j + 1) && ExponentOrEnd(s, k)
    else
      j > i && ExponentOrEnd(s, j)
  }

  /** The index of the exponent marker, or `|s|` when there is none. */
  function MantissaEnd(s: string, i: nat): (k: nat)
    requires i <= |s|
    ensures i <= k <= |s|
    decreases |s| - i
  {
    if i == |s| || s[i] == 'e' || s[i] == 'E' then i else MantissaEnd(s, i + 1)
  }

  /** The literal denotes zero: no non-zero digit before the exponent. */
  predicate FloatIsZero(s: string) {
    var m := MantissaEnd(s, 0);
    forall i | 0 <= i < m :: !('1' <= s[i] <= '9')
  }
}

=== FILE: object_key.dfy ===
/** Turning the object key of a storage event into a local file name:
    `urllib.parse.unquote_plus` (percent-decoding as in section 2.1 of RFC 3986,
    with `+` read as a space as in application/x-www-form-urlencoded), then
    `pathlib.Path(key).name`. */
module ObjectKey {
  import Text

  type Byte = b: int | 0 <= b < 256

  predicate IsHexDigit(c: char) {
    ('0' <= c <= '9') || ('a' <= c <= 'f') || ('A' <= c <= 'F')
  }

  function HexValue(c: char): (v: nat)
    requires IsHexDigit(c)
    ensures v < 16
  {
    if '0' <= c <= '9' then c as int - '0' as int
    else if 'a' <= c <= 'f' then c as int - 'a' as int + 10
    else c as int - 'A' as int + 10
  }

  /** `%XX` with two hexadecimal digits, either case, starts `s`. */
  predicate EscapeAt(s: string) {
    |s| >= 3 && s[0] == '%' && IsHexDigit(s[1]) && IsHexDigit(s[2])
  }

  function EscapeByte(s: string): Byte
    requires EscapeAt(s)
  {
    HexValue(s[1]) * 16 + HexValue(s[2])
  }

  /** The bytes of the escapes at the start of `s` that encode bytes 0x80 and
      above, and what follows them. */
  function HighEscapes(s: string): (r: (seq<Byte>, string))
    ensures |r.1| <= |s|
    ensures |r.0| > 0 ==> |r.1| < |s|
    ensures forall i | 0 <= i < |r.0| :: r.0[i] >= 0x80
    decreases |s|
  {
    if EscapeAt(s) && EscapeByte(s) >= 0x80 then
      var (bytes, rest) := HighEscapes(s[3..]);
      ([EscapeByte(s)] + bytes, rest)
    else ([], s)
  }

  /** `unquote`: escapes become bytes, which are read as UTF-8 with invalid
      sequences replaced. An ASCII byte decodes to itself and always ends any
      pending multi-byte sequence, so the decoding splits into single ASCII
      characters and maximal runs of bytes 0x80 and above; `decodeHigh` is
      the UTF-8 decoder on such a run. Every other character, including a `%`
      not followed by two hexadecimal digits, is kept. */
  function Unquote(s: string, decodeHigh: seq<Byte> -> string): string
    decreases |s|
  {
    if s == [] then []
    else if EscapeAt(s) && EscapeByte(s) < 0x80 then [EscapeByte(s) as char] + Unquote(s[3..], decodeHigh)
    else if EscapeAt(s) then
      var (bytes, rest) := HighEscapes(s);
      decodeHigh(bytes) + Unquote(rest, decodeHigh)
    else [s[0]] + Unquote(s[1..], decodeHigh)
  }

  /** `unquote_plus`: `+` becomes a space first, so an escaped `%2B` stays a plus. */
  function UnquotePlus(s: string, decodeHigh: seq<Byte> -> string): string {
    Unquote(Text.Replace(s, '+', ' '), decodeHigh)
  }

  /** A key with neither `%` nor `+` is its own decoding. */
  lemma {:induction false} UnquotePlain(s: string, decodeHigh: seq<Byte> -> string)
    requires '%' !in s && '+' !in s
    ensures UnquotePlus(s, decodeHigh) == s
  {
    assert Text.Replace(s, '+', ' ') == s;
    UnquoteNoPercent(s, decodeHigh);
  }

  lemma {:induction false} UnquoteNoPercent(s: string, decodeHigh: seq<Byte> -> string)
    requires '%' !in s
    ensures Unquote(s, decodeHigh) == s
    decreases |s|
  {
    if s != [] {
      assert s[0] != '%';
      assert '%' !in s[1..];
      UnquoteNoPercent(s[1..], decodeHigh);
    }
  }

  // ---------------------------------------------------------------------------
  // The encoding side: how an ASCII key arrives in the event

  function HexDigitChar(n: nat): (c: char)
    requires n < 16
    ensures IsHexDigit(c) && HexValue(c) == n
  {
    if n < 10 then ('0' as int + n) as char else ('A' as int + n - 10) as char
  }

  predicate Unreserved(c: char) {
    ('A' <= c <= 'Z') || ('a' <= c <= 'z') || ('0' <= c <= '9') || c == '-' || c == '.' || c == '_' || c == '~'
  }

  predicate IsAscii(s: string) {
    forall i | 0 <= i < |s| :: s[i] < '\U{80}'
  }

  /** form-urlencoding of one ASCII character: a space is `+`, an unreserved
      character stays, anything else is `%XX`. */
  function QuotePlusChar(c: char): (r: string)
    requires c < '\U{80}'
  {
    if c == ' ' then "+"
    else if Unreserved(c) then [c]
    else "%" + [HexDigitChar(c as int / 16), HexDigitChar(c as int % 16)]
  }

  function QuotePlus(s: string): string
    requires IsAscii(s)
    decreases |s|
  {
    if s == [] then [] else QuotePlusChar(s[0]) + QuotePlus(s[1..])
  }

  /** Decoding undoes form-urlencoding of any ASCII key, whatever the UTF-8
      decoder does on non-ASCII bytes. */
  lemma {:induction false} UnquotePlusRoundTrip(s: string, decodeHigh: seq<Byte> -> string)
    requires IsAscii(s)
    ensures UnquotePlus(QuotePlus(s), decodeHigh) == s
    decreases |s|
  {
    if s != [] {
      var piece := QuotePlusChar(s[0]);
      var rest := QuotePlus(s[1..]);
      assert QuotePlus(s) == piece + rest;
      Text.ReplaceAppend(piece, rest, '+', ' ');
      UnquoteChar(s[0], Text.Replace(rest, '+', ' '), decodeHigh);
      UnquotePlusRoundTrip(s[1..], decodeHigh);
      assert s == [s[0]] + s[1..];
    }
  }

  lemma UnquoteChar(c: char, rest: string, decodeHigh: seq<Byte> -> string)
    requires c < '\U{80}'
    ensures Unquote(Text.Replace(QuotePlusChar(c), '+', ' ') + rest, decodeHigh) == [c] + Unquote(rest, decodeHigh)
  {
    var t := Text.Replace(QuotePlusChar(c), '+', ' ') + rest;
    if c == ' ' {
      assert t == [' '] + rest;
      assert t[1..] == rest;
    } else if Unreserved(c) {
      assert t == [c] + rest;
      assert t[1..] == rest;
    } else {
      var hi := HexDigitChar(c as int / 16);
      var lo := HexDigitChar(c as int % 16);
      assert t == ['%', hi, lo] + rest;
      assert EscapeAt(t) && EscapeByte(t) == c as int;
      assert t[3..] == rest;
    }
  }

  // ---------------------------------------------------------------------------
  // Path(key).name

  /** One past the last `/` before `j`, or 0. */
  function AfterLastSlash(s: string, j: nat): (i: nat)
    requires j <= |s|
    ensures i <= j
    ensures i > 0 ==> s[i - 1] == '/'
    ensures forall m | i <= m < j :: s[m] != '/'
  {
    if j == 0 || s[j - 1] == '/' then j else AfterLastSlash(s, j - 1)
  }

  lemma {:induction false} AfterLastSlashIs(s: string, j: nat, k: nat)
    requires k <= j <= |s|
    requires k == 0 || s[k - 1] == '/'
    requires forall m | k <= m < j :: s[m] != '/'
    ensures AfterLastSlash(s, j) == k
    decreases j
  {
    if j > k {
      AfterLastSlashIs(s, j - 1, k);
    }
  }

  /** `PurePosixPath(key).name`: the last component that is neither empty nor
      `.`; the empty string when there is none. */
  function FileName(key: string): (name: string)
    ensures '/' !in name && name != "."
    ensures name == [] || Text.Contains(key, name)
    decreases |key|
  {
    var i := AfterLastSlash(key, |key|);
    var last := key[i..];
    if last != [] && last != "." then
      assert Text.OccursAt(key, last, i);
      last
    else if i == 0 then []
    else
      var name := FileName(key[..i - 1]);
      if name == [] then name
      else Text.ContainsSlice(key, 0, i - 1, name); name
  }

  /** The file name of `dir/name` is `name`, for a directory part of any shape. */
  lemma FileNameOfPath(dir: string, name: string)
    requires '/' !in name && name != [] && name != "."
    ensures FileName(dir + "/" + name) == name
  {
    var key := dir + "/" + name;
    assert forall m | |dir| + 1 <= m < |key| :: key[m] == name[m - |dir| - 1];
    AfterLastSlashIs(key, |key|, |dir| + 1);
    assert key[|dir| + 1..] == name;
  }

  /** A plain name is its own file name. */
  lemma FileNameOfName(name: string)
    requires '/' !in name && name != [] && name != "."
    ensures FileName(name) == name
  {
    AfterLastSlashIs(name, |name|, 0);
  }

  /** The download target, `f"/tmp/{filename}"`. */
  function LocalPath(filename: string): (path: string)
    ensures Text.StartsWith(path, "/tmp/")
  {
    "/tmp/" + filename
  }

  /** The download target always lies directly in `/tmp`: its own file name is
      the one it was made from. */
  lemma LocalPathName(key: string)
    requires FileName(key) != []
    ensures FileName(LocalPath(FileName(key))) == FileName(key)
  {
    FileNameOfPath("/tmp", FileName(key));
    assert LocalPath(FileName(key)) == "/tmp" + "/" + FileName(key);
  }
}

=== FILE: recovery.dfy ===
/** Structured recovery (`_extract_json_from_response`): the JSON object hidden
    in a model's free-form answer. Three candidate texts are tried in order —
    every fenced block, the whole trimmed answer, the greedy `{...}` span — and
    the first that `json.loads` turns into an object wins. */
module Recovery {
  import opened Wrappers
  import opened Json
  import Text

  predicate IsObject(v: Option<Value>) {
    v.Some? && v.value.Obj?
  }

  // ---------------------------------------------------------------------------
  // Fenced blocks: the pattern ```(?:json)?\s*(\{.*?\})\s*``` under DOTALL

  predicate FenceAt(s: string, k: int) {
    Text.OccursAt(s, "```", k)
  }

  /** Where the captured group must begin after an opening fence at `i`: past
      an optional `json` tag, then past whitespace. Without the tag the group
      would have to start at the `j` of `json`, so the tag is never given back. */
  function GroupStart(s: string, i: nat): (b: nat)
    requires i + 3 <= |s|
    ensures i + 3 <= b <= |s|
  {
    var j := if Text.OccursAt(s, "json", i + 3) then i + 7 else i + 3;
    Text.SkipSpaces(s, j)
  }

  /** A `}` at `e` can end the group: optional whitespace, then a closing fence. */
  predicate ClosesAt(s: string, e: nat)
    requires e < |s|
  {
    s[e] == '}' && FenceAt(s, Text.SkipSpaces(s, e + 1))
  }

  /** The lazy `.*?\}`: the first `}` at or after `from` that closes a block. */
  function FirstClose(s: string, from: nat): (r: Option<nat>)
    requires from <= |s|
    ensures r.Some? ==> from <= r.value < |s| && ClosesAt(s, r.value)
    ensures r.Some? ==> forall e | from <= e < r.value :: !ClosesAt(s, e)
    ensures r.None? ==> forall e | from <= e < |s| :: !ClosesAt(s, e)
    decreases |s| - from
  {
    if from == |s| then None
    else if ClosesAt(s, from) then Some(from)
    else FirstClose(s, from + 1)
  }

  /** One match of the fenced-block pattern: the group is `s[start..end]` and
      the search for the next match resumes at `next`. */
  datatype Block = Block(start: nat, end: nat, next: nat)

  /** The match of the fenced-block pattern that begins at `i`, if any. */
  function BlockAt(s: string, i: nat): (r: Option<Block>)
    ensures r.Some? ==> FenceAt(s, i)
    ensures r.Some? ==> i + 3 <= r.value.start < r.value.end <= r.value.next <= |s|
    ensures r.Some? ==> s[r.value.start] == '{' && s[r.value.end - 1] == '}'
    ensures r.Some? ==> r.value.start == GroupStart(s, i)
    ensures r.Some? ==> ClosesAt(s, r.value.end - 1)
    ensures r.Some? ==> forall e | r.value.start < e < r.value.end - 1 :: !ClosesAt(s, e)
  {
    if !FenceAt(s, i) then None
    else
      var b := GroupStart(s, i);
      if b < |s| && s[b] == '{' then
        match FirstClose(s, b + 1)
        case None => None
        case Some(e) => Some(Block(b, e + 1, Text.SkipSpaces(s, e + 1) + 3))
      else None
  }

  /** `re.findall` of the fenced-block pattern from position `i`: the groups of
      the successive non-overlapping matches, left to right. */
  function FencedBlocks(s: string, i: nat): (blocks: seq<string>)
    requires i <= |s|
    ensures forall k | 0 <= k < |blocks| ::
      |blocks[k]| >= 2 && blocks[k][0] == '{' && blocks[k][|blocks[k]| - 1] == '}'
    ensures forall k | 0 <= k < |blocks| :: Text.Contains(s, blocks[k])
    decreases |s| - i
  {
    if i == |s| then []
    else match BlockAt(s, i)
      case None => FencedBlocks(s, i + 1)
      case Some(bl) =>
        var block := s[bl.start..bl.end];
        assert Text.OccursAt(s, block, bl.start);
        [block] + FencedBlocks(s, bl.next)
  }

  // ---------------------------------------------------------------------------
  // The greedy span: the pattern \{.*\} under DOTALL

  function FirstIndex(s: string, c: char, i: nat): (k: nat)
    requires i <= |s|
    ensures i <= k <= |s|
    ensures k < |s| ==> s[k] == c
    ensures forall j | i <= j < k :: s[j] != c
    decreases |s| - i
  {
    if i == |s| || s[i] == c then i else FirstIndex(s, c, i + 1)
  }

  /** One past the last index below `j` holding `c`, or 0. */
  function LastIndexEnd(s: string, c: char, j: nat): (k: nat)
    requires j <= |s|
    ensures k <= j
    ensures k > 0 ==> s[k - 1] == c
    ensures forall m | k <= m < j :: s[m] != c
  {
    if j == 0 || s[j - 1] == c then j else LastIndexEnd(s, c, j - 1)
  }

  /** `re.search(r'\{.*\}', s, re.DOTALL)`: from the first `{` to the last `}`. */
  function GreedySpan(s: string): (r: Option<string>)
    ensures r.Some? <==> exists a, z | 0 <= a < z < |s| :: s[a] == '{' && s[z] == '}'
    ensures r.Some? ==> exists a, z | 0 <= a < z < |s| ::
      && s[a] == '{' && s[z] == '}'
      && r.value == s[a..z + 1]
      && (forall j | 0 <= j < a :: s[j] != '{')
      && (forall j | z < j < |s| :: s[j] != '}')
  {
    var a := FirstIndex(s, '{', 0);
    var z := LastIndexEnd(s, '}', |s|);
    if a < |s| && 0 < z && a < z - 1 then
      assert s[a] == '{' && s[z - 1] == '}' && s[a..z] == s[a..(z - 1) + 1];
      Some(s[a..z])
    else
      assert forall a', z' | 0 <= a' < z' < |s| && s[a'] == '{' :: s[z'] != '}' by {
        forall a', z' | 0 <= a' < z' < |s| && s[a'] == '{'
          ensures s[z'] != '}'
        {
          assert a <= a';
        }
      }
      None
  }

  // ---------------------------------------------------------------------------
  // The ordered strategies

  /** The first candidate, in order, that `loads` turns into an object. */
  function FirstObject(candidates: seq<string>, loads: string -> Option<Value>): (r: Option<Fields>)
    ensures r.Some? <==> exists i | 0 <= i < |candidates| :: IsObject(loads(candidates[i]))
    ensures r.Some? ==> exists i | 0 <= i < |candidates| ::
      && loads(candidates[i]) == Some(Obj(r.value))
      && forall j | 0 <= j < i :: !IsObject(loads(candidates[j]))
  {
    if candidates == [] then None
    else if IsObject(loads(candidates[0])) then Some(loads(candidates[0]).value.fields)
    else
      var r := FirstObject(candidates[1..], loads);
      FirstObjectShift(candidates, loads, r);
      r
  }

  /** What the tail's search found, re-indexed for the whole list whose head
      did not parse to an object. */
  lemma FirstObjectShift(candidates: seq<string>, loads: string -> Option<Value>, r: Option<Fields>)
    requires candidates != [] && !IsObject(loads(candidates[0]))
    requires var tail := candidates[1..];
      && (r.Some? <==> exists i | 0 <= i < |tail| :: IsObject(loads(tail[i])))
      && (r.Some? ==> exists i | 0 <= i < |tail| ::
            loads(tail[i]) == Some(Obj(r.value)) && forall j | 0 <= j < i :: !IsObject(loads(tail[j])))
    ensures r.Some? <==> exists i | 0 <= i < |candidates| :: IsObject(loads(candidates[i]))
    ensures r.Some? ==> exists i | 0 <= i < |candidates| ::
      && loads(candidates[i]) == Some(Obj(r.value))
      && forall j | 0 <= j < i :: !IsObject(loads(candidates[j]))
  {
    var tail := candidates[1..];
    if r.Some? {
      var i :| 0 <= i < |tail| && loads(tail[i]) == Some(Obj(r.value))
        && forall j | 0 <= j < i :: !IsObject(loads(tail[j]));
      assert loads(candidates[i + 1]) == Some(Obj(r.value));
      forall j | 0 <= j < i + 1 ensures !IsObject(loads(candidates[j])) {
        if j > 0 { assert candidates[j] == tail[j - 1]; }
      }
    } else {
      forall i | 0 <= i < |candidates| ensures !IsObject(loads(candidates[i])) {
        if i > 0 { assert candidates[i] == tail[i - 1]; }
      }
    }
  }

  /** `_extract_json_from_response`, strategy by strategy: the first fenced
      block that parses to an object; else the whole trimmed text if it does;
      else the greedy span if it does; else nothing. Parse errors and non-object
      JSON only move on to the next strategy. */
  function ExtractJson(text: string, loads: string -> Option<Value>): (r: Option<Fields>)
    ensures var cleaned := Text.Strip(text);
      var blocks := FencedBlocks(cleaned, 0);
      && ((exists i | 0 <= i < |blocks| :: IsObject(loads(blocks[i]))) ==>
            r == FirstObject(blocks, loads) && r.Some?)
      && ((forall i | 0 <= i < |blocks| :: !IsObject(loads(blocks[i]))) && IsObject(loads(cleaned)) ==>
            r == Some(loads(cleaned).value.fields))
      && ((forall i | 0 <= i < |blocks| :: !IsObject(loads(blocks[i]))) && !IsObject(loads(cleaned)) ==>
            r == (var span := GreedySpan(cleaned);
                  if span.Some? && IsObject(loads(span.value)) then Some(loads(span.value).value.fields) else None))
  {
    var cleaned := Text.Strip(text);
    match FirstObject(FencedBlocks(cleaned, 0), loads)
    case Some(o) => Some(o)
    case None =>
      if IsObject(loads(cleaned)) then Some(loads(cleaned).value.fields)
      else match GreedySpan(cleaned)
        case Some(span) => if IsObject(loads(span)) then Some(loads(span).value.fields) else None
        case None => None
  }

  /** The candidate list of the three strategies, in the order they are tried. */
  function Candidates(cleaned: string): seq<string> {
    FencedBlocks(cleaned, 0) + [cleaned] + (match GreedySpan(cleaned) case Some(span) => [span] case None => [])
  }

  /** The staged recovery is "first candidate that parses to an object" over
      the ordered candidate list, so a result always comes from a candidate. */
  lemma ExtractJsonIsFirstCandidate(text: string, loads: string -> Option<Value>)
    ensures ExtractJson(text, loads) == FirstObject(Candidates(Text.Strip(text)), loads)
  {
    var cleaned := Text.Strip(text);
    var blocks := FencedBlocks(cleaned, 0);
    var rest := [cleaned] + (match GreedySpan(cleaned) case Some(span) => [span] case None => []);
    assert Candidates(cleaned) == blocks + rest;
    FirstObjectAppend(blocks, rest, loads);
  }

  lemma {:induction false} FirstObjectAppend(xs: seq<string>, ys: seq<string>, loads: string -> Option<Value>)
    ensures FirstObject(xs + ys, loads) ==
      (if FirstObject(xs, loads).Some? then FirstObject(xs, loads) else FirstObject(ys, loads))
  {
    if xs != [] {
      assert (xs + ys)[0] == xs[0];
      assert (xs + ys)[1..] == xs[1..] + ys;
      FirstObjectAppend(xs[1..], ys, loads);
    } else {
      assert xs + ys == ys;
    }
  }
}

=== FILE: s3_event.dfy ===
/** `process_s3_event`: the storage event names a bucket and an object key;
    the object is downloaded under `/tmp`, its invoice extracted and saved,
    and the outcome is wrapped in a response whose status says whether any
    step raised. */
module S3Event {
  import opened Wrappers
  import opened Exceptions
  import opened Json
  import ObjectKey
  import InvoiceExtractor
  import InvoiceStore
  import ModelAdapter
  import Extraction
  import Normalizer

  // ---------------------------------------------------------------------------
  // Reading the event

  /** `v[k]` on a value decoded from JSON. */
  function Index(v: Value, k: string): (r: Result<Value, Exception>)
    ensures v.Obj? && HasKey(v.fields, k) ==> r == Success(Get(v.fields, k).value)
    ensures v.Obj? && !HasKey(v.fields, k) ==> r == Failure(KeyError("'" + k + "'"))
    ensures !v.Obj? ==> r.Failure? && r.error.TypeError?
  {
    match v
    case Obj(d) => if HasKey(d, k) then Success(Get(d, k).value) else Failure(KeyError("'" + k + "'"))
    case Str(_) => Failure(TypeError("string indices must be integers, not 'str'"))
    case Arr(_) => Failure(TypeError("list indices must be integers or slices, not str"))
    case _ => Failure(TypeError("'" + TypeName(v) + "' object is not subscriptable"))
  }

  /** `v[0]` on a value decoded from JSON. A dict decoded from JSON has only
      string keys, so `0` is never one of them. */
  function First(v: Value): (r: Result<Value, Exception>)
    ensures v.Arr? && v.items != [] ==> r == Success(v.items[0])
    ensures v.Arr? && v.items == [] ==> r == Failure(IndexError("list index out of range"))
    ensures !v.Arr? && !v.Str? ==> r.Failure?
  {
    match v
    case Arr(items) => if items != [] then Success(items[0]) else Failure(IndexError("list index out of range"))
    case Str(s) => if s != [] then Success(Str([s[0]])) else Failure(IndexError("string index out of range"))
    case Obj(_) => Failure(KeyError("0"))
    case _ => Failure(TypeError("'" + TypeName(v) + "' object is not subscriptable"))
  }

  /** Where the object lives: the bucket as the event gives it and the
      decoded key. */
  datatype Location = Location(bucket: Value, key: string)

  /** `event["Records"][0]["s3"]`, then the bucket name and the decoded
      object key. `unquote_plus` of a value that is not a string fails on
      its first `replace`. */
  function ReadEvent(event: Value, decodeHigh: seq<ObjectKey.Byte> -> string): (r: Result<Location, Exception>)
  {
    var records :- Index(event, "Records");
    var first :- First(records);
    var s3 :- Index(first, "s3");
    var bucketEntry :- Index(s3, "bucket");
    var bucket :- Index(bucketEntry, "name");
    var objectEntry :- Index(s3, "object");
    var key :- Index(objectEntry, "key");
    if key.Str? then Success(Location(bucket, ObjectKey.UnquotePlus(key.s, decodeHigh)))
    else Failure(AttributeError("'" + TypeName(key) + "' object has no attribute 'replace'"))
  }

  /** The event the storage service sends for one object. */
  function Notification(bucket: string, encodedKey: string): Value {
    Obj([("Records", Arr([Obj([("s3", Obj([
      ("bucket", Obj([("name", Str(bucket))])),
      ("object", Obj([("key", Str(encodedKey))]))]))])]))])
  }

  /** The event for an ASCII key, form-urlencoded as the service sends it,
      reads back as that bucket and key. */
  lemma ReadNotification(bucket: string, key: string, decodeHigh: seq<ObjectKey.Byte> -> string)
    requires ObjectKey.IsAscii(key)
    ensures ReadEvent(Notification(bucket, ObjectKey.QuotePlus(key)), decodeHigh) == Success(Location(Str(bucket), key))
  {
    var event := Notification(bucket, ObjectKey.QuotePlus(key));
    var s3 := Obj([
      ("bucket", Obj([("name", Str(bucket))])),
      ("object", Obj([("key", Str(ObjectKey.QuotePlus(key)))]))]);
    var records := Arr([Obj([("s3", s3)])]);
    GetFirst(event.fields, "Records", records);
    assert Index(event, "Records") == Success(records);
    GetFirst(records.items[0].fields, "s3", s3);
    assert Index(records.items[0], "s3") == Success(s3);
    GetFirst(s3.fields, "bucket", Obj([("name", Str(bucket))]));
    GetFirst(s3.fields[1..], "object", Obj([("key", Str(ObjectKey.QuotePlus(key)))]));
    GetSecond(s3.fields, "object", Obj([("key", Str(ObjectKey.QuotePlus(key)))]));
    GetFirst([("name", Str(bucket))], "name", Str(bucket));
    GetFirst([("key", Str(ObjectKey.QuotePlus(key)))], "key", Str(ObjectKey.QuotePlus(key)));
    ObjectKey.UnquotePlusRoundTrip(key, decodeHigh);
  }

  lemma GetFirst(d: Fields, k: string, v: Value)
    requires |d| > 0 && d[0] == (k, v)
    ensures HasKey(d, k) && Get(d, k) == Some(v)
  {
    assert Find(d, k) == Some(0);
  }

  lemma GetSecond(d: Fields, k: string, v: Value)
    requires |d| > 1 && d[0].0 != k && d[1] == (k, v)
    ensures HasKey(d, k) && Get(d, k) == Some(v)
  {
    assert Find(d, k) == Some(1);
  }

  /** An event without records is refused with the missing key. */
  lemma NoRecords(decodeHigh: seq<ObjectKey.Byte> -> string)
    ensures ReadEvent(Obj([]), decodeHigh) == Failure(KeyError("'Records'"))
  {
    assert "'" + "Records" + "'" == "'Records'";
    assert Index(Obj([]), "Records") == Failure(KeyError("'Records'"));
  }

  // ---------------------------------------------------------------------------
  // The pipeline

  /** Everything the handler reaches outside its own code: the UTF-8 decoder
      of `unquote_plus`, the download (the error it raises, if any), the PDF
      text at a local path, the configured model and its settings, the model
      service, the two clocks, the fresh id and the JSON library. */
  datatype World = World(
    decodeHigh: seq<ObjectKey.Byte> -> string,
    download: (Value, string, string) -> Option<Exception>,
    readPdf: string -> Result<string, Exception>,
    modelId: string,
    settings: ModelAdapter.Settings,
    invoke: (string, Fields) -> Result<Fields, Exception>,
    now: string,
    id: string,
    createdAt: string,
    codec: Codec)

  /** `bedrock_client.extract_invoice_data` as the handler calls it. */
  function Extractor(world: World): string -> Result<Fields, Exception> {
    prompt => Extraction.ExtractInvoiceData(world.modelId, world.settings, prompt, world.invoke, world.codec)
  }

  /** The steps of the handler up to the save: the stored id, the record and
      the table after the save. */
  function Process(t: InvoiceExtractor.Template, event: Value, world: World, store: InvoiceStore.Service): (r: Result<(string, Fields, InvoiceStore.Service), Exception>)
    ensures r.Success? ==> ReadEvent(event, world.decodeHigh).Success?
    ensures r.Success? ==>
      var loc := ReadEvent(event, world.decodeHigh).value;
      var filename := ObjectKey.FileName(loc.key);
      var local := ObjectKey.LocalPath(filename);
      && world.download(loc.bucket, loc.key, local).None?
      && InvoiceExtractor.ExtractFromPdf(t, local, filename, world.readPdf(local), Extractor(world), world.now) == Success(r.value.1)
      && InvoiceStore.SaveInvoiceData(store, r.value.1, world.id, world.createdAt, world.codec) == Success((r.value.0, r.value.2))
    ensures ReadEvent(event, world.decodeHigh).Failure? ==> r == Failure(ReadEvent(event, world.decodeHigh).error)
    ensures ReadEvent(event, world.decodeHigh).Success? ==>
      var loc := ReadEvent(event, world.decodeHigh).value;
      var e := world.download(loc.bucket, loc.key, ObjectKey.LocalPath(ObjectKey.FileName(loc.key)));
      e.Some? ==> r == Failure(e.value)
    ensures ReadEvent(event, world.decodeHigh).Success? ==>
      var loc := ReadEvent(event, world.decodeHigh).value;
      var filename := ObjectKey.FileName(loc.key);
      var local := ObjectKey.LocalPath(filename);
      var extracted := InvoiceExtractor.ExtractFromPdf(t, local, filename, world.readPdf(local), Extractor(world), world.now);
      world.download(loc.bucket, loc.key, local).None? ==>
        && (extracted.Failure? ==> r == Failure(extracted.error))
        && (extracted.Success? ==>
              var saved := InvoiceStore.SaveInvoiceData(store, extracted.value, world.id, world.createdAt, world.codec);
              && (saved.Failure? ==> r == Failure(saved.error))
              && (saved.Success? ==> r == Success((world.id, extracted.value, saved.value.1))))
  {
    var loc :- ReadEvent(event, world.decodeHigh);
    var filename := ObjectKey.FileName(loc.key);
    var local := ObjectKey.LocalPath(filename);
    match world.download(loc.bucket, loc.key, local)
    case Some(e) => Failure(e)
    case None =>
      var data :- InvoiceExtractor.ExtractFromPdf(t, local, filename, world.readPdf(local), Extractor(world), world.now);
      var saved :- InvoiceStore.SaveInvoiceData(store, data, world.id, world.createdAt, world.codec);
      Success((saved.0, data, saved.1))
  }

  datatype Response = Response(statusCode: int, body: string)

  const SuccessMessage: string := "Facture traitée avec succès"
  const FailureMessage: string := "Erreur lors du traitement de la facture"

  /** The body of a successful response, before serialisation. */
  function SuccessBody(id: string, data: Fields): Value {
    Obj([("message", Str(SuccessMessage)), ("invoice_id", Str(id)), ("data", Obj(data))])
  }

  /** The body of a failed response, before serialisation. */
  function FailureBody(e: Exception): Value {
    Obj([("error", Str(e.Message())), ("message", Str(FailureMessage))])
  }

  /** `process_s3_event`: every exception becomes a 500 response, so the
      handler itself never raises; the table changes only when the answer
      is 200. */
  function ProcessS3Event(t: InvoiceExtractor.Template, event: Value, world: World, store: InvoiceStore.Service): (r: (Response, InvoiceStore.Service))
    ensures r.0.statusCode == 200 || r.0.statusCode == 500
    ensures r.0.statusCode == 200 <==> Process(t, event, world, store).Success?
    ensures r.0.statusCode == 500 ==>
      && r.1 == store
      && r.0.body == world.codec.dumps(FailureBody(Process(t, event, world, store).error))
    ensures r.0.statusCode == 200 ==>
      var (id, data, after) := Process(t, event, world, store).value;
      && r.1 == after
      && r.0.body == world.codec.dumps(SuccessBody(id, data))
  {
    match Process(t, event, world, store)
    case Success((id, data, after)) => (Response(200, world.codec.dumps(SuccessBody(id, data))), after)
    case Failure(e) => (Response(500, world.codec.dumps(FailureBody(e))), store)
  }

  // ---------------------------------------------------------------------------
  // End to end

  /** The JSON library reads back what it writes for the value `v`. */
  predicate ReadsBack(codec: Codec, v: Value) {
    codec.loads(codec.dumps(v)) == Some(v)
  }

  lemma SuccessBodyFields(id: string, data: Fields)
    ensures Get(SuccessBody(id, data).fields, "invoice_id") == Some(Str(id))
    ensures Get(SuccessBody(id, data).fields, "data") == Some(Obj(data))
  {
    var d := SuccessBody(id, data).fields;
    assert d[0].0 == "message" && d[1].0 == "invoice_id" && d[2].0 == "data";
    assert DistinctKeys(d);
    GetAt(d, 1);
    GetAt(d, 2);
  }

  lemma FailureBodyFields(e: Exception)
    ensures Get(FailureBody(e).fields, "error") == Some(Str(e.Message()))
    ensures Get(FailureBody(e).fields, "message") == Some(Str(FailureMessage))
  {
    var d := FailureBody(e).fields;
    assert d[0].0 == "error" && d[1].0 == "message";
    assert DistinctKeys(d);
    GetAt(d, 0);
    GetAt(d, 1);
  }

  /** A run that gets through stores the record under the generated id. */
  lemma ProcessSaves(t: InvoiceExtractor.Template, event: Value, world: World, store: InvoiceStore.Service)
    requires Process(t, event, world, store).Success?
    ensures var (id, data, after) := Process(t, event, world, store).value;
      && id == world.id
      && InvoiceStore.SaveInvoiceData(store, data, world.id, world.createdAt, world.codec) == Success((world.id, after))
  {
  }

  /** The id a 200 response announces is the generated one, and reading it
      back from the table gives the saved record. */
  lemma AnnouncedIdFindsInvoice(t: InvoiceExtractor.Template, event: Value, world: World, store: InvoiceStore.Service)
    requires ProcessS3Event(t, event, world, store).0.statusCode == 200
    requires var (id, data, _) := Process(t, event, world, store).value; ReadsBack(world.codec, SuccessBody(id, data))
    ensures var (response, after) := ProcessS3Event(t, event, world, store);
      var data := Process(t, event, world, store).value.1;
      var answer := world.codec.loads(response.body);
      && answer.Some? && answer.value.Obj?
      && Get(answer.value.fields, "invoice_id") == Some(Str(world.id))
      && Get(answer.value.fields, "data") == Some(Obj(data))
      && var r := InvoiceStore.GetInvoice(after, world.id, world.codec.loads);
      && r.Success? && r.value.Some?
      && InvoiceStore.SavedRecord(r.value.value, data, world.id, world.createdAt, world.codec, store.numbers, InvoiceStore.ExtractedFields)
  {
    var (id, data, after) := Process(t, event, world, store).value;
    ProcessSaves(t, event, world, store);
    var (response, after') := ProcessS3Event(t, event, world, store);
    assert after' == after && response.body == world.codec.dumps(SuccessBody(id, data));
    SavedAnswer(store, data, world.id, world.createdAt, world.codec, after, response.body);
  }

  /** A success body written for a save reads back with the id, and the id
      finds the saved record. */
  lemma SavedAnswer(store: InvoiceStore.Service, data: Fields, id: string, createdAt: string, codec: Codec,
                    after: InvoiceStore.Service, body: string)
    requires InvoiceStore.SaveInvoiceData(store, data, id, createdAt, codec) == Success((id, after))
    requires body == codec.dumps(SuccessBody(id, data)) && ReadsBack(codec, SuccessBody(id, data))
    ensures var answer := codec.loads(body);
      && answer.Some? && answer.value.Obj?
      && Get(answer.value.fields, "invoice_id") == Some(Str(id))
      && Get(answer.value.fields, "data") == Some(Obj(data))
      && var r := InvoiceStore.GetInvoice(after, id, codec.loads);
      && r.Success? && r.value.Some?
      && InvoiceStore.SavedRecord(r.value.value, data, id, createdAt, codec, store.numbers, InvoiceStore.ExtractedFields)
  {
    SuccessBodyFields(id, data);
    InvoiceStore.SaveThenGet(store, data, id, createdAt, codec);
  }

  /** A 500 response carries the text of the exception that ended the run. */
  lemma FailureNamesError(t: InvoiceExtractor.Template, event: Value, world: World, store: InvoiceStore.Service)
    requires ProcessS3Event(t, event, world, store).0.statusCode == 500
    requires ReadsBack(world.codec, FailureBody(Process(t, event, world, store).error))
    ensures var answer := world.codec.loads(ProcessS3Event(t, event, world, store).0.body);
      && answer.Some? && answer.value.Obj?
      && Get(answer.value.fields, "error") == Some(Str(Process(t, event, world, store).error.Message()))
      && Get(answer.value.fields, "message") == Some(Str(FailureMessage))
  {
    FailureBodyFields(Process(t, event, world, store).error);
  }

  /** An object `dir/name` with an ASCII key is fetched to `/tmp/name`, and
      the record is extracted from that path under that file name. */
  lemma DownloadTarget(t: InvoiceExtractor.Template, bucket: string, dir: string, name: string, world: World, store: InvoiceStore.Service)
    requires ObjectKey.IsAscii(dir + "/" + name)
    requires '/' !in name && name != [] && name != "."
    ensures var event := Notification(bucket, ObjectKey.QuotePlus(dir + "/" + name));
      Process(t, event, world, store).Success? ==>
        && world.download(Str(bucket), dir + "/" + name, "/tmp/" + name).None?
        && InvoiceExtractor.ExtractFromPdf(t, "/tmp/" + name, name, world.readPdf("/tmp/" + name), Extractor(world), world.now)
             == Success(Process(t, event, world, store).value.1)
  {
    ReadNotification(bucket, dir + "/" + name, world.decodeHigh);
    ObjectKey.FileNameOfPath(dir, name);
  }

  /** An event without records ends in a 500 response that names the
      missing key, and the table is untouched. */
  lemma EmptyEventFails(t: InvoiceExtractor.Template, world: World, store: InvoiceStore.Service)
    ensures ProcessS3Event(t, Obj([]), world, store) ==
      (Response(500, world.codec.dumps(FailureBody(KeyError("'Records'")))), store)
  {
    NoRecords(world.decodeHigh);
  }

  /** A record the extraction flow returns holds the canonical keys. */
  lemma CanonicalKeysPresent(answer: Fields)
    requires Extraction.CanonicalRecord(answer)
    ensures forall k | k in Normalizer.CanonicalKeys :: HasKey(answer, k)
  {
    forall k | k in Normalizer.CanonicalKeys ensures HasKey(answer, k) {
      var i :| 0 <= i < 7 && Normalizer.CanonicalKeys[i] == k;
      assert answer[i].0 == k;
    }
  }

  /** The record a run stores holds the seven canonical invoice keys and the
      two metadata keys, whatever the model answered. */
  lemma StoredRecordComplete(t: InvoiceExtractor.Template, event: Value, world: World, store: InvoiceStore.Service)
    requires Process(t, event, world, store).Success?
    ensures var data := Process(t, event, world, store).value.1;
      && (forall k | k in Normalizer.CanonicalKeys :: HasKey(data, k))
      && HasKey(data, "extraction_date") && HasKey(data, "pdf_path")
  {
    var loc := ReadEvent(event, world.decodeHigh).value;
    var filename := ObjectKey.FileName(loc.key);
    var local := ObjectKey.LocalPath(filename);
    ExtractedComplete(t, local, filename, world.readPdf(local), world);
  }

  /** A file extracted through the model yields the canonical keys and the
      metadata. */
  lemma ExtractedComplete(t: InvoiceExtractor.Template, local: string, filename: string,
                          pdfText: Result<string, Exception>, world: World)
    requires InvoiceExtractor.ExtractFromPdf(t, local, filename, pdfText, Extractor(world), world.now).Success?
    ensures var data := InvoiceExtractor.ExtractFromPdf(t, local, filename, pdfText, Extractor(world), world.now).value;
      && (forall k | k in Normalizer.CanonicalKeys :: HasKey(data, k))
      && HasKey(data, "extraction_date") && HasKey(data, "pdf_path")
  {
    var prompt := InvoiceExtractor.PromptFrom(t, pdfText.value, filename);
    var answer := Extractor(world)(prompt).value;
    CanonicalKeysPresent(answer);
    InvoiceExtractor.ExtractFromPdfKeys(t, local, filename, pdfText, Extractor(world), world.now);
  }
}

=== FILE: text.dfy ===
/** Python string primitives the pipeline relies on: `str.isspace`, `str.strip`,
    `str.lower`/`str.upper` and the `in` substring test. */
module Text {

  /** `c.isspace()` in Python 3: the ASCII blanks, the four information
      separators, NEL, NBSP and the Unicode space separators. The regular
      expression class `\s` on `str` patterns matches the same set. */
  predicate IsSpace(c: char) {
    || ('\t' <= c <= '\r')
    || ('\U{1C}' <= c <= ' ')
    || c == '\U{85}' || c == '\U{A0}' || c == '\U{1680}'
    || ('\U{2000}' <= c <= '\U{200A}')
    || c == '\U{2028}' || c == '\U{2029}' || c == '\U{202F}'
    || c == '\U{205F}' || c == '\U{3000}'
  }

  predicate IsDigit(c: char) {
    '0' <= c <= '9'
  }

  predicate AllSpace(s: string) {
    forall i | 0 <= i < |s| :: IsSpace(s[i])
  }

  /** `s[a..b]` is what `s.strip()` keeps: everything outside it is whitespace
      and, unless it is empty, it starts and ends with a non-space. */
  predicate StrippedSlice(s: string, a: int, b: int) {
    && 0 <= a <= b <= |s|
    && (forall j | 0 <= j < a :: IsSpace(s[j]))
    && (forall j | b <= j < |s| :: IsSpace(s[j]))
    && (a < b ==> !IsSpace(s[a]) && !IsSpace(s[b - 1]))
    && (a == b ==> AllSpace(s))
  }

  /** The first index at or after `i` holding a non-space, or `|s|`. */
  function SkipSpaces(s: string, i: nat): (k: nat)
    requires i <= |s|
    ensures i <= k <= |s|
    ensures forall j | i <= j < k :: IsSpace(s[j])
    ensures k < |s| ==> !IsSpace(s[k])
    decreases |s| - i
  {
    if i < |s| && IsSpace(s[i]) then SkipSpaces(s, i + 1) else i
  }

  /** The end of `s[lo..hi]` once its trailing whitespace is dropped. */
  function TrimEnd(s: string, lo: nat, hi: nat): (k: nat)
    requires lo <= hi <= |s|
    ensures lo <= k <= hi
    ensures forall j | k <= j < hi :: IsSpace(s[j])
    ensures k > lo ==> !IsSpace(s[k - 1])
    decreases hi
  {
    if hi > lo && IsSpace(s[hi - 1]) then TrimEnd(s, lo, hi - 1) else hi
  }

  /** `s.strip()`. */
  function Strip(s: string): (r: string)
    ensures exists a, b :: StrippedSlice(s, a, b) && r == s[a..b]
  {
    var a := SkipSpaces(s, 0);
    var b := TrimEnd(s, a, |s|);
    assert StrippedSlice(s, a, b);
    s[a..b]
  }

  /** A non-space character lies inside what `strip()` keeps. */
  lemma NonSpaceInside(s: string, a: int, b: int, k: int)
    requires StrippedSlice(s, a, b) && 0 <= k < |s| && !IsSpace(s[k])
    ensures a <= k < b
  {
  }

  /** The slice `strip()` keeps. */
  lemma StripBounds(s: string) returns (a: nat, b: nat)
    ensures StrippedSlice(s, a, b) && Strip(s) == s[a..b]
  {
    a := SkipSpaces(s, 0);
    b := TrimEnd(s, a, |s|);
  }

  /** The stripped slice is unique, so it is what `strip()` keeps. */
  lemma StripIs(s: string, a: int, b: int)
    requires StrippedSlice(s, a, b)
    ensures Strip(s) == s[a..b]
  {
    var a', b' := StripBounds(s);
    if a < b && a' < b' {
      assert a == a' by {
        if a < a' { assert false; }
        if a' < a { assert false; }
      }
      assert b == b' by {
        if b < b' { assert false; }
        if b' < b { assert false; }
      }
    } else if a < b {
      assert false;
    } else if a' < b' {
      assert false;
    }
  }

  /** Trailing whitespace added to a string is stripped with the rest. */
  lemma StripAppendSpace(s: string, c: char)
    requires IsSpace(c)
    ensures Strip(s + [c]) == Strip(s)
  {
    var a, b := StripBounds(s);
    var t := s + [c];
    forall j | 0 <= j < a ensures IsSpace(t[j]) {
      assert t[j] == s[j];
    }
    forall j | b <= j < |t| ensures IsSpace(t[j]) {
      if j < |s| {
        assert t[j] == s[j];
      }
    }
    if a < b {
      assert t[a] == s[a] && t[b - 1] == s[b - 1];
    } else {
      forall j | 0 <= j < |t| ensures IsSpace(t[j]) {
        if j < |s| {
          assert t[j] == s[j];
        }
      }
    }
    assert StrippedSlice(t, a, b);
    StripIs(t, a, b);
    assert t[a..b] == s[a..b];
  }

  /** Stripping twice removes nothing more. */
  lemma StripIdempotent(s: string)
    ensures Strip(Strip(s)) == Strip(s)
  {
    var r := Strip(s);
    var a, b :| StrippedSlice(s, a, b) && r == s[a..b];
    if r != [] {
      assert r[0] == s[a] && r[|r| - 1] == s[b - 1];
      assert SkipSpaces(r, 0) == 0;
      assert TrimEnd(r, 0, |r|) == |r|;
    }
  }

  /** `str.lower()` on one character: ASCII and Latin-1 capitals. */
  function LowerChar(c: char): char {
    if 'A' <= c <= 'Z' || ('\U{C0}' <= c <= '\U{DE}' && c != '\U{D7}') then
      (c as int + 32) as char
    else c
  }

  /** `str.upper()` on one character: ASCII and Latin-1 small letters,
      `ÿ` and `µ` (whose capitals lie outside Latin-1). */
  function UpperChar(c: char): char {
    if 'a' <= c <= 'z' || ('\U{E0}' <= c <= '\U{FE}' && c != '\U{F7}') then
      (c as int - 32) as char
    else if c == '\U{FF}' then '\U{178}'
    else if c == '\U{B5}' then '\U{39C}'
    else c
  }

  function Lower(s: string): (r: string)
    ensures |r| == |s|
  {
    seq(|s|, i requires 0 <= i < |s| => LowerChar(s[i]))
  }

  /** Lowercasing leaves a string of small letters, digits and `_` alone. */
  lemma LowerIdentity(s: string)
    requires forall i | 0 <= i < |s| :: 'a' <= s[i] <= 'z' || '0' <= s[i] <= '9' || s[i] == '_'
    ensures Lower(s) == s
  {
  }

  function Upper(s: string): (r: string)
    ensures |r| == |s|
  {
    seq(|s|, i requires 0 <= i < |s| => UpperChar(s[i]))
  }

  /** `str.replace` with one-character arguments: every `from` becomes `to`,
      and no `from` is left unless it is also `to`. */
  function Replace(s: string, from: char, to: char): (r: string)
    ensures |r| == |s|
    ensures forall i | 0 <= i < |s| :: r[i] == (if s[i] == from then to else s[i])
    ensures from != to ==> from !in r
  {
    seq(|s|, i requires 0 <= i < |s| => if s[i] == from then to else s[i])
  }

  /** Replacing characters works piece by piece. */
  lemma ReplaceAppend(a: string, b: string, from: char, to: char)
    ensures Replace(a + b, from, to) == Replace(a, from, to) + Replace(b, from, to)
  {
  }

  predicate OccursAt(s: string, t: string, i: int) {
    0 <= i && i + |t| <= |s| && s[i..i + |t|] == t
  }

  /** The characters an occurrence covers are the pattern's. */
  lemma OccursAtChar(s: string, t: string, p: int, m: nat)
    requires OccursAt(s, t, p) && m < |t|
    ensures s[p + m] == t[m]
  {
    assert s[p..p + |t|][m] == s[p + m];
  }

  /** Python's `t in s`. */
  predicate Contains(s: string, t: string) {
    exists i | 0 <= i <= |s| - |t| :: OccursAt(s, t, i)
  }

  /** An occurrence of a pattern that lowercasing leaves alone survives
      lowercasing the string it occurs in. */
  lemma LowerKeepsOccurrence(s: string, t: string)
    requires Contains(s, t)
    requires Lower(t) == t
    ensures Contains(Lower(s), t)
  {
    var p :| 0 <= p <= |s| - |t| && OccursAt(s, t, p);
    forall k | 0 <= k < |t| ensures Lower(s)[p + k] == t[k] {
      assert s[p..p + |t|][k] == s[p + k];
      assert Lower(t)[k] == LowerChar(t[k]);
    }
    assert Lower(s)[p..p + |t|] == t;
    assert OccursAt(Lower(s), t, p);
  }

  predicate StartsWith(s: string, p: string) {
    |p| <= |s| && s[..|p|] == p
  }

  /** A prefix occurs in the string it starts. */
  lemma StartsWithContains(s: string, p: string)
    requires StartsWith(s, p)
    ensures Contains(s, p)
  {
    assert OccursAt(s, p, 0);
  }

  /** An occurrence inside a slice is an occurrence in the whole string. */
  lemma ContainsSlice(s: string, a: int, b: int, t: string)
    requires 0 <= a <= b <= |s|
    requires Contains(s[a..b], t)
    ensures Contains(s, t)
  {
    var i :| 0 <= i <= (b - a) - |t| && OccursAt(s[a..b], t, i);
    var u := s[a..b][i..i + |t|];
    var w := s[a + i..a + i + |t|];
    assert forall k | 0 <= k < |t| :: w[k] == u[k];
    assert OccursAt(s, t, a + i);
  }
}

=== FILE: wrappers.dfy ===
/** Failure-compatible wrappers used throughout the model: `Option` for Python's
    "value or None" and `Result` for "value or raised exception". */
module Wrappers {

  datatype Option<+T> = None | Some(value: T) {

    predicate IsFailure() {
      None?
    }

    function PropagateFailure<U>(): Option<U>
      requires None?
    {
      None
    }

    function Extract(): T
      requires Some?
    {
      value
    }

    /** The wrapped value, or `default` when there is none. */
    function GetOr(default: T): T {
      match this
      case Some(v) => v
      case None => default
    }
  }

  datatype Result<+R, +E> = Success(value: R) | Failure(error: E) {

    predicate IsFailure() {
      Failure?
    }

    function PropagateFailure<U>(): Result<U, E>
      requires Failure?
    {
      Failure(error)
    }

    function Extract(): R
      requires Success?
    {
      value
    }
  }
}

/** The Python exception classes the modelled code raises or catches. */
module Exceptions {

  datatype Exception =
    | ClientError(code: string, operation: string, message: string)  // botocore.exceptions.ClientError
    | ValueError(message: string)
    | TypeError(message: string)
    | AttributeError(message: string)
    | KeyError(message: string)
    | IndexError(message: string)
    | OtherError(message: string)  // any other exception a collaborator raises
  {
    /** The text `str(e)` yields for the exception. */
    function Message(): string {
      match this
      case ClientError(code, op, msg) => "An error occurred (" + code + ") when calling the " + op + " operation: " + msg
      case ValueError(msg) => msg
      case TypeError(msg) => msg
      case AttributeError(msg) => msg
      case KeyError(msg) => msg
      case IndexError(msg) => msg
      case OtherError(msg) => msg
    }
  }
}
